=== FILE: README.md ===
# Shift scheduling core in Dafny

This project models the scheduling engine of the `shift_scheduling_agent` package, plus two standalone pieces of logic at the repository root.

**The engine**
- The domain records and the `Schedule`, a map from shift id to an ordered list of employee ids.
- The six-rule constraint suite and its validation report.
- The soft-objective scorer.
- The solver:
  - eligibility filtering;
  - greedy construction ordered by hardness;
  - the randomised swap hill-climb;
  - the iteration loop of `solve`.

**The root pieces**
- The simple day-by-day greedy scheduler in `scheduler.py`.
- The keyword intent router of the mock LLM.

**How the model represents the source**
- Everything is an immutable datatype with pure functions. The solver's loops are methods with loop invariants.
- A Python dict is a `Dicts.Dict`: a key sequence in insertion order together with a map. Violation order and the stable-sort tie-breaks both depend on dict iteration order, and this keeps it.
- Instants and durations are whole minutes.
- Randomness is an explicit oracle, `Randomness.Rng`. It is a draw function plus a position, and each `shuffle`/`choice` step consumes one draw.
- The scorer's square root is a `root` oracle. Its lemmas assume only that `root` is non-negative and is zero exactly at zero.
- The wall-clock budget of `solve` is an `inTime` oracle over the iteration number.

Files:
- `seqs.dfy`: `Option`/`Result`, counting, filtering, replace-all and flat-map helpers.
- `dicts.dfy`: insertion-ordered dictionaries.
- `stable_sort.dfy`: the stable sort used for every `list.sort`/`sorted` of the source.
- `randomness.dfy`: `_randbelow`, `choice` and Fisher–Yates `shuffle` over the oracle.
- `domain.dfy`: records, `TimeWindow.contains` and the `Schedule` operations.
- `constraints.dfy`: the six checks, `ConstraintSuite.default` and `validate`.
- `scoring.dfy`: `score_schedule`.
- `solver.dfy`: eligibility, greedy construction, swap improvement and the loop of `solve`.
- `greedy_scheduler.dfy`: the root `SimpleGreedyScheduler`.
- `intent_router.dfy`: `MockLLM.route`.

Two behaviours of the code are worth knowing, and the model keeps both:
- `solve` raises `IndexError` on a configuration with no shifts. The swap step calls `random.choice` on the empty list of shift ids (solver.py:77) as soon as one round runs. The model returns `Failure` in exactly that case (`Solver.Solve`, `Solver.Climb`).
- The "Fairness score is flat (small roster)" note (scoring.py:45-46) is attached whenever the unweighted fairness value is zero. That happens with fewer than two employees, and also whenever every employee carries the same number of shifts. `Scoring.ScoreFlatNote` states both cases.

## Model

| member | source | states |
|---|---|---|
| Domain.ContainsIsEnclosure | Shift-Scheduling-Agent/src/shift_scheduling_agent/domain.py:13-14 | a window contains a non-empty span exactly when every instant of the span lies inside the window |
| Domain.AssignedEmployees | Shift-Scheduling-Agent/src/shift_scheduling_agent/domain.py:78-79 | the stored list for a known shift id, the empty list for an unknown one |
| Domain.EmployeeShiftsCounts | Shift-Scheduling-Agent/src/shift_scheduling_agent/domain.py:81-86 | in the inverted map, `sid` occurs in an employee's list as often as the employee occurs in the list of `sid`, so duplicates are kept |
| Domain.EmployeeShiftsLength | Shift-Scheduling-Agent/src/shift_scheduling_agent/domain.py:81-86 | an employee's inverted list is as long as the number of times they appear across all shift lists |
| Domain.EmployeeShiftsKeys | Shift-Scheduling-Agent/src/shift_scheduling_agent/domain.py:82-86 | the inverted map's keys are exactly the employees listed under some shift, and every inverted list is non-empty |
| Domain.EmployeeShiftsTotal | Shift-Scheduling-Agent/src/shift_scheduling_agent/domain.py:83-85 | inversion preserves the total number of entries |
| Constraints.CoverageExact | Shift-Scheduling-Agent/src/shift_scheduling_agent/constraints.py:70-82 | exactly one UNDER_COVERAGE per configured shift whose assigned count (0 when absent) is below its headcount, carrying the headcount and the count, and none for any other shift |
| Constraints.UnknownShiftReported | Shift-Scheduling-Agent/src/shift_scheduling_agent/constraints.py:23-27 | UNKNOWN_SHIFT is reported for a schedule key exactly when the key is not a configured shift, and it is then the only availability violation naming that key |
| Constraints.UnknownEmployeeReported | Shift-Scheduling-Agent/src/shift_scheduling_agent/constraints.py:28-32 | UNKNOWN_EMPLOYEE is reported for a listed employee of a known shift exactly when the employee is not configured; the assignees of an unknown shift are not examined |
| Constraints.NotAvailableReported | Shift-Scheduling-Agent/src/shift_scheduling_agent/constraints.py:33-41 | NOT_AVAILABLE is reported for a known employee of a known shift exactly when none of the employee's windows contains the shift |
| Constraints.AvailabilityShape | Shift-Scheduling-Agent/src/shift_scheduling_agent/constraints.py:21-42 | every availability violation names a schedule key and is one of the three availability codes |
| Constraints.SkillsReported | Shift-Scheduling-Agent/src/shift_scheduling_agent/constraints.py:45-67 | MISSING_SKILL is reported for a pair exactly when both ids are known, the shift's required skills are non-empty and not a subset of the employee's skills; it carries that requirement |
| Constraints.SkillsShape | Shift-Scheduling-Agent/src/shift_scheduling_agent/constraints.py:54-66 | every skill violation names a shift and an employee lacking a required skill |
| Constraints.MaxShiftsOnce | Shift-Scheduling-Agent/src/shift_scheduling_agent/constraints.py:85-98 | one MAX_SHIFTS_WEEK per employee whose assignment count exceeds the cap, however far over, and none otherwise |
| Constraints.MaxShiftsShape | Shift-Scheduling-Agent/src/shift_scheduling_agent/constraints.py:89-97 | every such violation names an employee over the cap together with the count and the cap |
| Constraints.KnownShiftsExact | Shift-Scheduling-Agent/src/shift_scheduling_agent/constraints.py:107 | unknown shift ids are dropped, and the rest are resolved in order |
| Constraints.RestViolationsNoneIff | Shift-Scheduling-Agent/src/shift_scheduling_agent/constraints.py:108-117 | over start-sorted shifts, there is no MIN_REST violation exactly when every adjacent gap is at least the minimum rest |
| Constraints.MinRestExact | Shift-Scheduling-Agent/src/shift_scheduling_agent/constraints.py:101-118 | an employee's MIN_REST count is the per-adjacent-pair count over their sorted known shifts, is at most one less than the number of those shifts, and is zero exactly when the employee is well rested |
| Constraints.MinRestShape | Shift-Scheduling-Agent/src/shift_scheduling_agent/constraints.py:111-116 | every MIN_REST violation names an employee and no shift |
| Constraints.RunAt | Shift-Scheduling-Agent/src/shift_scheduling_agent/constraints.py:129-135 | the run counter at a position is between 1 and the position plus one |
| Constraints.ScanRunsFinds | Shift-Scheduling-Agent/src/shift_scheduling_agent/constraints.py:130-144 | the scan with its early break fires exactly when the run counter exceeds the cap at some later pair |
| Constraints.MaxConsecutiveMeaning | Shift-Scheduling-Agent/src/shift_scheduling_agent/constraints.py:129-144 | the check fires exactly when some chain of `cap` consecutive gaps of at most 18 hours exists, or, for a cap below 1, when there are at least two shifts |
| Constraints.MaxConsecutiveOnce | Shift-Scheduling-Agent/src/shift_scheduling_agent/constraints.py:121-145 | at most one MAX_CONSECUTIVE per employee, emitted exactly when their sorted known shifts exceed the cap |
| Constraints.MaxConsecutiveShape | Shift-Scheduling-Agent/src/shift_scheduling_agent/constraints.py:137-143 | every such violation names an employee and carries the cap |
| Constraints.ValidateCollects | Shift-Scheduling-Agent/src/shift_scheduling_agent/constraints.py:176-177 | a violation is reported exactly when one of the suite's checks emits it |
| Constraints.ValidateDefault | Shift-Scheduling-Agent/src/shift_scheduling_agent/constraints.py:174-178 | the default report is the six checks' outputs concatenated in suite order, none skipped |
| Constraints.ValidateOkIff | Shift-Scheduling-Agent/src/shift_scheduling_agent/constraints.py:174-178 | the default report is ok exactly when every check returns nothing |
| Constraints.ValidateGrouped | Shift-Scheduling-Agent/src/shift_scheduling_agent/constraints.py:164-177 | violations appear grouped by check, in suite order |
| Constraints.EmptyScheduleNotOk | Shift-Scheduling-Agent/tests/test_constraints.py:11-14 | an empty schedule is never ok when some shift requires staff |
| Scoring.ShiftCountsAreOccurrences | Shift-Scheduling-Agent/src/shift_scheduling_agent/scoring.py:26-27 | one count per configured employee, in config order; each is that employee's number of assignments, 0 when unassigned |
| Scoring.VarianceZeroIff | Shift-Scheduling-Agent/src/shift_scheduling_agent/scoring.py:28 | the exact population variance is non-negative and zero exactly when all counts are equal |
| Scoring.FairnessZeroIff | Shift-Scheduling-Agent/src/shift_scheduling_agent/scoring.py:28 | the fairness value is at most 0, and is 0 exactly when there are fewer than two employees or all counts are equal |
| Scoring.ScoreFairnessNonPositive | Shift-Scheduling-Agent/src/shift_scheduling_agent/scoring.py:28-29 | with a non-negative weight, the fairness component is never positive |
| Scoring.EarnsPointIff | Shift-Scheduling-Agent/src/shift_scheduling_agent/scoring.py:38-41 | an assignment earns a point exactly when the shift's required skills meet the employee's preferred skills, so both sets are non-empty |
| Scoring.ShiftPoints | Shift-Scheduling-Agent/src/shift_scheduling_agent/scoring.py:37-41 | a shift's points are at most its number of assignees |
| Scoring.ShiftPointsAll | Shift-Scheduling-Agent/src/shift_scheduling_agent/scoring.py:37-41 | a shift scores all its assignees exactly when each earns a point, and none exactly when none does |
| Scoring.PreferencePointsBound | Shift-Scheduling-Agent/src/shift_scheduling_agent/scoring.py:32-42 | the point count is bounded by the total number of assignments |
| Scoring.PreferencePointsZeroIff | Shift-Scheduling-Agent/src/shift_scheduling_agent/scoring.py:33-41 | no points exactly when no assignment to a known shift earns one; unknown shifts contribute nothing |
| Scoring.ScorePreferences | Shift-Scheduling-Agent/src/shift_scheduling_agent/scoring.py:42 | for a non-negative weight, the preference component is points times weight, between 0 and the weighted number of assignments |
| Scoring.ScorePreferencesZero | Shift-Scheduling-Agent/src/shift_scheduling_agent/scoring.py:32-42 | with a positive weight, the preference component is zero exactly when no assignment earns a point |
| Scoring.EvenLoadIff | Shift-Scheduling-Agent/src/shift_scheduling_agent/scoring.py:27 | all counts are equal exactly when every configured employee has the same number of assignments |
| Scoring.ScoreFlatNote | Shift-Scheduling-Agent/src/shift_scheduling_agent/scoring.py:45-46 | the flat note is attached exactly when there are fewer than two employees or the load is even |
| Solver.EligibleIff | Shift-Scheduling-Agent/src/shift_scheduling_agent/solver.py:26-29 | eligible exactly when the skills cover the requirement (vacuous when it is empty) and some availability window contains the shift |
| Solver.EligibleEmployees | Shift-Scheduling-Agent/src/shift_scheduling_agent/solver.py:22-31 | the result has no duplicates and holds exactly the configured employees that are eligible |
| Solver.EligibleInConfigOrder | Shift-Scheduling-Agent/src/shift_scheduling_agent/solver.py:25-30 | the eligible list follows config order |
| Solver.ShiftOrderSpec | Shift-Scheduling-Agent/src/shift_scheduling_agent/solver.py:37-38 | the processing order is a permutation of the shift ids, ascending in eligible count, keeping config order among shifts of equal count |
| Solver.ShiftOrderLists | Shift-Scheduling-Agent/src/shift_scheduling_agent/solver.py:37-38 | the processing order lists every configured shift exactly once |
| Solver.Candidates | Shift-Scheduling-Agent/src/shift_scheduling_agent/solver.py:44-48 | the candidates are a duplicate-free permutation of the eligible employees, sorted by current load, and employees of equal load keep their shuffled order |
| Solver.TakeIfBelow | Shift-Scheduling-Agent/src/shift_scheduling_agent/solver.py:53-57 | one candidate is appended exactly when its load is below the cap, and the picks stay the below-cap candidates of the scanned prefix |
| Solver.ChooseStaff | Shift-Scheduling-Agent/src/shift_scheduling_agent/solver.py:50-57 | the picks are the below-cap candidates of a prefix of the sorted list, in its order, and the scan stopped early only once `req` were taken; no duplicates; at most `max(0, req)`; each pick raises that employee's load by one; a short pick leaves every skipped candidate at the cap |
| Solver.GreedyConstruct | Shift-Scheduling-Agent/src/shift_scheduling_agent/solver.py:34-61 | every shift gets an entry, in processing order; each list is eligible, duplicate-free and within headcount; no employee exceeds the weekly cap; a shift is short only when every unpicked eligible employee is at the cap |
| Solver.GreedyChecks | Shift-Scheduling-Agent/src/shift_scheduling_agent/solver.py:44-59 | a greedy-built schedule has no availability, skill or weekly-cap violation |
| Solver.ProposeSwap | Shift-Scheduling-Agent/src/shift_scheduling_agent/solver.py:93-95 | the proposal changes only the lists of the two shifts, keeps every length, and replaces e1 by e2 in the first and e2 by e1 in the second |
| Solver.SwapMoves | Shift-Scheduling-Agent/src/shift_scheduling_agent/solver.py:93-95 | after a proposal, e2 is in the first list and e1 in the second, and no other employee's membership changes |
| Solver.SwapUndo | Shift-Scheduling-Agent/src/shift_scheduling_agent/solver.py:93-95 | proposing the reverse swap restores the schedule |
| Solver.Climb | Shift-Scheduling-Agent/src/shift_scheduling_agent/solver.py:64-106 | fails exactly when a step runs with no shifts; otherwise the result and the generator are those of `max(0, max_steps)` climb steps from the input, where each step draws two shifts and one assignee of each and moves to the swapped schedule exactly when it passes the acceptance test and scores no lower than the current best; the result is the input or accepted, scores at least the input's score and keeps the shape |
| Solver.TrySwapImprovements | Shift-Scheduling-Agent/src/shift_scheduling_agent/solver.py:64-106 | fails exactly when a step runs with no shifts; otherwise reports `max(0, max_steps)` steps and returns either the input or a fully valid schedule, scoring at least the input's score, with the same shifts and list lengths; the result is exactly that of the climb steps with the whole-suite test and the schedule score |
| Solver.RunRound | Shift-Scheduling-Agent/src/shift_scheduling_agent/solver.py:126-128 | one round fails exactly when there are no shifts; otherwise it leads to the state after twenty climb steps, where the climbed schedule replaces the current one when their assignments differ; it keeps the input or reaches an accepted schedule with no lower score |
| Solver.AfterRoundsIff | Shift-Scheduling-Agent/src/shift_scheduling_agent/solver.py:124-128 | the guarded statement about the loop state holds exactly when `n` rounds from the start end in that schedule and generator |
| Solver.Iterate | Shift-Scheduling-Agent/src/shift_scheduling_agent/solver.py:120-133 | runs at most `max(1, max_iterations)` rounds and stops only at that bound or when out of time; never lowers the score; keeps the input or reaches a valid schedule; notes are valid-schedule notes, at most one per 50 rounds, exactly one per 50 rounds when the start is valid, and any note means the final schedule is valid; the final schedule is where that many rounds from the start lead |
| Solver.Improve | Shift-Scheduling-Agent/src/shift_scheduling_agent/solver.py:117-139 | `ok` is the final validation result; the not-valid note is the last note exactly when `ok` is false; a valid start stays valid and gets one note per 50 rounds; the iteration bound and score monotonicity carry over; the schedule is the result of that many rounds of climbing from the start |
| Solver.Solve | Shift-Scheduling-Agent/src/shift_scheduling_agent/solver.py:109-140 | fails exactly when there are no shifts and a round starts; otherwise at most `max(1, max_iterations)` rounds, `ok` is the final validation, notes as in `Improve`, every shift keeps an entry, and no availability, skill or weekly-cap violation remains |
| Randomness.Choice | Shift-Scheduling-Agent/src/shift_scheduling_agent/solver.py:77 | choosing from an empty list fails; otherwise the result is an element of the list and one draw is used |
| Randomness.Pick | Shift-Scheduling-Agent/src/shift_scheduling_agent/solver.py:87-88 | the pick is an element of a non-empty list and one draw is used |
| Randomness.Shuffle | Shift-Scheduling-Agent/src/shift_scheduling_agent/solver.py:47 | the shuffle is a permutation and uses one draw per position after the first |
| StableSort.SortBy | Shift-Scheduling-Agent/src/shift_scheduling_agent/solver.py:48 | sorting gives a sorted permutation of the input |
| StableSort.SortIsStable | Shift-Scheduling-Agent/src/shift_scheduling_agent/solver.py:48 | the sort keeps input order among equal keys |
| GreedyScheduler.ShiftEnd | scheduler.py:77-82 | the end is strictly after the start and at most a day later; a day is added exactly when the end clock time is not after the start clock time |
| GreedyScheduler.ShiftLength | scheduler.py:73-82 | the shift length is the clock difference wrapped into 1 to 1440 minutes |
| GreedyScheduler.HasRequiredSkills | scheduler.py:84-87 | true exactly when every required skill is among the member's skills, so vacuously true when nothing is required |
| GreedyScheduler.PickStaff | scheduler.py:89-120 | none exactly when no member passes the skill, hour-cap and rest filters; otherwise a passing staff member whose current hours are minimal among those passing |
| GreedyScheduler.PickStaffEarliest | scheduler.py:116-120 | the pick is the earliest passing member, in staff order, among those with minimal hours |
| GreedyScheduler.ShiftsByHoursSpec | scheduler.py:45-46 | shifts are tried in descending order of length, as a permutation of the configured shifts, keeping config order among equal lengths |
| GreedyScheduler.AssignStep | scheduler.py:63-67 | recording a qualifying pick keeps the hour and rest books consistent with the assignments, and keeps every member within their caps, skilled and rested |
| GreedyScheduler.Visit | scheduler.py:51-67 | when the staff pick for that day and shift finds nobody, the gap is logged and nothing else changes; otherwise the picked member is assigned and their hours and last end are booked; so each visit adds exactly one assignment or one violation |
| GreedyScheduler.FillDay | scheduler.py:50-67 | one day is the visits of the shifts in descending length, in that order; it adds one entry per shift, with that day's assignments after all earlier days |
| GreedyScheduler.FillWeek | scheduler.py:48-67 | the week is each day's visits in turn, from an empty week; assignments plus violations number days times shifts, day by day in order |
| GreedyScheduler.GenerateWeek | scheduler.py:32-69 | the result is exactly the assignments and violations of visiting every day and every shift in descending length from an empty week; assignments plus violations equal `max(0, days)` × shifts; assignments ordered by day, then descending length; each within the requested days, for a configured shift, to a member with its required skills; hours within the global cap and the member's own cap; rest respected before each assignment |
| IntentRouter.Strip | Shift-Scheduling-Agent/src/shift_scheduling_agent/mock_llm.py:22 | the result is the input minus its leading and trailing whitespace, and has no whitespace at either end |
| IntentRouter.NormalizeIgnoresPadding | Shift-Scheduling-Agent/src/shift_scheduling_agent/mock_llm.py:22 | surrounding whitespace does not change the normalised text |
| IntentRouter.NormalizeIgnoresCase | Shift-Scheduling-Agent/src/shift_scheduling_agent/mock_llm.py:22 | texts that agree after lowercasing normalise alike |
| IntentRouter.NormalizeIdempotent | Shift-Scheduling-Agent/src/shift_scheduling_agent/mock_llm.py:22 | normalising twice is normalising once |
| IntentRouter.Contains | Shift-Scheduling-Agent/src/shift_scheduling_agent/mock_llm.py:27 | substring search answers exactly whether the keyword occurs at some position |
| IntentRouter.AnyIn | Shift-Scheduling-Agent/src/shift_scheduling_agent/mock_llm.py:24 | true exactly when some keyword of the list occurs |
| IntentRouter.RouteNormal | Shift-Scheduling-Agent/src/shift_scheduling_agent/mock_llm.py:24-36 | a tool is chosen exactly when its keyword group matches and no earlier group does; none exactly when no group matches; args are always empty |
| IntentRouter.RouteNormalized | Shift-Scheduling-Agent/src/shift_scheduling_agent/mock_llm.py:21-22 | routing ignores surrounding whitespace and letter case, and agrees with routing the normalised text |
| IntentRouter.FairnessRedundant | Shift-Scheduling-Agent/src/shift_scheduling_agent/mock_llm.py:30 | the "fairness" keyword adds nothing beyond "fair" |

## Left out

- `Schedule.copy`: values are immutable here, so a copy is the schedule itself (`Domain.Copy`). Lists in a copy are independent of the original by construction.
- The wall-clock budget of `solve` (`time.time()`, `max_seconds`) is the `inTime` oracle over the round number. The elapsed `seconds` field of the result is not modelled.
- Mersenne Twister and seed reproducibility are not modelled. `random.Random` is the `Rng` oracle.
- Randomness.Choice: one draw per call. The retry loop of `_randbelow` (rejection sampling) is not modelled, so the number of draws consumed is not the library's.
- The magnitude of `pstdev` and floating-point rounding are left out. The variance is computed exactly over the reals, and the square root is an oracle that is only known to be non-negative and zero exactly at zero.
- `Shift.duration_hours` and `ShiftDefinition.compute_hours` are float divisions. The root scheduler keeps shift lengths and hour totals in whole minutes, and caps are hours × 60.
- Violation messages are not rendered as text. Each code carries the values its message quotes. The solver's note texts are not rendered either.
- A constraint suite holds a `Rule` tag per check instead of a Python callable.
- Config and schedule loading (JSON/YAML), tools, the command-line programs, the agent loops, the LLM client stub and the evaluation runner under `evals` are not part of this model. They are file I/O, prompt text and glue.
- `backtracking_limit` is not modelled. No code reads it.
- `str.strip`/`str.lower` are modelled for ASCII letters and the ASCII whitespace characters only. Unicode case mapping and Unicode whitespace are not modelled.
- GreedyScheduler.Assignment keeps the whole shift record rather than only its id, so that the rest and hour statements can be read off the result.
- GreedyScheduler.ShiftDefinition: the `label` field is called `title`, because `label` is a Dafny keyword.
- GreedyScheduler.GenerateWeek: the per-member hour cap is stated only for members whose id is unique in the staff list. Members that share an id share one hours entry, as the source's dict does, so only the global cap bounds them.
- GreedyScheduler.GenerateWeek: days are integers from the start day. Calendar dates and `isoformat` in the violation text are not modelled.
- Determinism ("the same inputs give the same violations") needs no lemma, because every check here is a function.

=== FILE: constraints.dfy ===
/**
 The hard constraints of a schedule and the suite that runs them.

 Each check walks a dictionary in insertion order and emits its violations in
 that order, so every check is a `FlatMap` over the items of the dictionary it
 walks. A violation keeps its code, the shift and employee it names, and the
 numbers its message would quote; the message text is not rendered.
 */
module Constraints {
  import opened Wrappers
  import opened Seqs
  import opened FlatMaps
  import opened StableSort
  import opened Dicts
  import opened Domain

  /** Next shift starting at most this many minutes after the previous one ends extends a run (18 hours). */
  const ConsecutiveGap: int := 18 * 60

  datatype Code =
    | UnderCoverage(needed: int, actual: nat)
    | UnknownShift
    | UnknownEmployee
    | NotAvailable
    | MissingSkill(skills: set<string>)
    | MaxShiftsWeek(listed: nat, cap: int)
    | MinRest(before: string, after: string)
    | MaxConsecutive(cap: int)
  {
    /** The stable code string of the violation. */
    function Name(): string
    {
      match this
      case UnderCoverage(_, _) => "UNDER_COVERAGE"
      case UnknownShift => "UNKNOWN_SHIFT"
      case UnknownEmployee => "UNKNOWN_EMPLOYEE"
      case NotAvailable => "NOT_AVAILABLE"
      case MissingSkill(_) => "MISSING_SKILL"
      case MaxShiftsWeek(_, _) => "MAX_SHIFTS_WEEK"
      case MinRest(_, _) => "MIN_REST"
      case MaxConsecutive(_) => "MAX_CONSECUTIVE"
    }

    /** Position of the producing check in the default suite. */
    function Stage(): nat
    {
      if UnderCoverage? then 0
      else if UnknownShift? || UnknownEmployee? || NotAvailable? then 1
      else if MissingSkill? then 2
      else if MaxShiftsWeek? then 3
      else if MinRest? then 4
      else 5
    }
  }

  /** The check each code belongs to, by position in the default suite. */
  lemma StageValues(c: Code)
    ensures c.UnderCoverage? ==> c.Stage() == 0
    ensures c.UnknownShift? || c.UnknownEmployee? || c.NotAvailable? ==> c.Stage() == 1
    ensures c.MissingSkill? ==> c.Stage() == 2
    ensures c.MaxShiftsWeek? ==> c.Stage() == 3
    ensures c.MinRest? ==> c.Stage() == 4
    ensures c.MaxConsecutive? ==> c.Stage() == 5
  {
  }

  datatype Violation = Violation(code: Code, shiftId: Option<string>, employeeId: Option<string>)

  function ShiftTag(v: Violation): Option<string> { v.shiftId }

  function EmployeeTag(v: Violation): Option<string> { v.employeeId }

  /** Number of violations whose `tag` names `k`. */
  function CountTag(vs: seq<Violation>, tag: Violation -> Option<string>, k: string): nat
  {
    if |vs| == 0 then 0
    else CountTag(vs[..|vs| - 1], tag, k) + (if tag(vs[|vs| - 1]) == Some(k) then 1 else 0)
  }

  lemma {:induction false} CountTagAppend(a: seq<Violation>, b: seq<Violation>, tag: Violation -> Option<string>, k: string)
    ensures CountTag(a + b, tag, k) == CountTag(a, tag, k) + CountTag(b, tag, k)
    decreases |b|
  {
    if |b| == 0 {
      assert a + b == a;
    } else {
      assert (a + b)[..|a + b| - 1] == a + b[..|b| - 1];
      CountTagAppend(a, b[..|b| - 1], tag, k);
    }
  }

  lemma {:induction false} CountTagUniform(vs: seq<Violation>, tag: Violation -> Option<string>, k: string, key: string)
    requires forall v :: v in vs ==> tag(v) == Some(key)
    ensures CountTag(vs, tag, k) == if key == k then |vs| else 0
  {
    if |vs| > 0 {
      var init := vs[..|vs| - 1];
      assert forall v :: v in init ==> v in vs;
      CountTagUniform(init, tag, k, key);
      assert vs[|vs| - 1] in vs;
    }
  }

  /**
   A loop over `d.items()` whose body emits violations tagged with the
   current key: the violations naming a key are exactly those its own entry
   produced.
   */
  lemma {:induction false} CountTagItems<V>(d: Dict<V>, f: ((string, V)) -> seq<Violation>,
                                           tag: Violation -> Option<string>, k: string, n: nat)
    requires n <= |d.keys|
    requires forall key, v :: key in d.m && v in f((key, d.m[key])) ==> tag(v) == Some(key)
    ensures CountTag(FlatMap(Items(d)[..n], f), tag, k)
            == if k in d.keys[..n] then |f((k, d.m[k]))| else 0
  {
    if n > 0 {
      var items := Items(d);
      var key := d.keys[n - 1];
      CountTagItems(d, f, tag, k, n - 1);
      FlatMapPrefix(items, f, n);
      assert items[n - 1] == (key, d.m[key]);
      CountTagAppend(FlatMap(items[..n - 1], f), f((key, d.m[key])), tag, k);
      CountTagUniform(f((key, d.m[key])), tag, k, key);
      KeysDistinct(d);
      InPrefix(d.keys, n, k);
    }
  }

  lemma CountTagAll<V>(d: Dict<V>, f: ((string, V)) -> seq<Violation>, tag: Violation -> Option<string>, k: string)
    requires forall key, v :: key in d.m && v in f((key, d.m[key])) ==> tag(v) == Some(key)
    ensures CountTag(FlatMap(Items(d), f), tag, k) == if k in d.m then |f((k, d.m[k]))| else 0
  {
    CountTagItems(d, f, tag, k, |d.keys|);
    assert Items(d)[..|d.keys|] == Items(d);
    assert d.keys[..|d.keys|] == d.keys;
  }

  // ---- coverage ----

  /** The shift is configured and has fewer people than it requires. */
  predicate UnderCovered(cfg: Config, s: Schedule, sid: string)
  {
    sid in cfg.shifts.m && |AssignedEmployees(s, sid)| < cfg.shifts.m[sid].requiredHeadcount
  }

  function CoverageOf(s: Schedule, sid: string, shift: Shift): seq<Violation>
  {
    var onShift := AssignedEmployees(s, sid);
    if |onShift| < shift.requiredHeadcount
    then [Violation(UnderCoverage(shift.requiredHeadcount, |onShift|), Some(sid), None)]
    else []
  }

  function CoverageStep(s: Schedule): ((string, Shift)) -> seq<Violation>
  {
    (item: (string, Shift)) => CoverageOf(s, item.0, item.1)
  }

  /** One `UNDER_COVERAGE` per configured shift with too few people, in configuration order. */
  function CoverageViolations(cfg: Config, s: Schedule): seq<Violation>
  {
    FlatMap(Items(cfg.shifts), CoverageStep(s))
  }

  /** Every configured shift is reported once if it is under-covered and never otherwise; each report quotes the required and actual counts. */
  lemma CoverageExact(cfg: Config, s: Schedule, sid: string)
    ensures CountTag(CoverageViolations(cfg, s), ShiftTag, sid) == if UnderCovered(cfg, s, sid) then 1 else 0
    ensures forall v :: v in CoverageViolations(cfg, s) ==>
              && v.shiftId.Some? && v.employeeId.None?
              && UnderCovered(cfg, s, v.shiftId.value)
              && v.code == UnderCoverage(cfg.shifts.m[v.shiftId.value].requiredHeadcount,
                                         |AssignedEmployees(s, v.shiftId.value)|)
  {
    var f := CoverageStep(s);
    forall key, v | key in cfg.shifts.m && v in f((key, cfg.shifts.m[key]))
      ensures ShiftTag(v) == Some(key)
    {
    }
    CountTagAll(cfg.shifts, f, ShiftTag, sid);
    forall v | v in CoverageViolations(cfg, s)
      ensures && v.shiftId.Some? && v.employeeId.None?
              && UnderCovered(cfg, s, v.shiftId.value)
              && v.code == UnderCoverage(cfg.shifts.m[v.shiftId.value].requiredHeadcount,
                                         |AssignedEmployees(s, v.shiftId.value)|)
    {
      InFlatMapItems(cfg.shifts, f, v);
    }
  }

  // ---- availability ----

  function AssigneeAvailability(cfg: Config, sid: string, shift: Shift, eid: string): seq<Violation>
  {
    match Get(cfg.employees, eid)
    case None => [Violation(UnknownEmployee, Some(sid), Some(eid))]
    case Some(emp) =>
      if !AvailableFor(emp, shift) then [Violation(NotAvailable, Some(sid), Some(eid))] else []
  }

  function AssigneeAvailabilityStep(cfg: Config, sid: string, shift: Shift): string -> seq<Violation>
  {
    eid => AssigneeAvailability(cfg, sid, shift, eid)
  }

  function ShiftAvailability(cfg: Config, sid: string, eids: seq<string>): seq<Violation>
  {
    match Get(cfg.shifts, sid)
    case None => [Violation(UnknownShift, Some(sid), None)]
    case Some(shift) => FlatMap(eids, AssigneeAvailabilityStep(cfg, sid, shift))
  }

  function AvailabilityStep(cfg: Config): ((string, seq<string>)) -> seq<Violation>
  {
    (item: (string, seq<string>)) => ShiftAvailability(cfg, item.0, item.1)
  }

  /** Unknown shifts, unknown employees and unavailable employees, in schedule order. */
  function AvailabilityViolations(cfg: Config, s: Schedule): seq<Violation>
  {
    FlatMap(Items(s.assignments), AvailabilityStep(cfg))
  }


  lemma AssigneeAvailabilityMember(cfg: Config, sid: string, shift: Shift, eids: seq<string>, v: Violation)
    ensures v in FlatMap(eids, AssigneeAvailabilityStep(cfg, sid, shift)) <==>
              exists eid :: eid in eids && v in AssigneeAvailability(cfg, sid, shift, eid)
  {
    InFlatMap(eids, AssigneeAvailabilityStep(cfg, sid, shift), v);
    if exists eid :: eid in eids && v in AssigneeAvailability(cfg, sid, shift, eid) {
      var eid :| eid in eids && v in AssigneeAvailability(cfg, sid, shift, eid);
      var j := IndexOf(eids, eid);
    }
  }

  /** Every violation a scheduled shift contributes names that shift and is one of the three availability codes. */
  lemma ShiftAvailabilityTagged(cfg: Config, sid: string, eids: seq<string>, v: Violation)
    requires v in ShiftAvailability(cfg, sid, eids)
    ensures v.shiftId == Some(sid) && v.code in {UnknownShift, UnknownEmployee, NotAvailable}
  {
    if sid in cfg.shifts.m {
      AssigneeAvailabilityMember(cfg, sid, cfg.shifts.m[sid], eids, v);
    }
  }

  /** A violation naming `sid` is reported iff the schedule lists `sid` and its own entry produced it. */
  lemma AvailabilityOfShift(cfg: Config, s: Schedule, sid: string, v: Violation)
    requires v.shiftId == Some(sid)
    ensures v in AvailabilityViolations(cfg, s) <==>
              sid in s.assignments.m && v in ShiftAvailability(cfg, sid, s.assignments.m[sid])
  {
    var a := s.assignments;
    var f := AvailabilityStep(cfg);
    InFlatMapItems(a, f, v);
    if v in AvailabilityViolations(cfg, s) {
      var k :| k in a.m && v in f((k, a.m[k]));
      ShiftAvailabilityTagged(cfg, k, a.m[k], v);
    }
    if sid in a.m && v in ShiftAvailability(cfg, sid, a.m[sid]) {
      assert v in f((sid, a.m[sid]));
    }
  }

  /** The availability check only names scheduled shifts, with the three availability codes. */
  lemma AvailabilityShape(cfg: Config, s: Schedule)
    ensures forall v :: v in AvailabilityViolations(cfg, s) ==>
              && v.shiftId.Some? && v.shiftId.value in s.assignments.m
              && v.code in {UnknownShift, UnknownEmployee, NotAvailable}
  {
    var a := s.assignments;
    var f := AvailabilityStep(cfg);
    forall v | v in AvailabilityViolations(cfg, s)
      ensures && v.shiftId.Some? && v.shiftId.value in a.m
              && v.code in {UnknownShift, UnknownEmployee, NotAvailable}
    {
      InFlatMapItems(a, f, v);
      var k :| k in a.m && v in f((k, a.m[k]));
      ShiftAvailabilityTagged(cfg, k, a.m[k], v);
    }
  }

  /**
   `UNKNOWN_SHIFT` is reported exactly for scheduled shifts missing from the
   configuration, and it is then the only availability violation naming that
   shift: its assignees are not examined.
   */
  lemma UnknownShiftReported(cfg: Config, s: Schedule, sid: string)
    ensures Violation(UnknownShift, Some(sid), None) in AvailabilityViolations(cfg, s)
            <==> sid in s.assignments.m && sid !in cfg.shifts.m
    ensures sid in s.assignments.m && sid !in cfg.shifts.m ==>
              CountTag(AvailabilityViolations(cfg, s), ShiftTag, sid) == 1
  {
    var u := Violation(UnknownShift, Some(sid), None);
    AvailabilityOfShift(cfg, s, sid, u);
    if sid in s.assignments.m && sid in cfg.shifts.m {
      AssigneeAvailabilityMember(cfg, sid, cfg.shifts.m[sid], s.assignments.m[sid], u);
    }
    var a := s.assignments;
    var f := AvailabilityStep(cfg);
    forall key, v | key in a.m && v in f((key, a.m[key]))
      ensures ShiftTag(v) == Some(key)
    {
      ShiftAvailabilityTagged(cfg, key, a.m[key], v);
    }
    CountTagAll(a, f, ShiftTag, sid);
  }

  /** `UNKNOWN_EMPLOYEE` is reported exactly for unknown ids listed under configured shifts. */
  lemma UnknownEmployeeReported(cfg: Config, s: Schedule, sid: string, eid: string)
    ensures Violation(UnknownEmployee, Some(sid), Some(eid)) in AvailabilityViolations(cfg, s)
            <==> Listed(s, sid, eid) && sid in cfg.shifts.m && eid !in cfg.employees.m
  {
    var u := Violation(UnknownEmployee, Some(sid), Some(eid));
    AvailabilityOfShift(cfg, s, sid, u);
    if sid in s.assignments.m && sid in cfg.shifts.m {
      AssigneeAvailabilityMember(cfg, sid, cfg.shifts.m[sid], s.assignments.m[sid], u);
    }
  }

  /** `NOT_AVAILABLE` is reported exactly for known employees, listed under configured shifts, with no window enclosing the shift. */
  lemma NotAvailableReported(cfg: Config, s: Schedule, sid: string, eid: string)
    ensures Violation(NotAvailable, Some(sid), Some(eid)) in AvailabilityViolations(cfg, s)
            <==> && Listed(s, sid, eid) && sid in cfg.shifts.m && eid in cfg.employees.m
                 && !AvailableFor(cfg.employees.m[eid], cfg.shifts.m[sid])
  {
    var u := Violation(NotAvailable, Some(sid), Some(eid));
    AvailabilityOfShift(cfg, s, sid, u);
    if sid in s.assignments.m && sid in cfg.shifts.m {
      AssigneeAvailabilityMember(cfg, sid, cfg.shifts.m[sid], s.assignments.m[sid], u);
    }
  }

  // ---- skills ----

  function AssigneeSkills(cfg: Config, sid: string, req: set<string>, eid: string): seq<Violation>
  {
    match Get(cfg.employees, eid)
    case None => []
    case Some(emp) =>
      if !(req <= emp.skills) then [Violation(MissingSkill(req), Some(sid), Some(eid))] else []
  }

  function AssigneeSkillsStep(cfg: Config, sid: string, req: set<string>): string -> seq<Violation>
  {
    eid => AssigneeSkills(cfg, sid, req, eid)
  }

  function ShiftSkills(cfg: Config, sid: string, eids: seq<string>): seq<Violation>
  {
    match Get(cfg.shifts, sid)
    case None => []
    case Some(shift) =>
      if shift.requiredSkills == {} then []
      else FlatMap(eids, AssigneeSkillsStep(cfg, sid, shift.requiredSkills))
  }

  function SkillsStep(cfg: Config): ((string, seq<string>)) -> seq<Violation>
  {
    (item: (string, seq<string>)) => ShiftSkills(cfg, item.0, item.1)
  }

  /** Known employees on known shifts lacking some required skill, in schedule order. */
  function SkillsViolations(cfg: Config, s: Schedule): seq<Violation>
  {
    FlatMap(Items(s.assignments), SkillsStep(cfg))
  }

  /** The known employee listed under the known shift lacks one of its (non-empty) required skills. */
  predicate LacksSkill(cfg: Config, s: Schedule, sid: string, eid: string)
  {
    && Listed(s, sid, eid) && sid in cfg.shifts.m && eid in cfg.employees.m
    && cfg.shifts.m[sid].requiredSkills != {}
    && !(cfg.shifts.m[sid].requiredSkills <= cfg.employees.m[eid].skills)
  }

  lemma AssigneeSkillsMember(cfg: Config, sid: string, req: set<string>, eids: seq<string>, v: Violation)
    ensures v in FlatMap(eids, AssigneeSkillsStep(cfg, sid, req)) <==>
              exists eid :: eid in eids && v in AssigneeSkills(cfg, sid, req, eid)
  {
    InFlatMap(eids, AssigneeSkillsStep(cfg, sid, req), v);
    if exists eid :: eid in eids && v in AssigneeSkills(cfg, sid, req, eid) {
      var eid :| eid in eids && v in AssigneeSkills(cfg, sid, req, eid);
      var j := IndexOf(eids, eid);
    }
  }

  /** Every violation a scheduled shift contributes is a `MISSING_SKILL` of one of its listed employees. */
  lemma ShiftSkillsTagged(cfg: Config, sid: string, eids: seq<string>, v: Violation)
    requires v in ShiftSkills(cfg, sid, eids)
    ensures sid in cfg.shifts.m && cfg.shifts.m[sid].requiredSkills != {}
    ensures v.shiftId == Some(sid) && v.employeeId.Some? && v.employeeId.value in eids
    ensures v.employeeId.value in cfg.employees.m
    ensures !(cfg.shifts.m[sid].requiredSkills <= cfg.employees.m[v.employeeId.value].skills)
    ensures v.code == MissingSkill(cfg.shifts.m[sid].requiredSkills)
  {
    AssigneeSkillsMember(cfg, sid, cfg.shifts.m[sid].requiredSkills, eids, v);
  }

  /** A violation naming `sid` is reported iff the schedule lists `sid` and its own entry produced it. */
  lemma SkillsOfShift(cfg: Config, s: Schedule, sid: string, v: Violation)
    requires v.shiftId == Some(sid)
    ensures v in SkillsViolations(cfg, s) <==>
              sid in s.assignments.m && v in ShiftSkills(cfg, sid, s.assignments.m[sid])
  {
    var a := s.assignments;
    var f := SkillsStep(cfg);
    InFlatMapItems(a, f, v);
    if v in SkillsViolations(cfg, s) {
      var k :| k in a.m && v in f((k, a.m[k]));
      ShiftSkillsTagged(cfg, k, a.m[k], v);
    }
    if sid in a.m && v in ShiftSkills(cfg, sid, a.m[sid]) {
      assert v in f((sid, a.m[sid]));
    }
  }

  /** Every `MISSING_SKILL` names a pair that lacks a skill and quotes the shift's required set. */
  lemma SkillsShape(cfg: Config, s: Schedule)
    ensures forall v :: v in SkillsViolations(cfg, s) ==>
              && v.shiftId.Some? && v.employeeId.Some?
              && LacksSkill(cfg, s, v.shiftId.value, v.employeeId.value)
              && v.code == MissingSkill(cfg.shifts.m[v.shiftId.value].requiredSkills)
  {
    var a := s.assignments;
    var f := SkillsStep(cfg);
    forall v | v in SkillsViolations(cfg, s)
      ensures && v.shiftId.Some? && v.employeeId.Some?
              && LacksSkill(cfg, s, v.shiftId.value, v.employeeId.value)
              && v.code == MissingSkill(cfg.shifts.m[v.shiftId.value].requiredSkills)
    {
      InFlatMapItems(a, f, v);
      var k :| k in a.m && v in f((k, a.m[k]));
      ShiftSkillsTagged(cfg, k, a.m[k], v);
    }
  }

  /**
   A `MISSING_SKILL` quoting `req` names a pair exactly when the pair lacks a
   skill and `req` is the shift's required set; unknown shifts and employees
   and shifts without requirements produce nothing.
   */
  lemma SkillsReported(cfg: Config, s: Schedule, sid: string, eid: string, req: set<string>)
    ensures Violation(MissingSkill(req), Some(sid), Some(eid)) in SkillsViolations(cfg, s)
            <==> LacksSkill(cfg, s, sid, eid) && req == cfg.shifts.m[sid].requiredSkills
  {
    var u := Violation(MissingSkill(req), Some(sid), Some(eid));
    SkillsOfShift(cfg, s, sid, u);
    if sid in s.assignments.m {
      var eids := s.assignments.m[sid];
      if u in ShiftSkills(cfg, sid, eids) {
        ShiftSkillsTagged(cfg, sid, eids, u);
      }
      if LacksSkill(cfg, s, sid, eid) && req == cfg.shifts.m[sid].requiredSkills {
        AssigneeSkillsMember(cfg, sid, req, eids, u);
      }
    }
  }

  // ---- shifts per week ----

  function MaxShiftsOf(cap: int, eid: string, sids: seq<string>): seq<Violation>
  {
    if |sids| > cap then [Violation(MaxShiftsWeek(|sids|, cap), None, Some(eid))] else []
  }

  function MaxShiftsStep(cap: int): ((string, seq<string>)) -> seq<Violation>
  {
    (item: (string, seq<string>)) => MaxShiftsOf(cap, item.0, item.1)
  }

  /** One `MAX_SHIFTS_WEEK` per employee over the weekly cap, in inverted-schedule order. */
  function MaxShiftsViolations(cfg: Config, s: Schedule): seq<Violation>
  {
    FlatMap(Items(EmployeeShifts(s)), MaxShiftsStep(cfg.policies.maxShiftsPerWeek))
  }

  /** Over any inverted mapping, a report names a present employee whose list is longer than the cap. */
  lemma MaxShiftsOfInverted(cap: int, inv: Dict<seq<string>>, v: Violation)
    requires v in FlatMap(Items(inv), MaxShiftsStep(cap))
    ensures v.employeeId.Some? && v.shiftId.None? && v.employeeId.value in inv.m
    ensures |inv.m[v.employeeId.value]| > cap && v.code == MaxShiftsWeek(|inv.m[v.employeeId.value]|, cap)
  {
    InFlatMapItems(inv, MaxShiftsStep(cap), v);
  }

  /** Every `MAX_SHIFTS_WEEK` names an employee listed more often than the cap and quotes that count. */
  lemma MaxShiftsShape(cfg: Config, s: Schedule)
    ensures forall v :: v in MaxShiftsViolations(cfg, s) ==>
              && v.employeeId.Some? && v.shiftId.None?
              && Occurrences(s, v.employeeId.value) > cfg.policies.maxShiftsPerWeek
              && v.code == MaxShiftsWeek(Occurrences(s, v.employeeId.value), cfg.policies.maxShiftsPerWeek)
  {
    var cap := cfg.policies.maxShiftsPerWeek;
    var inv := EmployeeShifts(s);
    forall v | v in MaxShiftsViolations(cfg, s)
      ensures && v.employeeId.Some? && v.shiftId.None?
              && Occurrences(s, v.employeeId.value) > cap
              && v.code == MaxShiftsWeek(Occurrences(s, v.employeeId.value), cap)
    {
      MaxShiftsOfInverted(cap, inv, v);
      EmployeeShiftsLength(s, v.employeeId.value);
    }
  }

  /**
   An employee is reported once exactly when listed more often than the cap
   (a non-positive cap reports everyone listed at all), however far over.
   */
  lemma MaxShiftsOnce(cfg: Config, s: Schedule, eid: string)
    ensures CountTag(MaxShiftsViolations(cfg, s), EmployeeTag, eid)
            == if Occurrences(s, eid) > Max(cfg.policies.maxShiftsPerWeek, 0) then 1 else 0
  {
    MaxShiftsCountOf(cfg.policies.maxShiftsPerWeek, EmployeeShifts(s), eid);
    EmployeeShiftsKeys(s, eid);
    EmployeeShiftsLength(s, eid);
  }

  lemma MaxShiftsCountOf(cap: int, inv: Dict<seq<string>>, eid: string)
    ensures CountTag(FlatMap(Items(inv), MaxShiftsStep(cap)), EmployeeTag, eid)
            == if eid in inv.m && |inv.m[eid]| > cap then 1 else 0
  {
    CountTagAll(inv, MaxShiftsStep(cap), EmployeeTag, eid);
  }

  // ---- rest between shifts ----

  /** The configured shifts among `sids`, in the order listed; unknown ids are skipped. */
  function KnownShifts(cfg: Config, sids: seq<string>): seq<Shift>
  {
    if |sids| == 0 then []
    else
      var init := KnownShifts(cfg, sids[..|sids| - 1]);
      var sid := sids[|sids| - 1];
      if sid in cfg.shifts.m then init + [cfg.shifts.m[sid]] else init
  }

  function IsKnown(cfg: Config): string -> bool
  {
    sid => sid in cfg.shifts.m
  }

  /** The known shifts are the configuration's records of the listed ids that it knows, in listing order. */
  lemma {:induction false} KnownShiftsExact(cfg: Config, sids: seq<string>)
    ensures var known := Filter(sids, IsKnown(cfg));
            && |KnownShifts(cfg, sids)| == |known|
            && forall i :: 0 <= i < |known| ==> known[i] in cfg.shifts.m && KnownShifts(cfg, sids)[i] == cfg.shifts.m[known[i]]
  {
    if |sids| > 0 {
      KnownShiftsExact(cfg, sids[..|sids| - 1]);
    }
  }

  function StartOf(sh: Shift): int { sh.start }

  /** An employee's known shifts ordered by start, ties in listing order (see `SortIsStable`). */
  function SortedShifts(cfg: Config, sids: seq<string>): seq<Shift>
  {
    SortBy(KnownShifts(cfg, sids), StartOf)
  }

  /** Off-duty time between the end of `a` and the start of `b`. */
  function Rest(a: Shift, b: Shift): int { b.start - a.end }

  /** `MIN_REST` for each adjacent pair among the first `n` shifts with too little rest. */
  function RestViolationsUpTo(eid: string, sh: seq<Shift>, minRest: int, n: nat): seq<Violation>
    requires n <= |sh|
  {
    if n < 2 then []
    else
      RestViolationsUpTo(eid, sh, minRest, n - 1)
      + (if Rest(sh[n - 2], sh[n - 1]) < minRest
         then [Violation(MinRest(sh[n - 2].id, sh[n - 1].id), None, Some(eid))] else [])
  }

  function MinRestOf(cfg: Config, eid: string, sids: seq<string>): seq<Violation>
  {
    var sh := SortedShifts(cfg, sids);
    RestViolationsUpTo(eid, sh, cfg.policies.minRestHours * 60, |sh|)
  }

  function MinRestStep(cfg: Config): ((string, seq<string>)) -> seq<Violation>
  {
    (item: (string, seq<string>)) => MinRestOf(cfg, item.0, item.1)
  }

  /** Adjacent pairs (in start order) of an employee's shifts with too little rest between them. */
  function MinRestViolations(cfg: Config, s: Schedule): seq<Violation>
  {
    FlatMap(Items(EmployeeShifts(s)), MinRestStep(cfg))
  }

  /** Every later shift starts at least `minRest` after every earlier one ends. */
  ghost predicate WellRested(sh: seq<Shift>, minRest: int)
  {
    forall i, j :: 0 <= i < j < |sh| ==> Rest(sh[i], sh[j]) >= minRest
  }

  lemma {:induction false} RestViolationsShape(eid: string, sh: seq<Shift>, minRest: int, n: nat)
    requires n <= |sh|
    ensures |RestViolationsUpTo(eid, sh, minRest, n)| <= Max(n - 1, 0)
    ensures forall v :: v in RestViolationsUpTo(eid, sh, minRest, n) ==>
              v.employeeId == Some(eid) && v.shiftId.None? && v.code.MinRest?
  {
    if n >= 2 {
      RestViolationsShape(eid, sh, minRest, n - 1);
    }
  }

  /**
   Checking only adjacent pairs of the start-sorted shifts is enough: no
   violation is emitted iff every pair of shifts, adjacent or not, is rested.
   */
  lemma {:induction false} RestViolationsNoneIff(eid: string, sh: seq<Shift>, minRest: int, n: nat)
    requires n <= |sh| && SortedBy(sh, StartOf)
    ensures RestViolationsUpTo(eid, sh, minRest, n) == [] <==> WellRested(sh[..n], minRest)
  {
    if n >= 2 {
      RestViolationsNoneIff(eid, sh, minRest, n - 1);
      var p := sh[..n - 1];
      var q := sh[..n];
      assert forall i :: 0 <= i < n - 1 ==> p[i] == sh[i];
      assert forall i :: 0 <= i < n ==> q[i] == sh[i];
      if WellRested(q, minRest) {
        assert Rest(q[n - 2], q[n - 1]) >= minRest;
        forall i, j | 0 <= i < j < n - 1
          ensures Rest(p[i], p[j]) >= minRest
        {
          assert Rest(q[i], q[j]) >= minRest;
        }
      }
      if RestViolationsUpTo(eid, sh, minRest, n) == [] {
        assert RestViolationsUpTo(eid, sh, minRest, n - 1) == [];
        assert Rest(sh[n - 2], sh[n - 1]) >= minRest;
        forall i, j | 0 <= i < j < n
          ensures Rest(q[i], q[j]) >= minRest
        {
          if j < n - 1 {
            assert Rest(p[i], p[j]) >= minRest;
          } else if i < n - 2 {
            assert Rest(p[i], p[i + 1]) >= minRest;
            assert StartOf(sh[i + 1]) <= StartOf(sh[n - 1]);
          }
        }
      }
    }
  }

  /** Over any inverted mapping, the rest check only emits `MIN_REST` reports naming an employee and no shift. */
  lemma MinRestOfInverted(cfg: Config, inv: Dict<seq<string>>, v: Violation)
    requires v in FlatMap(Items(inv), MinRestStep(cfg))
    ensures v.shiftId.None? && v.employeeId.Some? && v.code.MinRest?
  {
    InFlatMapItems(inv, MinRestStep(cfg), v);
    var k :| k in inv.m && v in MinRestOf(cfg, k, inv.m[k]);
    var sh := SortedShifts(cfg, inv.m[k]);
    RestViolationsShape(k, sh, cfg.policies.minRestHours * 60, |sh|);
  }

  /** Over any inverted mapping, the reports naming an employee are those of their own list. */
  lemma MinRestCountOf(cfg: Config, inv: Dict<seq<string>>, eid: string)
    ensures CountTag(FlatMap(Items(inv), MinRestStep(cfg)), EmployeeTag, eid) == |MinRestOf(cfg, eid, Lookup(inv, eid))|
  {
    var f := MinRestStep(cfg);
    forall key, v | key in inv.m && v in f((key, inv.m[key]))
      ensures EmployeeTag(v) == Some(key)
    {
      var sh := SortedShifts(cfg, inv.m[key]);
      RestViolationsShape(key, sh, cfg.policies.minRestHours * 60, |sh|);
    }
    CountTagAll(inv, f, EmployeeTag, eid);
  }

  /** The rest check only emits `MIN_REST` reports, each naming an employee and no shift. */
  lemma MinRestShape(cfg: Config, s: Schedule)
    ensures forall v :: v in MinRestViolations(cfg, s) ==> v.shiftId.None? && v.employeeId.Some? && v.code.MinRest?
  {
    forall v | v in MinRestViolations(cfg, s)
      ensures v.shiftId.None? && v.employeeId.Some? && v.code.MinRest?
    {
      MinRestOfInverted(cfg, EmployeeShifts(s), v);
    }
  }

  /**
   The reports naming an employee are one per adjacent pair of their sorted
   shifts, at most one fewer than their shifts, and there are none iff every
   pair of their (known) shifts is rested.
   */
  lemma MinRestExact(cfg: Config, s: Schedule, eid: string)
    ensures var own := SortedShifts(cfg, Lookup(EmployeeShifts(s), eid));
            var minRest := cfg.policies.minRestHours * 60;
            && CountTag(MinRestViolations(cfg, s), EmployeeTag, eid) == |RestViolationsUpTo(eid, own, minRest, |own|)|
            && CountTag(MinRestViolations(cfg, s), EmployeeTag, eid) <= Max(|own| - 1, 0)
            && (CountTag(MinRestViolations(cfg, s), EmployeeTag, eid) == 0 <==> WellRested(own, minRest))
  {
    var inv := EmployeeShifts(s);
    var minRest := cfg.policies.minRestHours * 60;
    MinRestCountOf(cfg, inv, eid);
    var own := SortedShifts(cfg, Lookup(inv, eid));
    RestViolationsShape(eid, own, minRest, |own|);
    RestViolationsNoneIff(eid, own, minRest, |own|);
    assert own[..|own|] == own;
  }

  // ---- consecutive shifts ----

  /** Length of the run of consecutive shifts ending at position `i`. */
  function RunAt(sh: seq<Shift>, i: nat): (r: nat)
    requires i < |sh|
    ensures 1 <= r <= i + 1
  {
    if i == 0 then 1
    else if Rest(sh[i - 1], sh[i]) <= ConsecutiveGap then RunAt(sh, i - 1) + 1
    else 1
  }

  /** The scan from position `i` with current run `run`, stopping at the first run above the cap. */
  function ScanRuns(sh: seq<Shift>, cap: int, i: nat, run: nat): bool
    requires i >= 1
    decreases |sh| - i
  {
    if i >= |sh| then false
    else
      var next := if Rest(sh[i - 1], sh[i]) <= ConsecutiveGap then run + 1 else 1;
      next > cap || ScanRuns(sh, cap, i + 1, next)
  }

  function MaxConsecutiveOf(cfg: Config, eid: string, sids: seq<string>): seq<Violation>
  {
    var cap := cfg.policies.maxConsecutiveShifts;
    if ScanRuns(SortedShifts(cfg, sids), cap, 1, 1)
    then [Violation(MaxConsecutive(cap), None, Some(eid))] else []
  }

  function MaxConsecutiveStep(cfg: Config): ((string, seq<string>)) -> seq<Violation>
  {
    (item: (string, seq<string>)) => MaxConsecutiveOf(cfg, item.0, item.1)
  }

  /** At most one `MAX_CONSECUTIVE` per employee, in inverted-schedule order. */
  function MaxConsecutiveViolations(cfg: Config, s: Schedule): seq<Violation>
  {
    FlatMap(Items(EmployeeShifts(s)), MaxConsecutiveStep(cfg))
  }

  /** Some run, after the first shift, exceeds the cap. */
  ghost predicate RunExceeds(sh: seq<Shift>, cap: int)
  {
    exists j :: 1 <= j < |sh| && RunAt(sh, j) > cap
  }

  lemma {:induction false} ScanRunsFinds(sh: seq<Shift>, cap: int, i: nat, run: nat)
    requires 1 <= i <= |sh| && run == RunAt(sh, i - 1)
    ensures ScanRuns(sh, cap, i, run) <==> exists j :: i <= j < |sh| && RunAt(sh, j) > cap
    decreases |sh| - i
  {
    if i < |sh| {
      ScanRunsFinds(sh, cap, i + 1, RunAt(sh, i));
    }
  }

  /** Shifts `j` to `j + m` each start within the gap of the previous one's end: `m + 1` consecutive shifts. */
  ghost predicate Linked(sh: seq<Shift>, j: int, m: int)
  {
    && 0 <= j && 0 <= m && j + m < |sh|
    && forall k :: j < k <= j + m ==> Rest(sh[k - 1], sh[k]) <= ConsecutiveGap
  }

  lemma {:induction false} RunAtLinked(sh: seq<Shift>, i: nat)
    requires i < |sh|
    ensures Linked(sh, i + 1 - RunAt(sh, i), RunAt(sh, i) - 1)
  {
    if i > 0 && Rest(sh[i - 1], sh[i]) <= ConsecutiveGap {
      RunAtLinked(sh, i - 1);
    }
  }

  lemma {:induction false} LinkedRunAt(sh: seq<Shift>, j: nat, m: nat)
    requires Linked(sh, j, m)
    ensures RunAt(sh, j + m) >= m + 1
  {
    if m > 0 {
      assert Linked(sh, j, m - 1);
      LinkedRunAt(sh, j, m - 1);
      assert Rest(sh[j + m - 1], sh[j + m]) <= ConsecutiveGap;
    }
  }

  /**
   The scan of the sorted shifts flags an employee iff some `cap + 1` shifts in
   a row are consecutive; with a cap below one any two shifts are flagged,
   since a run counter above the first shift is at least one.
   */
  lemma MaxConsecutiveMeaning(sh: seq<Shift>, cap: int)
    ensures ScanRuns(sh, cap, 1, 1) <==> RunExceeds(sh, cap)
    ensures RunExceeds(sh, cap) <==>
              if cap < 1 then |sh| >= 2 else exists j :: Linked(sh, j, cap)
  {
    if |sh| > 0 {
      ScanRunsFinds(sh, cap, 1, 1);
    }
    if cap < 1 {
      if |sh| >= 2 {
        assert RunAt(sh, 1) > cap;
      }
    } else {
      if RunExceeds(sh, cap) {
        var j :| 1 <= j < |sh| && RunAt(sh, j) > cap;
        RunAtLinked(sh, j);
        assert Linked(sh, j - cap, cap);
      }
      if exists j :: Linked(sh, j, cap) {
        var j :| Linked(sh, j, cap);
        LinkedRunAt(sh, j, cap);
        assert 1 <= j + cap < |sh|;
      }
    }
  }

  lemma MaxConsecutiveTagged(cfg: Config, eid: string, sids: seq<string>, v: Violation)
    requires v in MaxConsecutiveOf(cfg, eid, sids)
    ensures v == Violation(MaxConsecutive(cfg.policies.maxConsecutiveShifts), None, Some(eid))
  {
  }

  /** Over any inverted mapping, the consecutive check only emits `MAX_CONSECUTIVE` reports quoting the cap. */
  lemma MaxConsecutiveOfInverted(cfg: Config, inv: Dict<seq<string>>, v: Violation)
    requires v in FlatMap(Items(inv), MaxConsecutiveStep(cfg))
    ensures v.shiftId.None? && v.employeeId.Some? && v.code == MaxConsecutive(cfg.policies.maxConsecutiveShifts)
  {
    InFlatMapItems(inv, MaxConsecutiveStep(cfg), v);
  }

  /** Over any inverted mapping, an employee is reported once iff the scan of their own list flags them. */
  lemma MaxConsecutiveCountOf(cfg: Config, inv: Dict<seq<string>>, eid: string)
    ensures CountTag(FlatMap(Items(inv), MaxConsecutiveStep(cfg)), EmployeeTag, eid)
            == if ScanRuns(SortedShifts(cfg, Lookup(inv, eid)), cfg.policies.maxConsecutiveShifts, 1, 1) then 1 else 0
  {
    var f := MaxConsecutiveStep(cfg);
    forall key, v | key in inv.m && v in f((key, inv.m[key]))
      ensures EmployeeTag(v) == Some(key)
    {
      MaxConsecutiveTagged(cfg, key, inv.m[key], v);
    }
    CountTagAll(inv, f, EmployeeTag, eid);
  }

  /** The consecutive check only emits `MAX_CONSECUTIVE` reports, each naming an employee and quoting the cap. */
  lemma MaxConsecutiveShape(cfg: Config, s: Schedule)
    ensures forall v :: v in MaxConsecutiveViolations(cfg, s) ==>
              v.shiftId.None? && v.employeeId.Some? && v.code == MaxConsecutive(cfg.policies.maxConsecutiveShifts)
  {
    forall v | v in MaxConsecutiveViolations(cfg, s)
      ensures v.shiftId.None? && v.employeeId.Some? && v.code == MaxConsecutive(cfg.policies.maxConsecutiveShifts)
    {
      MaxConsecutiveOfInverted(cfg, EmployeeShifts(s), v);
    }
  }

  /** Each employee is reported at most once, and exactly when some run of their sorted shifts exceeds the cap. */
  lemma MaxConsecutiveOnce(cfg: Config, s: Schedule, eid: string)
    ensures CountTag(MaxConsecutiveViolations(cfg, s), EmployeeTag, eid)
            == if RunExceeds(SortedShifts(cfg, Lookup(EmployeeShifts(s), eid)), cfg.policies.maxConsecutiveShifts)
               then 1 else 0
  {
    var inv := EmployeeShifts(s);
    MaxConsecutiveCountOf(cfg, inv, eid);
    MaxConsecutiveMeaning(SortedShifts(cfg, Lookup(inv, eid)), cfg.policies.maxConsecutiveShifts);
  }

  // ---- the suite ----

  /**
   The six checks. The suite holds the check functions themselves; since the
   only suite ever built is the default one, a check is named by its rule.
   */
  datatype Rule = CoverageRule | AvailabilityRule | SkillsRule | MaxShiftsRule | MinRestRule | MaxConsecutiveRule

  /** The violations one check finds. */
  function Run(rule: Rule, cfg: Config, s: Schedule): seq<Violation>
  {
    match rule
    case CoverageRule => CoverageViolations(cfg, s)
    case AvailabilityRule => AvailabilityViolations(cfg, s)
    case SkillsRule => SkillsViolations(cfg, s)
    case MaxShiftsRule => MaxShiftsViolations(cfg, s)
    case MinRestRule => MinRestViolations(cfg, s)
    case MaxConsecutiveRule => MaxConsecutiveViolations(cfg, s)
  }

  /** Named checks run in order. */
  datatype Suite = Suite(constraints: seq<(string, Rule)>)

  datatype ValidationReport = ValidationReport(ok: bool, violations: seq<Violation>)

  /** `ConstraintSuite.default`: the six hard constraints, in this order. */
  function Default(): Suite
  {
    Suite([
      ("coverage", CoverageRule),
      ("availability", AvailabilityRule),
      ("skills", SkillsRule),
      ("max_shifts_per_week", MaxShiftsRule),
      ("min_rest_hours", MinRestRule),
      ("max_consecutive_shifts", MaxConsecutiveRule)
    ])
  }

  function RunStep(cfg: Config, s: Schedule): ((string, Rule)) -> seq<Violation>
  {
    (c: (string, Rule)) => Run(c.1, cfg, s)
  }

  /** Runs every check in order and concatenates their violations; the report is ok iff there are none. */
  function Validate(suite: Suite, cfg: Config, s: Schedule): (r: ValidationReport)
    ensures r.ok <==> |r.violations| == 0
  {
    var vs := FlatMap(suite.constraints, RunStep(cfg, s));
    ValidationReport(|vs| == 0, vs)
  }

  /** No check is skipped or short-circuited: the report holds exactly what some check produced. */
  lemma ValidateCollects(suite: Suite, cfg: Config, s: Schedule, v: Violation)
    ensures v in Validate(suite, cfg, s).violations <==>
              exists i :: 0 <= i < |suite.constraints| && v in Run(suite.constraints[i].1, cfg, s)
  {
    InFlatMap(suite.constraints, RunStep(cfg, s), v);
  }

  /** The output of each check of `cs`, in order. */
  function Outputs(cs: seq<(string, Rule)>, cfg: Config, s: Schedule): (r: seq<seq<Violation>>)
    ensures |r| == |cs|
    ensures forall i :: 0 <= i < |cs| ==> r[i] == Run(cs[i].1, cfg, s)
  {
    seq(|cs|, i requires 0 <= i < |cs| => Run(cs[i].1, cfg, s))
  }

  function Concat(parts: seq<seq<Violation>>): seq<Violation>
  {
    if |parts| == 0 then [] else Concat(parts[..|parts| - 1]) + parts[|parts| - 1]
  }

  lemma {:induction false} FlatMapRuns(cs: seq<(string, Rule)>, cfg: Config, s: Schedule)
    ensures FlatMap(cs, RunStep(cfg, s)) == Concat(Outputs(cs, cfg, s))
  {
    if |cs| > 0 {
      var init := cs[..|cs| - 1];
      FlatMapRuns(init, cfg, s);
      assert Outputs(cs, cfg, s)[..|cs| - 1] == Outputs(init, cfg, s);
    }
  }

  /** The default suite's violations are the six checks' violations, concatenated in suite order. */
  lemma ValidateDefault(cfg: Config, s: Schedule)
    ensures Validate(Default(), cfg, s).violations
            == Run(CoverageRule, cfg, s) + Run(AvailabilityRule, cfg, s) + Run(SkillsRule, cfg, s)
               + Run(MaxShiftsRule, cfg, s) + Run(MinRestRule, cfg, s) + Run(MaxConsecutiveRule, cfg, s)
  {
    FlatMapSix(("coverage", CoverageRule), ("availability", AvailabilityRule), ("skills", SkillsRule),
               ("max_shifts_per_week", MaxShiftsRule), ("min_rest_hours", MinRestRule),
               ("max_consecutive_shifts", MaxConsecutiveRule), RunStep(cfg, s));
  }

  /** A schedule is valid iff every check finds nothing. */
  lemma ValidateOkIff(cfg: Config, s: Schedule)
    ensures Validate(Default(), cfg, s).ok <==> forall rule :: Run(rule, cfg, s) == []
  {
    ValidateDefault(cfg, s);
    if Validate(Default(), cfg, s).ok {
      forall rule ensures Run(rule, cfg, s) == [] {
        match rule
        case CoverageRule =>
        case AvailabilityRule =>
        case SkillsRule =>
        case MaxShiftsRule =>
        case MinRestRule =>
        case MaxConsecutiveRule =>
      }
    }
    if forall rule :: Run(rule, cfg, s) == [] {
      assert Run(CoverageRule, cfg, s) == [] && Run(AvailabilityRule, cfg, s) == [];
      assert Run(SkillsRule, cfg, s) == [] && Run(MaxShiftsRule, cfg, s) == [];
      assert Run(MinRestRule, cfg, s) == [] && Run(MaxConsecutiveRule, cfg, s) == [];
    }
  }

  lemma {:induction false} ConcatStaged(parts: seq<seq<Violation>>)
    requires forall p, v :: 0 <= p < |parts| && v in parts[p] ==> v.code.Stage() == p
    ensures forall i, j :: 0 <= i < j < |Concat(parts)| ==> Concat(parts)[i].code.Stage() <= Concat(parts)[j].code.Stage()
    ensures forall v :: v in Concat(parts) ==> v.code.Stage() < |parts|
  {
    if |parts| > 0 {
      var init := parts[..|parts| - 1];
      ConcatStaged(init);
      var a, b := Concat(init), parts[|parts| - 1];
      var vs := a + b;
      assert vs == Concat(parts);
      forall v | v in b ensures v.code.Stage() == |parts| - 1 {
      }
      forall i, j | 0 <= i < j < |vs|
        ensures vs[i].code.Stage() <= vs[j].code.Stage()
      {
        if j < |a| {
          assert vs[i] == a[i] && vs[j] == a[j];
          assert a[i].code.Stage() <= a[j].code.Stage();
        } else if i < |a| {
          assert vs[i] == a[i] && a[i] in a;
          assert vs[j] == b[j - |a|] && b[j - |a|] in b;
        } else {
          assert vs[i] == b[i - |a|] && b[i - |a|] in b;
          assert vs[j] == b[j - |a|] && b[j - |a|] in b;
        }
      }
      forall v | v in vs ensures v.code.Stage() < |parts| {
        if v in a {
        } else {
          assert v in b;
        }
      }
    }
  }

  /** The position of each rule in the default suite. */
  function Rank(rule: Rule): nat
  {
    match rule
    case CoverageRule => 0
    case AvailabilityRule => 1
    case SkillsRule => 2
    case MaxShiftsRule => 3
    case MinRestRule => 4
    case MaxConsecutiveRule => 5
  }

  /** The default report lists violations grouped by check, in suite order. */
  lemma ValidateGrouped(cfg: Config, s: Schedule)
    ensures var vs := Validate(Default(), cfg, s).violations;
            forall i, j :: 0 <= i < j < |vs| ==> vs[i].code.Stage() <= vs[j].code.Stage()
  {
    var cs := Default().constraints;
    FlatMapRuns(cs, cfg, s);
    var parts := Outputs(cs, cfg, s);
    DefaultRanks();
    forall p: int, v: Violation | 0 <= p < |parts| && v in parts[p]
      ensures v.code.Stage() == p
    {
      RunStaged(cs[p].1, cfg, s, v);
    }
    ConcatStaged(parts);
  }

  lemma DefaultRanks()
    ensures |Default().constraints| == 6
    ensures forall p :: 0 <= p < 6 ==> Rank(Default().constraints[p].1) == p
  {
  }

  /** Every violation a check reports carries a code of that check. */
  lemma RunStaged(rule: Rule, cfg: Config, s: Schedule, v: Violation)
    requires v in Run(rule, cfg, s)
    ensures v.code.Stage() == Rank(rule)
  {
    match rule
    case CoverageRule => CoverageStaged(cfg, s, v);
    case AvailabilityRule => AvailabilityStaged(cfg, s, v);
    case SkillsRule => SkillsStaged(cfg, s, v);
    case MaxShiftsRule => MaxShiftsStaged(cfg, s, v);
    case MinRestRule => MinRestStaged(cfg, s, v);
    case MaxConsecutiveRule => MaxConsecutiveStaged(cfg, s, v);
  }

  lemma CoverageStaged(cfg: Config, s: Schedule, v: Violation)
    requires v in CoverageViolations(cfg, s)
    ensures v.code.Stage() == 0
  {
    CoverageExact(cfg, s, "");
    StageValues(v.code);
  }

  lemma AvailabilityStaged(cfg: Config, s: Schedule, v: Violation)
    requires v in AvailabilityViolations(cfg, s)
    ensures v.code.Stage() == 1
  {
    AvailabilityShape(cfg, s);
    StageValues(v.code);
  }

  lemma SkillsStaged(cfg: Config, s: Schedule, v: Violation)
    requires v in SkillsViolations(cfg, s)
    ensures v.code.Stage() == 2
  {
    SkillsShape(cfg, s);
    StageValues(v.code);
  }

  lemma MaxShiftsStaged(cfg: Config, s: Schedule, v: Violation)
    requires v in MaxShiftsViolations(cfg, s)
    ensures v.code.Stage() == 3
  {
    MaxShiftsOfInverted(cfg.policies.maxShiftsPerWeek, EmployeeShifts(s), v);
    StageValues(v.code);
  }

  lemma MinRestStaged(cfg: Config, s: Schedule, v: Violation)
    requires v in MinRestViolations(cfg, s)
    ensures v.code.Stage() == 4
  {
    MinRestOfInverted(cfg, EmployeeShifts(s), v);
    StageValues(v.code);
  }

  lemma MaxConsecutiveStaged(cfg: Config, s: Schedule, v: Violation)
    requires v in MaxConsecutiveViolations(cfg, s)
    ensures v.code.Stage() == 5
  {
    MaxConsecutiveOfInverted(cfg, EmployeeShifts(s), v);
    StageValues(v.code);
  }

  /** With a shift that needs someone, the empty schedule is not valid. */
  lemma EmptyScheduleNotOk(cfg: Config, sid: string)
    requires sid in cfg.shifts.m && cfg.shifts.m[sid].requiredHeadcount > 0
    ensures !Validate(Default(), cfg, Schedule(Empty())).ok
  {
    var s := Schedule(Empty());
    CoverageExact(cfg, s, sid);
    assert Run(CoverageRule, cfg, s) != [];
    ValidateOkIff(cfg, s);
  }
}

=== FILE: dicts.dfy ===
/**
 Python dictionaries with string keys. Iteration order matters in the source
 (violation order, the order of an inverted schedule, stable-sort tie-breaks),
 so a dictionary is its keys in insertion order together with its contents.
 */
module Dicts {
  import opened Wrappers
  import opened Seqs
  import opened FlatMaps

  datatype RawDict<V> = RawDict(keys: seq<string>, m: map<string, V>)

  /**
   Exactly the stored keys are listed, and there are as many listed keys as
   stored ones, so each is listed once (`KeysDistinct`).
   */
  ghost predicate WellFormed<V>(d: RawDict<V>)
  {
    && (forall k :: k in d.m <==> k in d.keys)
    && |d.m| == |d.keys|
  }

  lemma KeysDistinct<V>(d: Dict<V>)
    ensures NoDup(d.keys)
  {
    assert (set x | x in d.keys) == d.m.Keys;
    DistinctCard(d.keys);
  }

  type Dict<V> = d: RawDict<V> | WellFormed(d) witness RawDict([], map[])

  function Empty<V>(): (d: Dict<V>)
    ensures |d.keys| == 0 && |d.m| == 0
  {
    RawDict([], map[])
  }

  /** `d.get(k)`. */
  function Get<V>(d: Dict<V>, k: string): (r: Option<V>)
    ensures r.Some? <==> k in d.m
    ensures r.Some? ==> r.value == d.m[k]
  {
    if k in d.m then Some(d.m[k]) else None
  }

  /** `d[k] = v`: an existing key keeps its place, a new key goes last. */
  function Put<V>(d: Dict<V>, k: string, v: V): (r: Dict<V>)
    ensures r.m == d.m[k := v]
    ensures k in d.m ==> r.keys == d.keys
    ensures k !in d.m ==> r.keys == d.keys + [k]
  {
    if k in d.m then RawDict(d.keys, d.m[k := v]) else RawDict(d.keys + [k], d.m[k := v])
  }

  /** `list(d.values())`. */
  function Values<V>(d: Dict<V>): (r: seq<V>)
    ensures |r| == |d.keys|
    ensures forall i :: 0 <= i < |d.keys| ==> r[i] == d.m[d.keys[i]]
  {
    seq(|d.keys|, i requires 0 <= i < |d.keys| => d.m[d.keys[i]])
  }

  /** Sum of `f` over the values of the first `n` keys. */
  function SumUpTo<V>(d: Dict<V>, f: V -> int, n: nat): int
    requires n <= |d.keys|
  {
    if n == 0 then 0 else SumUpTo(d, f, n - 1) + f(d.m[d.keys[n - 1]])
  }

  /** Two dictionaries that agree on their first `n` keys and values have the same prefix sums. */
  lemma {:induction false} SumAgree<V>(d: Dict<V>, e: Dict<V>, f: V -> int, n: nat)
    requires n <= |d.keys| && n <= |e.keys|
    requires forall i :: 0 <= i < n ==> d.keys[i] == e.keys[i] && d.m[d.keys[i]] == e.m[e.keys[i]]
    ensures SumUpTo(d, f, n) == SumUpTo(e, f, n)
  {
    if n > 0 {
      SumAgree(d, e, f, n - 1);
    }
  }

  /** Adding a new key adds its value's contribution to the total sum. */
  lemma SumPutNew<V>(d: Dict<V>, k: string, v: V, f: V -> int)
    requires k !in d.m
    ensures SumUpTo(Put(d, k, v), f, |Put(d, k, v).keys|) == SumUpTo(d, f, |d.keys|) + f(v)
  {
    var r := Put(d, k, v);
    KeysDistinct(r);
    forall i | 0 <= i < |d.keys|
      ensures d.keys[i] == r.keys[i] && d.m[d.keys[i]] == r.m[r.keys[i]]
    {
      assert d.keys[i] != k;
    }
    SumAgree(d, r, f, |d.keys|);
  }

  /** Replacing the value of a present key changes the sum by the difference. */
  lemma {:induction false} SumReplace<V>(d: Dict<V>, k: string, v: V, f: V -> int, n: nat)
    requires k in d.m && n <= |d.keys|
    ensures SumUpTo(Put(d, k, v), f, n)
            == SumUpTo(d, f, n) + (if k in d.keys[..n] then f(v) - f(d.m[k]) else 0)
  {
    if n > 0 {
      SumReplace(d, k, v, f, n - 1);
      assert d.keys[..n] == d.keys[..n - 1] + [d.keys[n - 1]];
      if d.keys[n - 1] == k {
        KeysDistinct(d);
        InPrefix(d.keys, n, k);
      }
    }
  }

  /** `list(d.items())`. */
  function Items<V>(d: Dict<V>): (r: seq<(string, V)>)
    ensures |r| == |d.keys|
    ensures forall i :: 0 <= i < |d.keys| ==> r[i] == (d.keys[i], d.m[d.keys[i]])
  {
    seq(|d.keys|, i requires 0 <= i < |d.keys| => (d.keys[i], d.m[d.keys[i]]))
  }

  /** An output of a loop over `d.items()` comes from the entry of some present key. */
  lemma InFlatMapItems<V, U>(d: Dict<V>, f: ((string, V)) -> seq<U>, u: U)
    ensures u in FlatMap(Items(d), f) <==> exists k :: k in d.m && u in f((k, d.m[k]))
  {
    var items := Items(d);
    InFlatMap(items, f, u);
    if u in FlatMap(items, f) {
      var i :| 0 <= i < |items| && u in f(items[i]);
      assert items[i] == (d.keys[i], d.m[d.keys[i]]);
      assert d.keys[i] in d.m;
    }
    if exists k :: k in d.m && u in f((k, d.m[k])) {
      var k :| k in d.m && u in f((k, d.m[k]));
      var i := IndexOf(d.keys, k);
      assert items[i] == (k, d.m[k]);
    }
  }
}

=== FILE: domain.dfy ===
/**
 The scheduling domain: time windows, employees, shifts, policies, the
 configuration aggregate and the schedule (shift id to ordered list of
 employee ids), with the schedule's copy, lookup and inversion.

 Instants and durations are whole minutes.
 */
module Domain {
  import opened Wrappers
  import opened Seqs
  import opened Dicts

  type Instant = int

  datatype TimeWindow = TimeWindow(start: Instant, end: Instant)

  /** The window encloses the span from `s` to `e`. */
  predicate Contains(w: TimeWindow, s: Instant, e: Instant)
  {
    w.start <= s && e <= w.end
  }

  predicate Within(w: TimeWindow, t: Instant)
  {
    w.start <= t <= w.end
  }

  /** A window contains a (non-empty) span iff every instant of the span lies in the window. */
  lemma ContainsIsEnclosure(w: TimeWindow, s: Instant, e: Instant)
    requires s <= e
    ensures Contains(w, s, e) <==> forall t :: s <= t <= e ==> Within(w, t)
  {
    if forall t :: s <= t <= e ==> Within(w, t) {
      assert Within(w, s) && Within(w, e);
    }
  }

  datatype Employee = Employee(id: string, name: string, skills: set<string>, availability: seq<TimeWindow>)

  datatype Shift = Shift(id: string, start: Instant, end: Instant, requiredHeadcount: int, requiredSkills: set<string>)

  datatype Policies = Policies(maxShiftsPerWeek: int, maxConsecutiveShifts: int, minRestHours: int)

  /** Weights are Python floats, modelled as exact reals. */
  datatype Preferences = Preferences(
    fairnessWeight: real,
    preferenceWeight: real,
    employeeShiftPreferences: map<string, map<string, seq<string>>>)

  /** `backtrackingLimit` is carried but read by nothing. */
  datatype SolverConfig = SolverConfig(maxSeconds: real, maxIterations: int, randomSeed: int, backtrackingLimit: int)

  datatype Config = Config(
    employees: Dict<Employee>,
    shifts: Dict<Shift>,
    policies: Policies,
    preferences: Preferences,
    solver: SolverConfig,
    meta: map<string, string>)

  /** Some availability window of the employee encloses the shift. */
  predicate AvailableFor(emp: Employee, shift: Shift)
  {
    exists i | 0 <= i < |emp.availability| :: Contains(emp.availability[i], shift.start, shift.end)
  }

  datatype Schedule = Schedule(assignments: Dict<seq<string>>)

  /** `Schedule.copy`: a fresh mapping with a fresh list per shift. */
  function Copy(s: Schedule): (r: Schedule)
    ensures r == s
  {
    var a := s.assignments;
    var m := map k | k in a.m :: a.m[k][..];
    assert m == a.m;
    Schedule(RawDict(a.keys, m))
  }

  /** `Schedule.assigned_employees`: the stored list, or the empty list for an absent shift. */
  function AssignedEmployees(s: Schedule, sid: string): (r: seq<string>)
    ensures sid in s.assignments.m ==> r == s.assignments.m[sid]
    ensures sid !in s.assignments.m ==> r == []
  {
    match Get(s.assignments, sid)
    case Some(eids) => eids
    case None => []
  }

  /** `eid` is listed under the scheduled shift `sid`. */
  predicate Listed(s: Schedule, sid: string, eid: string)
  {
    sid in s.assignments.m && eid in s.assignments.m[sid]
  }

  /** The list stored under `k`, or the empty list. */
  function Lookup(d: Dict<seq<string>>, k: string): seq<string>
  {
    if k in d.m then d.m[k] else []
  }

  /** `emp_to_shifts.setdefault(k, []).append(x)`. */
  function AppendTo(d: Dict<seq<string>>, k: string, x: string): (r: Dict<seq<string>>)
  {
    Put(d, k, Lookup(d, k) + [x])
  }

  lemma AppendToLookup(d: Dict<seq<string>>, k: string, x: string, e: string)
    ensures Lookup(AppendTo(d, k, x), e) == Lookup(d, e) + (if e == k then [x] else [])
  {
  }

  lemma AppendToKeys(d: Dict<seq<string>>, k: string, x: string, e: string)
    ensures e in AppendTo(d, k, x).m <==> e in d.m || e == k
  {
  }

  /** The inner loop of `employee_shifts`: records `sid` for each id of `eids`. */
  function AddShift(d: Dict<seq<string>>, sid: string, eids: seq<string>): Dict<seq<string>>
  {
    if |eids| == 0 then d
    else AppendTo(AddShift(d, sid, eids[..|eids| - 1]), eids[|eids| - 1], sid)
  }

  /** The outer loop of `employee_shifts` over the first `n` shifts of the schedule. */
  function InvertUpTo(a: Dict<seq<string>>, n: nat): Dict<seq<string>>
    requires n <= |a.keys|
  {
    if n == 0 then Empty() else AddShift(InvertUpTo(a, n - 1), a.keys[n - 1], a.m[a.keys[n - 1]])
  }

  /** `Schedule.employee_shifts`: employee id to the shift ids it is assigned to. */
  function EmployeeShifts(s: Schedule): Dict<seq<string>>
  {
    InvertUpTo(s.assignments, |s.assignments.keys|)
  }

  // ---- reference definitions of the inversion ----

  function CountIn(e: string): seq<string> -> int
  {
    v => Count(e, v)
  }

  function Length(v: seq<string>): int
  {
    |v|
  }

  /** Number of times `e` is listed across the whole schedule. */
  function Occurrences(s: Schedule, e: string): nat
  {
    OccurrencesUpTo(s.assignments, e, |s.assignments.keys|)
  }

  function OccurrencesUpTo(a: Dict<seq<string>>, e: string, n: nat): nat
    requires n <= |a.keys|
  {
    if n == 0 then 0 else OccurrencesUpTo(a, e, n - 1) + Count(e, a.m[a.keys[n - 1]])
  }

  /** Total number of (shift, employee) entries of a mapping of lists. */
  function TotalLength(d: Dict<seq<string>>): int
  {
    SumUpTo(d, Length, |d.keys|)
  }

  /** Each shift among the first `n` repeated once per listing of `e` under it. */
  function ShiftsOf(a: Dict<seq<string>>, e: string, n: nat): (r: seq<string>)
    requires n <= |a.keys|
    ensures |r| == OccurrencesUpTo(a, e, n)
  {
    if n == 0 then []
    else ShiftsOf(a, e, n - 1) + Rep(a.keys[n - 1], Count(e, a.m[a.keys[n - 1]]))
  }

  lemma {:induction false} AddShiftLookup(d: Dict<seq<string>>, sid: string, eids: seq<string>, e: string)
    ensures Lookup(AddShift(d, sid, eids), e) == Lookup(d, e) + Rep(sid, Count(e, eids))
  {
    if |eids| > 0 {
      var init, last := eids[..|eids| - 1], eids[|eids| - 1];
      var prev := AddShift(d, sid, init);
      AddShiftLookup(d, sid, init, e);
      AppendToLookup(prev, last, sid, e);
      if last == e {
        RepSnoc(Lookup(d, e), sid, Count(e, init));
      }
    }
  }

  lemma {:induction false} AddShiftKeys(d: Dict<seq<string>>, sid: string, eids: seq<string>, e: string)
    ensures e in AddShift(d, sid, eids).m <==> e in d.m || Count(e, eids) > 0
  {
    if |eids| > 0 {
      var init, last := eids[..|eids| - 1], eids[|eids| - 1];
      AddShiftKeys(d, sid, init, e);
      AppendToKeys(AddShift(d, sid, init), last, sid, e);
    }
  }

  lemma {:induction false} InvertLookup(a: Dict<seq<string>>, e: string, n: nat)
    requires n <= |a.keys|
    ensures Lookup(InvertUpTo(a, n), e) == ShiftsOf(a, e, n)
  {
    if n > 0 {
      var k := a.keys[n - 1];
      var prev := InvertUpTo(a, n - 1);
      InvertLookup(a, e, n - 1);
      AddShiftLookup(prev, k, a.m[k], e);
      assert ShiftsOf(a, e, n) == ShiftsOf(a, e, n - 1) + Rep(k, Count(e, a.m[k]));
    }
  }

  lemma {:induction false} InvertKeys(a: Dict<seq<string>>, e: string, n: nat)
    requires n <= |a.keys|
    ensures e in InvertUpTo(a, n).m <==> OccurrencesUpTo(a, e, n) > 0
  {
    if n > 0 {
      var k := a.keys[n - 1];
      InvertKeys(a, e, n - 1);
      AddShiftKeys(InvertUpTo(a, n - 1), k, a.m[k], e);
    }
  }

  lemma {:induction false} ShiftsOfCount(a: Dict<seq<string>>, e: string, sid: string, n: nat)
    requires n <= |a.keys|
    ensures Count(sid, ShiftsOf(a, e, n)) == if sid in a.keys[..n] then Count(e, a.m[sid]) else 0
  {
    if n > 0 {
      var k := a.keys[n - 1];
      var c := Count(e, a.m[k]);
      var prev := ShiftsOf(a, e, n - 1);
      ShiftsOfCount(a, e, sid, n - 1);
      CountAppendRep(sid, prev, k, c);
      KeysDistinct(a);
      InPrefix(a.keys, n, sid);
    }
  }

  lemma {:induction false} OccurrencesPositive(a: Dict<seq<string>>, e: string, n: nat)
    requires n <= |a.keys|
    ensures OccurrencesUpTo(a, e, n) > 0 <==> exists i :: 0 <= i < n && e in a.m[a.keys[i]]
  {
    if n > 0 {
      OccurrencesPositive(a, e, n - 1);
      CountPositive(e, a.m[a.keys[n - 1]]);
    }
  }

  /** `Occurrences` is the prefix sum of per-shift counts. */
  lemma {:induction false} OccurrencesIsSum(a: Dict<seq<string>>, e: string, n: nat)
    requires n <= |a.keys|
    ensures OccurrencesUpTo(a, e, n) == SumUpTo(a, CountIn(e), n)
  {
    if n > 0 {
      OccurrencesIsSum(a, e, n - 1);
    }
  }

  lemma {:induction false} TotalLengthAppendTo(d: Dict<seq<string>>, k: string, x: string)
    ensures TotalLength(AppendTo(d, k, x)) == TotalLength(d) + 1
  {
    if k in d.m {
      assert Lookup(d, k) == d.m[k];
      SumReplace(d, k, d.m[k] + [x], Length, |d.keys|);
      assert d.keys[..|d.keys|] == d.keys;
    } else {
      assert Lookup(d, k) + [x] == [x];
      SumPutNew(d, k, [x], Length);
    }
  }

  lemma {:induction false} TotalLengthAddShift(d: Dict<seq<string>>, sid: string, eids: seq<string>)
    ensures TotalLength(AddShift(d, sid, eids)) == TotalLength(d) + |eids|
  {
    if |eids| > 0 {
      TotalLengthAddShift(d, sid, eids[..|eids| - 1]);
      TotalLengthAppendTo(AddShift(d, sid, eids[..|eids| - 1]), eids[|eids| - 1], sid);
    }
  }

  lemma {:induction false} TotalLengthInvert(a: Dict<seq<string>>, n: nat)
    requires n <= |a.keys|
    ensures TotalLength(InvertUpTo(a, n)) == SumUpTo(a, Length, n)
  {
    if n > 0 {
      TotalLengthInvert(a, n - 1);
      TotalLengthAddShift(InvertUpTo(a, n - 1), a.keys[n - 1], a.m[a.keys[n - 1]]);
    }
  }

  // ---- properties of the schedule's operations ----

  /** Each shift appears in an employee's inverted list exactly as often as the employee appears in the shift's list. */
  lemma EmployeeShiftsCounts(s: Schedule, sid: string, eid: string)
    ensures Count(sid, Lookup(EmployeeShifts(s), eid)) == Count(eid, AssignedEmployees(s, sid))
  {
    var a := s.assignments;
    InvertLookup(a, eid, |a.keys|);
    ShiftsOfCount(a, eid, sid, |a.keys|);
    assert a.keys[..|a.keys|] == a.keys;
  }

  /** An employee's inverted list is as long as the number of times the employee is listed. */
  lemma EmployeeShiftsLength(s: Schedule, eid: string)
    ensures |Lookup(EmployeeShifts(s), eid)| == Occurrences(s, eid)
  {
    InvertLookup(s.assignments, eid, |s.assignments.keys|);
  }

  /** The inverted mapping has exactly the employees listed somewhere as keys, each with a non-empty list. */
  lemma EmployeeShiftsKeys(s: Schedule, eid: string)
    ensures eid in EmployeeShifts(s).m <==>
              exists sid :: sid in s.assignments.m && eid in s.assignments.m[sid]
    ensures eid in EmployeeShifts(s).m ==> |EmployeeShifts(s).m[eid]| > 0
    ensures eid in EmployeeShifts(s).m <==> Occurrences(s, eid) > 0
  {
    var a := s.assignments;
    InvertKeys(a, eid, |a.keys|);
    OccurrencesPositive(a, eid, |a.keys|);
    EmployeeShiftsLength(s, eid);
    if exists sid :: sid in a.m && eid in a.m[sid] {
      var sid :| sid in a.m && eid in a.m[sid];
      var i := IndexOf(a.keys, sid);
      assert eid in a.m[a.keys[i]];
    }
  }

  /** Inversion neither loses nor invents entries. */
  lemma EmployeeShiftsTotal(s: Schedule)
    ensures TotalLength(EmployeeShifts(s)) == TotalLength(s.assignments)
  {
    TotalLengthInvert(s.assignments, |s.assignments.keys|);
  }

  /** Adding a new shift's list adds its entries to every employee's occurrence count. */
  lemma OccurrencesPutNew(a: Dict<seq<string>>, sid: string, v: seq<string>, e: string)
    requires sid !in a.m
    ensures Occurrences(Schedule(Put(a, sid, v)), e) == Occurrences(Schedule(a), e) + Count(e, v)
  {
    var r := Put(a, sid, v);
    OccurrencesIsSum(a, e, |a.keys|);
    OccurrencesIsSum(r, e, |r.keys|);
    SumPutNew(a, sid, v, CountIn(e));
  }

  /** Replacing the list of a present shift changes occurrence counts by the difference of the lists. */
  lemma OccurrencesReplace(a: Dict<seq<string>>, sid: string, v: seq<string>, e: string)
    requires sid in a.m
    ensures Occurrences(Schedule(Put(a, sid, v)), e)
            == Occurrences(Schedule(a), e) + Count(e, v) - Count(e, a.m[sid])
  {
    var r := Put(a, sid, v);
    OccurrencesIsSum(a, e, |a.keys|);
    OccurrencesIsSum(r, e, |r.keys|);
    SumReplace(a, sid, v, CountIn(e), |a.keys|);
    assert a.keys[..|a.keys|] == a.keys;
  }
}

=== FILE: greedy_scheduler.dfy ===
/**
 The standalone day-by-day scheduler of `scheduler.py`. Clock times
 ("HH:MM") are minutes after midnight, dates are day numbers, datetimes are
 minutes since day 0, and shift lengths and worked hours are whole minutes.
 */
module GreedyScheduler {
  import opened Wrappers
  import opened Seqs
  import opened Dicts
  import opened StableSort

  const DayMinutes: int := 24 * 60

  /** A parsed "HH:MM": `datetime.time` accepts only hours below 24 and minutes below 60. */
  type ClockTime = m: int | 0 <= m < DayMinutes

  datatype StaffMember = StaffMember(id: string, name: string, skills: seq<string>, maxHoursPerWeek: int)

  /** `title` is the `label` field; `minutes` is the stored `hours` field, in minutes. */
  datatype ShiftDefinition = ShiftDefinition(
    id: string, title: string, start: ClockTime, end: ClockTime, requiredSkills: seq<string>, minutes: int)

  datatype RuleSet = RuleSet(minRestHours: int, maxHoursPerWeek: int)

  datatype ScheduleConfig = ScheduleConfig(staff: seq<StaffMember>, shifts: Dict<ShiftDefinition>, rules: RuleSet)

  /** An assignment keeps the whole shift definition; the source keeps its `id`. */
  datatype Assignment = Assignment(staffId: string, day: int, shift: ShiftDefinition)

  /** "No staff available for shift ... on ...". */
  datatype Unfilled = Unfilled(shiftId: string, day: int)

  datatype ScheduleResult = ScheduleResult(assignments: seq<Assignment>, violations: seq<Unfilled>)

  // ---- clock arithmetic ----

  /** `_shift_start_datetime`. */
  function ShiftStart(day: int, shift: ShiftDefinition): int
  {
    day * DayMinutes + shift.start
  }

  /** `_shift_end_datetime`: the end clock time on the same day, or on the next day when it is not after the start. */
  function ShiftEnd(day: int, shift: ShiftDefinition): (r: int)
    ensures ShiftStart(day, shift) < r <= ShiftStart(day, shift) + DayMinutes
    ensures r == day * DayMinutes + shift.end + (if shift.end <= shift.start then DayMinutes else 0)
  {
    var end := day * DayMinutes + shift.end;
    if end <= ShiftStart(day, shift) then end + DayMinutes else end
  }

  /**
   A shift lasts its clock difference taken modulo a day, a whole day when
   start and end coincide, whatever the date.
   */
  lemma ShiftLength(day: int, shift: ShiftDefinition)
    ensures ShiftEnd(day, shift) - ShiftStart(day, shift) == (shift.end - shift.start - 1) % DayMinutes + 1
  {
    var d := shift.end - shift.start;
    if d > 0 {
      assert (d - 1) % DayMinutes == d - 1;
    } else {
      assert (d - 1) % DayMinutes == d - 1 + DayMinutes;
    }
  }

  // ---- skills ----

  /** `all(skill in skills for skill in req)`. */
  function AllIn(req: seq<string>, skills: seq<string>): (r: bool)
    ensures r <==> forall k :: k in req ==> k in skills
  {
    if |req| == 0 then true
    else
      assert forall k :: k in req ==> k == req[0] || k in req[1..];
      req[0] in skills && AllIn(req[1..], skills)
  }

  /** `_has_required_skills`. */
  function HasRequiredSkills(member: StaffMember, shift: ShiftDefinition): (r: bool)
    ensures r <==> forall k :: k in shift.requiredSkills ==> k in member.skills
  {
    if |shift.requiredSkills| == 0 then true else AllIn(shift.requiredSkills, member.skills)
  }

  // ---- picking a member ----

  function HoursOf(hours: map<string, int>, id: string): int
  {
    if id in hours then hours[id] else 0
  }

  function LastEndOf(lastEnd: map<string, Option<int>>, id: string): Option<int>
  {
    if id in lastEnd then lastEnd[id] else None
  }

  /** The tighter of the member's and the global weekly cap, in minutes. */
  function HoursCap(cfg: ScheduleConfig, m: StaffMember): int
  {
    Min(m.maxHoursPerWeek, cfg.rules.maxHoursPerWeek) * 60
  }

  /** No previous shift, or at least `min_rest_hours` between its end and `start`. */
  predicate Rested(cfg: ScheduleConfig, last: Option<int>, start: int)
  {
    last.None? || start - last.value >= cfg.rules.minRestHours * 60
  }

  /** The three filters of `_pick_staff_for_shift`. */
  predicate Qualifies(cfg: ScheduleConfig, shift: ShiftDefinition, day: int,
                      hours: map<string, int>, lastEnd: map<string, Option<int>>, m: StaffMember)
  {
    && HasRequiredSkills(m, shift)
    && HoursOf(hours, m.id) + shift.minutes <= HoursCap(cfg, m)
    && Rested(cfg, LastEndOf(lastEnd, m.id), ShiftStart(day, shift))
  }

  function Passes(cfg: ScheduleConfig, shift: ShiftDefinition, day: int,
                  hours: map<string, int>, lastEnd: map<string, Option<int>>): StaffMember -> bool
  {
    (m: StaffMember) => Qualifies(cfg, shift, day, hours, lastEnd, m)
  }

  function HoursKey(hours: map<string, int>): StaffMember -> int
  {
    (m: StaffMember) => HoursOf(hours, m.id)
  }

  /** `candidates`: the passing members in staff order. */
  function PickCandidates(cfg: ScheduleConfig, shift: ShiftDefinition, day: int,
                          hours: map<string, int>, lastEnd: map<string, Option<int>>): seq<StaffMember>
  {
    Filter(cfg.staff, Passes(cfg, shift, day, hours, lastEnd))
  }

  /** `_pick_staff_for_shift`: a qualifying member with the fewest hours, or `None` when nobody qualifies. */
  function PickStaff(cfg: ScheduleConfig, shift: ShiftDefinition, day: int,
                     hours: map<string, int>, lastEnd: map<string, Option<int>>): (r: Option<StaffMember>)
    ensures r.None? <==> forall i :: 0 <= i < |cfg.staff| ==> !Qualifies(cfg, shift, day, hours, lastEnd, cfg.staff[i])
    ensures r.Some? ==> r.value in cfg.staff && Qualifies(cfg, shift, day, hours, lastEnd, r.value)
    ensures r.Some? ==> forall i :: 0 <= i < |cfg.staff| && Qualifies(cfg, shift, day, hours, lastEnd, cfg.staff[i]) ==>
                          HoursOf(hours, r.value.id) <= HoursOf(hours, cfg.staff[i].id)
  {
    var cands := PickCandidates(cfg, shift, day, hours, lastEnd);
    if |cands| == 0 then None
    else
      SortHeadIsMin(cands, HoursKey(hours));
      Some(SortBy(cands, HoursKey(hours))[0])
  }

  /** Ties on hours go to the earliest passing member in staff order. */
  lemma PickStaffEarliest(cfg: ScheduleConfig, shift: ShiftDefinition, day: int,
                          hours: map<string, int>, lastEnd: map<string, Option<int>>)
    requires PickStaff(cfg, shift, day, hours, lastEnd).Some?
    ensures exists j :: EarliestMin(PickCandidates(cfg, shift, day, hours, lastEnd), HoursKey(hours), j)
                        && PickCandidates(cfg, shift, day, hours, lastEnd)[j] == PickStaff(cfg, shift, day, hours, lastEnd).value
  {
    var j := SortHeadIsEarliestMin(PickCandidates(cfg, shift, day, hours, lastEnd), HoursKey(hours));
  }

  // ---- the week ----

  /** `sorted(shifts.values(), key=hours, reverse=True)`: a stable sort on the negated length. */
  function NegMinutes(shift: ShiftDefinition): int { -shift.minutes }

  function ShiftsByHours(cfg: ScheduleConfig): seq<ShiftDefinition>
  {
    SortBy(Values(cfg.shifts), NegMinutes)
  }

  ghost predicate Descending(order: seq<ShiftDefinition>)
  {
    forall i :: 0 < i < |order| ==> order[i - 1].minutes >= order[i].minutes
  }

  /** The shifts are tried longest first, each configured shift once, ties in configuration order. */
  lemma ShiftsByHoursSpec(cfg: ScheduleConfig)
    ensures multiset(ShiftsByHours(cfg)) == multiset(Values(cfg.shifts))
    ensures Descending(ShiftsByHours(cfg))
    ensures forall k :: WithKey(ShiftsByHours(cfg), NegMinutes, k) == WithKey(Values(cfg.shifts), NegMinutes, k)
  {
    var order := ShiftsByHours(cfg);
    forall i | 0 < i < |order| ensures order[i - 1].minutes >= order[i].minutes {
      assert NegMinutes(order[i - 1]) <= NegMinutes(order[i]);
    }
    forall k ensures WithKey(order, NegMinutes, k) == WithKey(Values(cfg.shifts), NegMinutes, k) {
      SortIsStable(Values(cfg.shifts), NegMinutes, k);
    }
  }

  /** Minutes worked by `id` over the assignments. */
  function Worked(a: seq<Assignment>, id: string): int
  {
    if |a| == 0 then 0
    else Worked(a[..|a| - 1], id) + (if a[|a| - 1].staffId == id then a[|a| - 1].shift.minutes else 0)
  }

  /** End of the last assignment of `id`. */
  function LastEnd(a: seq<Assignment>, id: string): Option<int>
  {
    if |a| == 0 then None
    else if a[|a| - 1].staffId == id then Some(ShiftEnd(a[|a| - 1].day, a[|a| - 1].shift))
    else LastEnd(a[..|a| - 1], id)
  }

  /** Assignment `j` starts at least `min_rest_hours` after its member's previous assignment ends. */
  ghost predicate RestBefore(cfg: ScheduleConfig, a: seq<Assignment>, j: int)
    requires 0 <= j < |a|
  {
    Rested(cfg, LastEnd(a[..j], a[j].staffId), ShiftStart(a[j].day, a[j].shift))
  }

  /** Every assignment is by a member with the shift's skills. */
  ghost predicate Skilled(cfg: ScheduleConfig, x: Assignment)
  {
    exists m :: m in cfg.staff && m.id == x.staffId && HasRequiredSkills(m, x.shift)
  }

  /** No other member shares `m`'s id. */
  ghost predicate IdUnique(staff: seq<StaffMember>, m: StaffMember)
  {
    forall i :: 0 <= i < |staff| && staff[i].id == m.id ==> staff[i] == m
  }

  function Ids(staff: seq<StaffMember>): set<string>
  {
    set m | m in staff :: m.id
  }

  datatype Week = Week(assignments: seq<Assignment>, violations: seq<Unfilled>,
                       hours: map<string, int>, lastEnd: map<string, Option<int>>)

  /** `staff_hours` and `last_shift_end` hold one entry per member id and agree with the assignments. */
  ghost predicate BooksAgree(cfg: ScheduleConfig, w: Week)
  {
    && w.hours.Keys == Ids(cfg.staff) && w.lastEnd.Keys == Ids(cfg.staff)
    && (forall id :: id in w.hours ==> w.hours[id] == Worked(w.assignments, id))
    && (forall id :: id in w.lastEnd ==> w.lastEnd[id] == LastEnd(w.assignments, id))
  }

  ghost predicate AllSkilled(cfg: ScheduleConfig, a: seq<Assignment>)
  {
    forall i :: 0 <= i < |a| ==> a[i].staffId in Ids(cfg.staff) && Skilled(cfg, a[i])
  }

  /** Hours stay within the global cap, and within the member's own cap when the id is the member's alone. */
  ghost predicate WithinCaps(cfg: ScheduleConfig, hours: map<string, int>)
  {
    && (forall id :: id in hours ==> hours[id] <= Max(0, cfg.rules.maxHoursPerWeek * 60))
    && (forall m :: m in cfg.staff && IdUnique(cfg.staff, m) ==> HoursOf(hours, m.id) <= Max(0, HoursCap(cfg, m)))
  }

  ghost predicate AllRested(cfg: ScheduleConfig, a: seq<Assignment>)
  {
    forall j :: 0 <= j < |a| ==> RestBefore(cfg, a, j)
  }

  ghost predicate WeekInv(cfg: ScheduleConfig, w: Week)
  {
    BooksAgree(cfg, w) && AllSkilled(cfg, w.assignments) && WithinCaps(cfg, w.hours) && AllRested(cfg, w.assignments)
  }

  /** Assignments come day by day, and longest shift first within a day. */
  ghost predicate Ordered(a: seq<Assignment>)
  {
    forall i, j :: 0 <= i < j < |a| ==>
      a[i].day < a[j].day || (a[i].day == a[j].day && a[i].shift.minutes >= a[j].shift.minutes)
  }

  function Assign(w: Week, m: StaffMember, day: int, shift: ShiftDefinition): Week
  {
    Week(w.assignments + [Assignment(m.id, day, shift)], w.violations,
         w.hours[m.id := HoursOf(w.hours, m.id) + shift.minutes],
         w.lastEnd[m.id := Some(ShiftEnd(day, shift))])
  }

  lemma BooksStep(cfg: ScheduleConfig, w: Week, m: StaffMember, day: int, shift: ShiftDefinition)
    requires BooksAgree(cfg, w) && m in cfg.staff
    ensures BooksAgree(cfg, Assign(w, m, day, shift))
  {
    var a := Assign(w, m, day, shift).assignments;
    assert a[..|a| - 1] == w.assignments;
  }

  lemma SkilledStep(cfg: ScheduleConfig, a: seq<Assignment>, m: StaffMember, day: int, shift: ShiftDefinition)
    requires AllSkilled(cfg, a) && m in cfg.staff && HasRequiredSkills(m, shift)
    ensures AllSkilled(cfg, a + [Assignment(m.id, day, shift)])
  {
    var x := Assignment(m.id, day, shift);
    assert Skilled(cfg, x);
    forall i | 0 <= i < |a + [x]| ensures (a + [x])[i].staffId in Ids(cfg.staff) && Skilled(cfg, (a + [x])[i]) {
      if i < |a| {
        assert (a + [x])[i] == a[i];
      }
    }
  }

  lemma CapsStep(cfg: ScheduleConfig, hours: map<string, int>, m: StaffMember, minutes: int)
    requires WithinCaps(cfg, hours) && m in cfg.staff
    requires HoursOf(hours, m.id) + minutes <= HoursCap(cfg, m)
    ensures WithinCaps(cfg, hours[m.id := HoursOf(hours, m.id) + minutes])
  {
    var h := hours[m.id := HoursOf(hours, m.id) + minutes];
    forall m' | m' in cfg.staff && IdUnique(cfg.staff, m') ensures HoursOf(h, m'.id) <= Max(0, HoursCap(cfg, m')) {
      if m'.id == m.id {
        var i :| 0 <= i < |cfg.staff| && cfg.staff[i] == m;
        assert cfg.staff[i].id == m'.id;
      }
    }
  }

  lemma RestStep(cfg: ScheduleConfig, a: seq<Assignment>, x: Assignment)
    requires AllRested(cfg, a)
    requires Rested(cfg, LastEnd(a, x.staffId), ShiftStart(x.day, x.shift))
    ensures AllRested(cfg, a + [x])
  {
    var b := a + [x];
    forall j | 0 <= j < |b| ensures RestBefore(cfg, b, j) {
      if j < |a| {
        assert b[..j] == a[..j];
        assert RestBefore(cfg, a, j);
      } else {
        assert b[..j] == a;
      }
    }
  }

  /** Recording the assignment of a member who passes the filters keeps the week's invariant. */
  lemma AssignStep(cfg: ScheduleConfig, w: Week, m: StaffMember, day: int, shift: ShiftDefinition)
    requires WeekInv(cfg, w)
    requires m in cfg.staff && Qualifies(cfg, shift, day, w.hours, w.lastEnd, m)
    ensures WeekInv(cfg, Assign(w, m, day, shift))
  {
    BooksStep(cfg, w, m, day, shift);
    SkilledStep(cfg, w.assignments, m, day, shift);
    CapsStep(cfg, w.hours, m, shift.minutes);
    assert LastEndOf(w.lastEnd, m.id) == LastEnd(w.assignments, m.id);
    RestStep(cfg, w.assignments, Assignment(m.id, day, shift));
  }

  /**
   What one pass of the inner loop of `generate_week` does to the week: the
   member `_pick_staff_for_shift` returns is assigned and booked, and when
   nobody qualifies the gap is logged for this shift and day.
   */
  function Visited(cfg: ScheduleConfig, w: Week, day: int, shift: ShiftDefinition): Week
  {
    match PickStaff(cfg, shift, day, w.hours, w.lastEnd)
    case None => w.(violations := w.violations + [Unfilled(shift.id, day)])
    case Some(m) => Assign(w, m, day, shift)
  }

  /** The inner loop from the `k`-th shift of `order` on: the visits of the remaining shifts, in order. */
  function DayFrom(cfg: ScheduleConfig, order: seq<ShiftDefinition>, k: nat, day: int, w: Week): Week
    requires k <= |order|
    decreases |order| - k
  {
    if k == |order| then w else DayFrom(cfg, order, k + 1, day, Visited(cfg, w, day, order[k]))
  }

  /** The outer loop from day `offset` on: each remaining day's inner loop, in order. */
  function WeekFrom(cfg: ScheduleConfig, order: seq<ShiftDefinition>, startDay: int, offset: nat, days: nat, w: Week): Week
    decreases days - offset
  {
    if offset >= days then w
    else WeekFrom(cfg, order, startDay, offset + 1, days, DayFrom(cfg, order, 0, startDay + offset, w))
  }

  /** One pass of the inner loop of `generate_week`: assign the picked member, or log the gap. */
  method Visit(cfg: ScheduleConfig, w: Week, day: int, shift: ShiftDefinition) returns (w': Week)
    requires WeekInv(cfg, w)
    ensures PickStaff(cfg, shift, day, w.hours, w.lastEnd).None? ==>
              w' == w.(violations := w.violations + [Unfilled(shift.id, day)])
    ensures PickStaff(cfg, shift, day, w.hours, w.lastEnd).Some? ==>
              w' == Assign(w, PickStaff(cfg, shift, day, w.hours, w.lastEnd).value, day, shift)
    ensures w' == Visited(cfg, w, day, shift)
    ensures WeekInv(cfg, w')
    ensures |w'.assignments| + |w'.violations| == |w.assignments| + |w.violations| + 1
    ensures |w.assignments| <= |w'.assignments| <= |w.assignments| + 1
    ensures w'.assignments[..|w.assignments|] == w.assignments
    ensures |w'.assignments| > |w.assignments| ==>
              w'.assignments[|w.assignments|].day == day && w'.assignments[|w.assignments|].shift == shift
  {
    var picked := PickStaff(cfg, shift, day, w.hours, w.lastEnd);
    if picked.None? {
      w' := w.(violations := w.violations + [Unfilled(shift.id, day)]);
    } else {
      AssignStep(cfg, w, picked.value, day, shift);
      w' := Assign(w, picked.value, day, shift);
    }
  }

  lemma OrderedSnoc(a: seq<Assignment>, x: Assignment)
    requires Ordered(a)
    requires forall i :: 0 <= i < |a| ==> a[i].day < x.day || (a[i].day == x.day && a[i].shift.minutes >= x.shift.minutes)
    ensures Ordered(a + [x])
  {
    var b := a + [x];
    forall i, j | 0 <= i < j < |b|
      ensures b[i].day < b[j].day || (b[i].day == b[j].day && b[i].shift.minutes >= b[j].shift.minutes)
    {
      assert b[i] == a[i];
      if j < |a| {
        assert b[j] == a[j];
      }
    }
  }

  /** Every assignment so far is before `day`, or on `day` and no shorter than `floor`. */
  ghost predicate NotAfter(a: seq<Assignment>, day: int, floor: int)
  {
    forall i :: 0 <= i < |a| ==> a[i].day < day || (a[i].day == day && a[i].shift.minutes >= floor)
  }

  /**
   The order facts of the inner loop after `k` shifts of `order` on `day`:
   `a` extends `a0` by assignments on `day` of shifts in `order`, in order.
   */
  ghost predicate DayOrder(order: seq<ShiftDefinition>, day: int, a0: seq<Assignment>, a: seq<Assignment>, k: int)
  {
    && 0 <= k <= |order|
    && Ordered(a)
    && |a0| <= |a| && a[..|a0|] == a0
    && (k > 0 ==> NotAfter(a, day, order[k - 1].minutes))
    && (k == 0 ==> |a| == |a0|)
    && (forall i :: |a0| <= i < |a| ==> a[i].day == day && a[i].shift in order)
  }

  lemma DayOrderStep(order: seq<ShiftDefinition>, day: int, a0: seq<Assignment>, a: seq<Assignment>, k: int, a': seq<Assignment>)
    requires Descending(order) && k < |order|
    requires forall i :: 0 <= i < |a0| ==> a0[i].day < day
    requires DayOrder(order, day, a0, a, k)
    requires |a| <= |a'| <= |a| + 1 && a'[..|a|] == a
    requires |a'| > |a| ==> a'[|a|].day == day && a'[|a|].shift == order[k]
    ensures DayOrder(order, day, a0, a', k + 1)
  {
    if |a'| > |a| {
      var x := a'[|a|];
      assert a' == a + [x];
      assert NotAfter(a, day, order[k].minutes) by {
        if k > 0 {
          assert order[k - 1].minutes >= order[k].minutes;
        }
      }
      OrderedSnoc(a, x);
      assert a'[..|a0|] == a[..|a0|];
    } else {
      assert a' == a;
      if k > 0 {
        assert order[k - 1].minutes >= order[k].minutes;
      }
    }
  }

  /** The shifts of one day, in the given order. */
  method FillDay(cfg: ScheduleConfig, order: seq<ShiftDefinition>, day: int, w: Week) returns (w': Week)
    requires Descending(order)
    requires WeekInv(cfg, w) && Ordered(w.assignments)
    requires forall i :: 0 <= i < |w.assignments| ==> w.assignments[i].day < day
    ensures WeekInv(cfg, w')
    ensures |w'.assignments| + |w'.violations| == |w.assignments| + |w.violations| + |order|
    ensures DayOrder(order, day, w.assignments, w'.assignments, |order|)
    ensures w' == DayFrom(cfg, order, 0, day, w)
  {
    w' := w;
    var k := 0;
    while k < |order|
      invariant WeekInv(cfg, w')
      invariant |w'.assignments| + |w'.violations| == |w.assignments| + |w.violations| + k
      invariant DayOrder(order, day, w.assignments, w'.assignments, k)
      invariant DayFrom(cfg, order, k, day, w') == DayFrom(cfg, order, 0, day, w)
    {
      var before := w'.assignments;
      w' := Visit(cfg, w', day, order[k]);
      DayOrderStep(order, day, w.assignments, before, k, w'.assignments);
      k := k + 1;
    }
  }

  /** After `offset` days from `startDay`: day-ordered assignments of shifts in `order` within those days. */
  ghost predicate Span(order: seq<ShiftDefinition>, startDay: int, offset: int, a: seq<Assignment>)
  {
    && Ordered(a)
    && forall i :: 0 <= i < |a| ==> startDay <= a[i].day < startDay + offset && a[i].shift in order
  }

  lemma SpanStep(order: seq<ShiftDefinition>, startDay: int, offset: int, a: seq<Assignment>, a': seq<Assignment>)
    requires 0 <= offset && Span(order, startDay, offset, a)
    requires DayOrder(order, startDay + offset, a, a', |order|)
    ensures Span(order, startDay, offset + 1, a')
  {
    forall i | 0 <= i < |a'| ensures startDay <= a'[i].day < startDay + offset + 1 && a'[i].shift in order {
      if i < |a| {
        assert a'[i] == a'[..|a|][i];
      }
    }
  }

  function NewWeek(cfg: ScheduleConfig): Week
  {
    Week([], [], map id | id in Ids(cfg.staff) :: 0, map id | id in Ids(cfg.staff) :: None)
  }

  lemma NewWeekInv(cfg: ScheduleConfig)
    ensures WeekInv(cfg, NewWeek(cfg))
  {
    var w := NewWeek(cfg);
    forall m | m in cfg.staff && IdUnique(cfg.staff, m) ensures HoursOf(w.hours, m.id) <= Max(0, HoursCap(cfg, m)) {
      assert m.id in Ids(cfg.staff);
    }
  }

  /** Hours booked per member are the minutes of that member's assignments. */
  lemma BookedHours(cfg: ScheduleConfig, w: Week)
    requires WeekInv(cfg, w)
    ensures forall m :: m in cfg.staff ==> Worked(w.assignments, m.id) <= Max(0, cfg.rules.maxHoursPerWeek * 60)
    ensures forall m :: m in cfg.staff && IdUnique(cfg.staff, m) ==> Worked(w.assignments, m.id) <= Max(0, HoursCap(cfg, m))
  {
    forall m | m in cfg.staff ensures w.hours[m.id] == Worked(w.assignments, m.id) {
      assert m.id in Ids(cfg.staff);
    }
  }

  /** The outer loop of `generate_week`: `days` days from `startDay`, the shifts of each in `order`. */
  method FillWeek(cfg: ScheduleConfig, order: seq<ShiftDefinition>, startDay: int, days: int) returns (w: Week)
    requires Descending(order)
    ensures WeekInv(cfg, w)
    ensures |w.assignments| + |w.violations| == Max(0, days) * |order|
    ensures Span(order, startDay, Max(0, days), w.assignments)
    ensures w == WeekFrom(cfg, order, startDay, 0, Max(0, days), NewWeek(cfg))
  {
    w := NewWeek(cfg);
    NewWeekInv(cfg);
    var offset := 0;
    while offset < days
      invariant 0 <= offset <= Max(0, days)
      invariant WeekInv(cfg, w)
      invariant |w.assignments| + |w.violations| == offset * |order|
      invariant Span(order, startDay, offset, w.assignments)
      invariant WeekFrom(cfg, order, startDay, offset, Max(0, days), w) == WeekFrom(cfg, order, startDay, 0, Max(0, days), NewWeek(cfg))
    {
      var w' := FillDay(cfg, order, startDay + offset, w);
      SpanStep(order, startDay, offset, w.assignments, w'.assignments);
      assert (offset + 1) * |order| == offset * |order| + |order|;
      w := w';
      offset := offset + 1;
    }
  }

  /** `generate_week`. */
  method GenerateWeek(cfg: ScheduleConfig, startDay: int, days: int) returns (r: ScheduleResult)
    ensures |r.assignments| + |r.violations| == Max(0, days) * |cfg.shifts.keys|
    ensures Ordered(r.assignments)
    ensures forall i :: 0 <= i < |r.assignments| ==>
              && startDay <= r.assignments[i].day < startDay + days
              && r.assignments[i].shift in Values(cfg.shifts)
              && Skilled(cfg, r.assignments[i])
    ensures forall m :: m in cfg.staff ==> Worked(r.assignments, m.id) <= Max(0, cfg.rules.maxHoursPerWeek * 60)
    ensures forall m :: m in cfg.staff && IdUnique(cfg.staff, m) ==> Worked(r.assignments, m.id) <= Max(0, HoursCap(cfg, m))
    ensures forall j :: 0 <= j < |r.assignments| ==> RestBefore(cfg, r.assignments, j)
    ensures var w := WeekFrom(cfg, ShiftsByHours(cfg), startDay, 0, Max(0, days), NewWeek(cfg));
            r == ScheduleResult(w.assignments, w.violations)
  {
    var order := ShiftsByHours(cfg);
    ShiftsByHoursSpec(cfg);
    var w := FillWeek(cfg, order, startDay, days);
    BookedHours(cfg, w);
    assert |order| == |cfg.shifts.keys| by {
      assert |multiset(order)| == |multiset(Values(cfg.shifts))|;
    }
    assert forall x :: x in order ==> x in Values(cfg.shifts) by {
      assert forall x :: x in order ==> x in multiset(Values(cfg.shifts));
    }
    r := ScheduleResult(w.assignments, w.violations);
  }
}

=== FILE: intent_router.dfy ===
/**
 The offline intent router of `mock_llm.py`: a request is normalised
 (surrounding whitespace removed, letters lower-cased) and mapped to the
 first tool whose keyword group has a member occurring in it.
 */
module IntentRouter {
  import opened Wrappers

  datatype ToolCall = ToolCall(name: string, args: map<string, string>)

  // ---- normalisation ----

  /** `str.isspace` on the ASCII range. */
  predicate IsSpace(c: char)
  {
    c == ' ' || 9 <= c as int <= 13 || 28 <= c as int <= 31
  }

  /** `str.lower` on the ASCII range. */
  function LowerChar(c: char): (r: char)
    ensures 'A' <= c <= 'Z' ==> 'a' <= r <= 'z'
    ensures !('A' <= c <= 'Z') ==> r == c
    ensures IsSpace(r) <==> IsSpace(c)
  {
    if 'A' <= c <= 'Z' then (c as int + 32) as char else c
  }

  function Lower(s: string): (r: string)
    ensures |r| == |s|
    ensures forall i :: 0 <= i < |s| ==> r[i] == LowerChar(s[i])
  {
    seq(|s|, i requires 0 <= i < |s| => LowerChar(s[i]))
  }

  /** Number of leading whitespace characters. */
  function Lead(s: string): (n: nat)
    ensures n <= |s|
    ensures forall k :: 0 <= k < n ==> IsSpace(s[k])
    ensures n < |s| ==> !IsSpace(s[n])
  {
    if |s| > 0 && IsSpace(s[0]) then 1 + Lead(s[1..]) else 0
  }

  /** Number of trailing whitespace characters. */
  function Trail(s: string): (n: nat)
    ensures n <= |s|
    ensures forall k :: |s| - n <= k < |s| ==> IsSpace(s[k])
    ensures n < |s| ==> !IsSpace(s[|s| - n - 1])
  {
    if |s| > 0 && IsSpace(s[|s| - 1]) then 1 + Trail(s[..|s| - 1]) else 0
  }

  /** `str.strip()`: the slice of `s` between its leading and trailing whitespace. */
  function Strip(s: string): (r: string)
    ensures Lead(s) + |r| <= |s| && r == s[Lead(s)..Lead(s) + |r|]
    ensures |r| == |s| - Lead(s) - Trail(s[Lead(s)..])
    ensures forall k :: Lead(s) + |r| <= k < |s| ==> IsSpace(s[k])
    ensures Trimmed(r)
  {
    var i := Lead(s);
    var u := s[i..];
    var r := u[..|u| - Trail(u)];
    assert r == s[i..i + |r|];
    assert forall k :: i + |r| <= k < |s| ==> s[k] == u[k - i];
    r
  }

  /** `s` begins and ends with a non-whitespace character, or is empty. */
  predicate Trimmed(s: string)
  {
    |s| > 0 ==> !IsSpace(s[0]) && !IsSpace(s[|s| - 1])
  }

  /** `user_text.strip().lower()`. */
  function Normalize(s: string): string
  {
    Lower(Strip(s))
  }

  predicate AllSpace(s: string)
  {
    forall k :: 0 <= k < |s| ==> IsSpace(s[k])
  }

  lemma {:induction false} LeadPrefix(a: string, s: string)
    requires AllSpace(a)
    ensures Lead(a + s) == |a| + Lead(s)
    decreases |a|
  {
    if |a| > 0 {
      assert (a + s)[1..] == a[1..] + s;
      LeadPrefix(a[1..], s);
    } else {
      assert a + s == s;
    }
  }

  lemma {:induction false} TrailSuffix(s: string, b: string)
    requires AllSpace(b)
    ensures Trail(s + b) == |b| + Trail(s)
    decreases |b|
  {
    if |b| > 0 {
      assert (s + b)[..|s + b| - 1] == s + b[..|b| - 1];
      TrailSuffix(s, b[..|b| - 1]);
    } else {
      assert s + b == s;
    }
  }

  /** Whatever whitespace surrounds a trimmed core, stripping yields exactly that core. */
  lemma StripUnique(a: string, m: string, b: string)
    requires AllSpace(a) && AllSpace(b) && Trimmed(m)
    ensures Strip(a + m + b) == m
  {
    var x := a + m + b;
    assert x == a + (m + b);
    LeadPrefix(a, m + b);
    if |m| > 0 {
      assert (m + b)[0] == m[0];
      assert Lead(m + b) == 0;
      assert x[|a|..] == m + b;
      TrailSuffix(m, b);
      assert Trail(m) == 0;
    } else {
      assert m + b == b + [];
      LeadPrefix(b, []);
      assert x[|x|..] == [];
    }
  }

  lemma AllSpaceConcat(x: string, y: string)
    requires AllSpace(x) && AllSpace(y)
    ensures AllSpace(x + y)
  {
    assert forall k :: |x| <= k < |x + y| ==> (x + y)[k] == y[k - |x|];
  }

  lemma Regroup(p: string, a: string, m: string, b: string, q: string)
    ensures p + (a + m + b) + q == (p + a) + m + (b + q)
  {
  }

  /** Whitespace around a string whose trimmed core is `m`, at `i`, leaves that core. */
  lemma StripAround(p: string, s: string, q: string, i: int, m: string)
    requires AllSpace(p) && AllSpace(q) && Trimmed(m)
    requires 0 <= i && i + |m| <= |s| && m == s[i..i + |m|]
    requires forall k :: 0 <= k < i ==> IsSpace(s[k])
    requires forall k :: i + |m| <= k < |s| ==> IsSpace(s[k])
    ensures Strip(p + s + q) == m
  {
    var a, b := s[..i], s[i + |m|..];
    assert s == a + m + b;
    Regroup(p, a, m, b, q);
    assert AllSpace(a) by {
      assert forall k :: 0 <= k < |a| ==> a[k] == s[k];
    }
    assert AllSpace(b) by {
      assert forall k :: 0 <= k < |b| ==> b[k] == s[i + |m| + k];
    }
    AllSpaceConcat(p, a);
    AllSpaceConcat(b, q);
    StripUnique(p + a, m, b + q);
  }

  lemma StripIgnoresPadding(p: string, s: string, q: string)
    requires AllSpace(p) && AllSpace(q)
    ensures Strip(p + s + q) == Strip(s)
  {
    StripAround(p, s, q, Lead(s), Strip(s));
  }

  /** Padding a request with whitespace never changes its normal form. */
  lemma NormalizeIgnoresPadding(p: string, s: string, q: string)
    requires AllSpace(p) && AllSpace(q)
    ensures Normalize(p + s + q) == Normalize(s)
  {
    StripIgnoresPadding(p, s, q);
  }

  lemma LowerSlice(s: string, i: int, j: int)
    requires 0 <= i <= j <= |s|
    ensures Lower(s[i..j]) == Lower(s)[i..j]
  {
    assert forall k :: 0 <= k < j - i ==> Lower(s[i..j])[k] == LowerChar(s[i + k]);
  }

  /** Requests that differ only in letter case are normalised alike. */
  lemma NormalizeIgnoresCase(s: string, s': string)
    requires Lower(s) == Lower(s')
    ensures Normalize(s) == Normalize(s')
  {
    assert |s| == |s'|;
    forall k | 0 <= k < |s| ensures IsSpace(s[k]) <==> IsSpace(s'[k]) {
      assert Lower(s)[k] == Lower(s')[k];
    }
    SameSpacesSameLead(s, s');
    var i := Lead(s);
    SameSpacesSameTrail(s[i..], s'[i..]);
    var n := |Strip(s)|;
    assert |Strip(s')| == n;
    LowerSlice(s, i, i + n);
    LowerSlice(s', i, i + n);
  }

  lemma {:induction false} SameSpacesSameLead(s: string, s': string)
    requires |s| == |s'| && forall k :: 0 <= k < |s| ==> (IsSpace(s[k]) <==> IsSpace(s'[k]))
    ensures Lead(s) == Lead(s')
    decreases |s|
  {
    if |s| > 0 && IsSpace(s[0]) {
      SameSpacesSameLead(s[1..], s'[1..]);
    }
  }

  lemma {:induction false} SameSpacesSameTrail(s: string, s': string)
    requires |s| == |s'| && forall k :: 0 <= k < |s| ==> (IsSpace(s[k]) <==> IsSpace(s'[k]))
    ensures Trail(s) == Trail(s')
    decreases |s|
  {
    if |s| > 0 && IsSpace(s[|s| - 1]) {
      SameSpacesSameTrail(s[..|s| - 1], s'[..|s| - 1]);
    }
  }

  lemma LowerIdempotent(s: string)
    ensures Lower(Lower(s)) == Lower(s)
  {
  }

  lemma LowerKeepsTrimmed(m: string)
    requires Trimmed(m)
    ensures Trimmed(Lower(m))
  {
    if |m| > 0 {
      assert Lower(m)[0] == LowerChar(m[0]);
      assert Lower(m)[|m| - 1] == LowerChar(m[|m| - 1]);
    }
  }

  lemma StripTrimmed(n: string)
    requires Trimmed(n)
    ensures Strip(n) == n
  {
    assert n == [] + n + [];
    StripUnique([], n, []);
  }

  /** Normalising twice is normalising once. */
  lemma NormalizeIdempotent(s: string)
    ensures Normalize(Normalize(s)) == Normalize(s)
  {
    var m := Strip(s);
    LowerKeepsTrimmed(m);
    StripTrimmed(Lower(m));
    LowerIdempotent(m);
  }

  // ---- keyword search ----

  predicate OccursAt(t: string, k: string, p: int)
  {
    0 <= p <= |t| - |k| && t[p..p + |k|] == k
  }

  /** Python's `k in t` on strings. */
  ghost predicate Occurs(t: string, k: string)
  {
    exists p :: OccursAt(t, k, p)
  }

  /** Left-to-right substring search. */
  function Contains(t: string, k: string): (r: bool)
    ensures r <==> Occurs(t, k)
    decreases |t|
  {
    if |t| < |k| then false
    else if t[..|k|] == k then assert OccursAt(t, k, 0); true
    else
      var rest := Contains(t[1..], k);
      assert Occurs(t[1..], k) ==> Occurs(t, k) by {
        if Occurs(t[1..], k) {
          var p :| OccursAt(t[1..], k, p);
          assert t[p + 1..p + 1 + |k|] == t[1..][p..p + |k|];
          assert OccursAt(t, k, p + 1);
        }
      }
      assert Occurs(t, k) ==> Occurs(t[1..], k) by {
        if Occurs(t, k) {
          var p :| OccursAt(t, k, p);
          assert p != 0;
          assert t[1..][p - 1..p - 1 + |k|] == t[p..p + |k|];
          assert OccursAt(t[1..], k, p - 1);
        }
      }
      rest
  }

  /** Some keyword of the group occurs in `t`. */
  ghost predicate Matches(t: string, keys: seq<string>)
  {
    exists i :: 0 <= i < |keys| && Occurs(t, keys[i])
  }

  /** `any(k in t for k in keys)`, and the chains of `or` over `in`. */
  function AnyIn(t: string, keys: seq<string>): (r: bool)
    ensures r <==> Matches(t, keys)
  {
    if |keys| == 0 then false
    else
      assert forall i :: 1 <= i < |keys| ==> keys[i] == keys[1..][i - 1];
      Contains(t, keys[0]) || AnyIn(t, keys[1..])
  }

  /** The keyword groups, in the order they are tried, and the tool each selects. */
  const Groups: seq<seq<string>> := [
    ["generate", "build", "create schedule", "make schedule", "schedula"],
    ["validate", "check", "violations"],
    ["score", "fair", "fairness"],
    ["explain", "why", "show"]]

  const Tools: seq<string> := ["schedule_generate", "schedule_validate", "schedule_score", "schedule_explain"]

  function Call(name: string): ToolCall
  {
    ToolCall(name, map[])
  }

  /** The keyword tests of `MockLLM.route` on an already normalised request `t`. */
  function RouteNormal(t: string): (r: Option<ToolCall>)
    ensures r.Some? ==> r.value.args == map[]
    ensures forall g :: 0 <= g < |Groups| ==>
              (r == Some(Call(Tools[g])) <==> Matches(t, Groups[g]) && forall h :: 0 <= h < g ==> !Matches(t, Groups[h]))
    ensures r.None? <==> forall g :: 0 <= g < |Groups| ==> !Matches(t, Groups[g])
  {
    if AnyIn(t, Groups[0]) then Some(Call(Tools[0]))
    else if AnyIn(t, Groups[1]) then Some(Call(Tools[1]))
    else if AnyIn(t, Groups[2]) then Some(Call(Tools[2]))
    else if AnyIn(t, Groups[3]) then Some(Call(Tools[3]))
    else None
  }

  /** `MockLLM.route`. */
  function Route(text: string): Option<ToolCall>
  {
    RouteNormal(Normalize(text))
  }

  /** Surrounding whitespace, letter case and repeated normalisation never change the route. */
  lemma RouteNormalized(p: string, s: string, q: string, s': string)
    requires AllSpace(p) && AllSpace(q) && Lower(s) == Lower(s')
    ensures Route(p + s + q) == Route(s) == Route(s') == Route(Normalize(s))
  {
    NormalizeIgnoresPadding(p, s, q);
    NormalizeIgnoresCase(s, s');
    NormalizeIdempotent(s);
  }

  /** "fairness" contains "fair", so the third group's last keyword never decides anything. */
  lemma FairnessRedundant(t: string)
    ensures Matches(t, Groups[2]) <==> Matches(t, ["score", "fair"])
  {
    var g := Groups[2];
    if Occurs(t, g[2]) {
      var p :| OccursAt(t, g[2], p);
      assert t[p..p + 4] == t[p..p + 8][..4];
      assert OccursAt(t, "fair", p);
      assert Occurs(t, ["score", "fair"][1]);
    }
    if Matches(t, ["score", "fair"]) {
      var i :| 0 <= i < 2 && Occurs(t, ["score", "fair"][i]);
      assert Occurs(t, g[i]);
    }
  }
}

=== FILE: randomness.dfy ===
/**
 The solver's `random.Random`, as an oracle. The generator is its stream of
 raw draws; which numbers the stream holds is left open, so every property
 proved about a caller holds for every seed. `Below` is `_randbelow`,
 `Shuffle` is the Fisher-Yates loop of `random.shuffle` and `Choice` is
 `random.choice`, each consuming draws in the order the library does.
 */
module Randomness {
  import opened Wrappers

  datatype Rng = Rng(draw: nat -> nat, pos: nat)

  /** What `random.choice` raises on an empty sequence. */
  datatype Exception = IndexError

  /** `_randbelow(n)`: an index below `n` taken from the next draw. */
  function Below(g: Rng, n: nat): (r: (nat, Rng))
    requires n > 0
    ensures r.0 < n
    ensures r.1.draw == g.draw && r.1.pos == g.pos + 1
  {
    (g.draw(g.pos) % n, Rng(g.draw, g.pos + 1))
  }

  /** `seq[_randbelow(len(seq))]` for a non-empty sequence. */
  function Pick<T>(g: Rng, s: seq<T>): (r: (T, Rng))
    requires |s| > 0
    ensures r.0 in s
    ensures r.1.draw == g.draw && r.1.pos == g.pos + 1
  {
    var (i, g') := Below(g, |s|);
    (s[i], g')
  }

  /** `random.choice`: raises `IndexError` exactly on an empty sequence. */
  function Choice<T>(g: Rng, s: seq<T>): (r: Result<(T, Rng), Exception>)
    ensures r.Failure? <==> |s| == 0
    ensures r.Success? ==> r.value.0 in s && r.value.1.pos == g.pos + 1
  {
    if |s| == 0 then Failure(IndexError) else Success(Pick(g, s))
  }

  /** Exchanges the elements at `i` and `j`. */
  function Swap<T>(s: seq<T>, i: nat, j: nat): (r: seq<T>)
    requires i < |s| && j < |s|
    ensures |r| == |s|
    ensures multiset(r) == multiset(s)
  {
    var r := s[i := s[j]][j := s[i]];
    SwapPermutes(s, i, j);
    r
  }

  lemma SwapPermutes<T>(s: seq<T>, i: nat, j: nat)
    requires i < |s| && j < |s|
    ensures multiset(s[i := s[j]][j := s[i]]) == multiset(s)
  {
    var t := s[i := s[j]];
    assert multiset(t) == multiset(s) - multiset{s[i]} + multiset{s[j]};
    assert multiset(t[j := s[i]]) == multiset(t) - multiset{t[j]} + multiset{s[i]};
  }

  /** The Fisher-Yates loop from position `i` down to position 1. */
  function ShuffleDown<T>(s: seq<T>, g: Rng, i: nat): (r: (seq<T>, Rng))
    requires i < |s|
    ensures multiset(r.0) == multiset(s) && |r.0| == |s|
    ensures r.1.draw == g.draw && r.1.pos == g.pos + i
    decreases i
  {
    if i == 0 then (s, g)
    else
      var (j, g') := Below(g, i + 1);
      ShuffleDown(Swap(s, i, j), g', i - 1)
  }

  /** `random.shuffle`: a permutation, consuming one draw per position above the first. */
  function Shuffle<T>(g: Rng, s: seq<T>): (r: (seq<T>, Rng))
    ensures multiset(r.0) == multiset(s) && |r.0| == |s|
    ensures r.1.draw == g.draw && r.1.pos == g.pos + (if |s| == 0 then 0 else |s| - 1)
  {
    if |s| == 0 then (s, g) else ShuffleDown(s, g, |s| - 1)
  }
}

=== FILE: scoring.dfy ===
/**
 The soft score of a schedule (higher is better): a fairness component, the
 negated population standard deviation of the per-employee shift counts, and
 a preference component, one point per assignment of an employee to a shift
 that requires a skill the employee prefers.

 Floats are exact reals. The square root behind the standard deviation is a
 parameter `root`; the properties below hold for any `root` that is
 non-negative and zero exactly at zero, as the true square root is.
 */
module Scoring {
  import opened Seqs
  import opened Dicts
  import opened Domain

  const FlatNote: string := "Fairness score is flat (small roster)."

  /** `components` holds the two weighted components under "fairness" and "preferences". */
  datatype ScoreReport = ScoreReport(total: real, fairness: real, preferences: real, notes: seq<string>)

  /** The number of shifts of each configured employee, in configuration order. */
  function ShiftCounts(cfg: Config, s: Schedule): (r: seq<int>)
    ensures |r| == |cfg.employees.keys|
  {
    var inv := EmployeeShifts(s);
    seq(|cfg.employees.keys|, i requires 0 <= i < |cfg.employees.keys| => |Lookup(inv, cfg.employees.keys[i])|)
  }

  lemma ShiftCountsAreOccurrences(cfg: Config, s: Schedule)
    ensures forall i :: 0 <= i < |cfg.employees.keys| ==>
              ShiftCounts(cfg, s)[i] == Occurrences(s, cfg.employees.keys[i])
  {
    forall i | 0 <= i < |cfg.employees.keys|
      ensures ShiftCounts(cfg, s)[i] == Occurrences(s, cfg.employees.keys[i])
    {
      EmployeeShiftsLength(s, cfg.employees.keys[i]);
    }
  }

  function Sum(xs: seq<int>): int
  {
    if |xs| == 0 then 0 else Sum(xs[..|xs| - 1]) + xs[|xs| - 1]
  }

  function Square(x: int): int { x * x }

  /** Sum of squared deviations from the mean, scaled by `n = |xs|`: the sum of `(n * x - Sum(xs))^2`. */
  function ScaledSquares(xs: seq<int>, total: int, n: nat): int
    requires n <= |xs|
  {
    if n == 0 then 0 else ScaledSquares(xs, total, n - 1) + Square(|xs| * xs[n - 1] - total)
  }

  /** Population variance: `ScaledSquares / n^3` equals the mean of `(x - mean)^2`. */
  function Variance(xs: seq<int>): (r: real)
    requires |xs| > 0
  {
    var n := |xs|;
    (ScaledSquares(xs, Sum(xs), n) as real) / ((n * n * n) as real)
  }

  /** `-pstdev(counts)` for at least two employees, otherwise zero. */
  function Fairness(counts: seq<int>, root: real -> real): (r: real)
  {
    if |counts| >= 2 then -root(Variance(counts)) else 0.0
  }

  /** `root` behaves like the square root where it matters: non-negative, and zero exactly at zero. */
  ghost predicate RootLike(root: real -> real)
  {
    forall x :: x >= 0.0 ==> root(x) >= 0.0 && (root(x) == 0.0 <==> x == 0.0)
  }

  ghost predicate AllEqual(xs: seq<int>)
  {
    forall i, j :: 0 <= i < |xs| && 0 <= j < |xs| ==> xs[i] == xs[j]
  }

  lemma {:induction false} ScaledSquaresNonNegative(xs: seq<int>, total: int, n: nat)
    requires n <= |xs|
    ensures ScaledSquares(xs, total, n) >= 0
    ensures ScaledSquares(xs, total, n) == 0 <==> forall i :: 0 <= i < n ==> |xs| * xs[i] == total
  {
    if n > 0 {
      ScaledSquaresNonNegative(xs, total, n - 1);
      var d := |xs| * xs[n - 1] - total;
      assert Square(d) >= 0 && (Square(d) == 0 <==> d == 0) by {
        if d != 0 {
          assert d * d > 0 by {
            if d > 0 {
              assert d * d >= d;
            } else {
              assert (-d) * (-d) >= -d;
            }
          }
        }
      }
    }
  }

  lemma {:induction false} SumConstant(xs: seq<int>, c: int)
    requires forall i :: 0 <= i < |xs| ==> xs[i] == c
    ensures Sum(xs) == |xs| * c
  {
    if |xs| > 0 {
      SumConstant(xs[..|xs| - 1], c);
    }
  }

  /** The variance vanishes exactly when all counts are equal. */
  lemma VarianceZeroIff(xs: seq<int>)
    requires |xs| > 0
    ensures Variance(xs) >= 0.0
    ensures Variance(xs) == 0.0 <==> AllEqual(xs)
  {
    var n := |xs|;
    var total := Sum(xs);
    ScaledSquaresNonNegative(xs, total, n);
    assert (n * n * n) as real > 0.0 by {
      assert n * n >= 1;
      assert n * n * n >= 1;
    }
    if AllEqual(xs) {
      SumConstant(xs, xs[0]);
      assert forall i :: 0 <= i < n ==> xs[i] == xs[0];
    }
    if forall i :: 0 <= i < n ==> n * xs[i] == total {
      forall i, j | 0 <= i < n && 0 <= j < n
        ensures xs[i] == xs[j]
      {
        assert n * xs[i] == n * xs[j];
        MultiplyCancel(n, xs[i], xs[j]);
      }
    }
  }

  lemma MultiplyCancel(n: int, a: int, b: int)
    requires n > 0 && n * a == n * b
    ensures a == b
  {
  }

  /** Fairness is never positive, and is zero exactly for fewer than two employees or equal loads. */
  lemma FairnessZeroIff(counts: seq<int>, root: real -> real)
    requires RootLike(root)
    ensures Fairness(counts, root) <= 0.0
    ensures Fairness(counts, root) == 0.0 <==> |counts| < 2 || AllEqual(counts)
  {
    if |counts| >= 2 {
      VarianceZeroIff(counts);
    }
  }

  // ---- preferences ----

  /** The skills listed under "prefer_skill" in the employee's preferences, if any. */
  function PreferredSkills(cfg: Config, eid: string): set<string>
  {
    var prefs := if eid in cfg.preferences.employeeShiftPreferences
                 then cfg.preferences.employeeShiftPreferences[eid] else map[];
    if "prefer_skill" in prefs then set x | x in prefs["prefer_skill"] else {}
  }

  /** An assignment earns a point when the shift requires a skill the employee prefers. */
  predicate EarnsPoint(cfg: Config, shift: Shift, eid: string)
  {
    var preferred := PreferredSkills(cfg, eid);
    preferred != {} && shift.requiredSkills != {} && shift.requiredSkills * preferred != {}
  }

  /** The emptiness tests are implied by the intersection test. */
  lemma EarnsPointIff(cfg: Config, shift: Shift, eid: string)
    ensures EarnsPoint(cfg, shift, eid) <==> exists k :: k in shift.requiredSkills && k in PreferredSkills(cfg, eid)
  {
    var preferred := PreferredSkills(cfg, eid);
    if exists k :: k in shift.requiredSkills && k in preferred {
      var k :| k in shift.requiredSkills && k in preferred;
      assert k in shift.requiredSkills * preferred;
    }
  }

  /** Points earned by the people listed on a shift. */
  function ShiftPoints(cfg: Config, shift: Shift, eids: seq<string>): (r: nat)
    ensures r <= |eids|
  {
    if |eids| == 0 then 0
    else ShiftPoints(cfg, shift, eids[..|eids| - 1]) + (if EarnsPoint(cfg, shift, eids[|eids| - 1]) then 1 else 0)
  }

  /** Points over the first `n` shifts of the schedule; unknown shifts earn nothing. */
  function PointsUpTo(cfg: Config, a: Dict<seq<string>>, n: nat): nat
    requires n <= |a.keys|
  {
    if n == 0 then 0
    else
      var sid := a.keys[n - 1];
      PointsUpTo(cfg, a, n - 1) + (if sid in cfg.shifts.m then ShiftPoints(cfg, cfg.shifts.m[sid], a.m[sid]) else 0)
  }

  function PreferencePoints(cfg: Config, s: Schedule): nat
  {
    PointsUpTo(cfg, s.assignments, |s.assignments.keys|)
  }

  lemma {:induction false} PointsBoundUpTo(cfg: Config, a: Dict<seq<string>>, n: nat)
    requires n <= |a.keys|
    ensures PointsUpTo(cfg, a, n) <= SumUpTo(a, Length, n)
  {
    if n > 0 {
      PointsBoundUpTo(cfg, a, n - 1);
    }
  }

  /** At most one point per (shift, employee) entry of the schedule. */
  lemma PreferencePointsBound(cfg: Config, s: Schedule)
    ensures PreferencePoints(cfg, s) <= TotalLength(s.assignments)
  {
    PointsBoundUpTo(cfg, s.assignments, |s.assignments.keys|);
  }

  lemma {:induction false} ShiftPointsAll(cfg: Config, shift: Shift, eids: seq<string>)
    ensures ShiftPoints(cfg, shift, eids) == |eids| <==> forall j :: 0 <= j < |eids| ==> EarnsPoint(cfg, shift, eids[j])
    ensures ShiftPoints(cfg, shift, eids) == 0 <==> forall j :: 0 <= j < |eids| ==> !EarnsPoint(cfg, shift, eids[j])
  {
    if |eids| > 0 {
      var init := eids[..|eids| - 1];
      ShiftPointsAll(cfg, shift, init);
      assert forall j :: 0 <= j < |init| ==> init[j] == eids[j];
    }
  }

  lemma {:induction false} PointsZeroUpTo(cfg: Config, a: Dict<seq<string>>, n: nat)
    requires n <= |a.keys|
    ensures PointsUpTo(cfg, a, n) == 0 <==>
              forall i, j :: 0 <= i < n && 0 <= j < |a.m[a.keys[i]]| && a.keys[i] in cfg.shifts.m ==>
                !EarnsPoint(cfg, cfg.shifts.m[a.keys[i]], a.m[a.keys[i]][j])
  {
    if n > 0 {
      PointsZeroUpTo(cfg, a, n - 1);
      var sid := a.keys[n - 1];
      if sid in cfg.shifts.m {
        ShiftPointsAll(cfg, cfg.shifts.m[sid], a.m[sid]);
      }
    }
  }

  /** No point is earned iff no listed employee on a configured shift prefers one of its skills. */
  lemma PreferencePointsZeroIff(cfg: Config, s: Schedule)
    ensures PreferencePoints(cfg, s) == 0 <==>
              forall sid, eid :: sid in cfg.shifts.m && Listed(s, sid, eid) ==> !EarnsPoint(cfg, cfg.shifts.m[sid], eid)
  {
    var a := s.assignments;
    PointsZeroUpTo(cfg, a, |a.keys|);
    if PreferencePoints(cfg, s) == 0 {
      forall sid, eid | sid in cfg.shifts.m && Listed(s, sid, eid)
        ensures !EarnsPoint(cfg, cfg.shifts.m[sid], eid)
      {
        var i := IndexOf(a.keys, sid);
        var j := IndexOf(a.m[sid], eid);
      }
    } else {
      var i, j :| 0 <= i < |a.keys| && 0 <= j < |a.m[a.keys[i]]| && a.keys[i] in cfg.shifts.m
                  && EarnsPoint(cfg, cfg.shifts.m[a.keys[i]], a.m[a.keys[i]][j]);
      assert Listed(s, a.keys[i], a.m[a.keys[i]][j]);
    }
  }


  // ---- the report ----

  /** `score_schedule`. */
  function ScoreSchedule(cfg: Config, s: Schedule, root: real -> real): (r: ScoreReport)
    ensures r.total == r.fairness + r.preferences
    ensures r.notes == [FlatNote] || r.notes == []
  {
    var fairness := Fairness(ShiftCounts(cfg, s), root);
    var fc := Weighted(fairness, cfg.preferences.fairnessWeight);
    var pc := Weighted(PreferencePoints(cfg, s) as real, cfg.preferences.preferenceWeight);
    ScoreReport(fc + pc, fc, pc, if fairness == 0.0 then [FlatNote] else [])
  }

  function Weighted(x: real, w: real): real
  {
    x * w
  }

  /** Every configured employee has the same number of shifts. */
  ghost predicate EvenLoad(cfg: Config, s: Schedule)
  {
    forall i, j :: 0 <= i < |cfg.employees.keys| && 0 <= j < |cfg.employees.keys| ==>
      Occurrences(s, cfg.employees.keys[i]) == Occurrences(s, cfg.employees.keys[j])
  }

  lemma EvenLoadIff(cfg: Config, s: Schedule)
    ensures AllEqual(ShiftCounts(cfg, s)) <==> EvenLoad(cfg, s)
  {
    ShiftCountsAreOccurrences(cfg, s);
  }

  /**
   The flat-fairness note appears exactly for rosters of fewer than two
   employees or where every employee has the same number of shifts.
   */
  lemma ScoreFlatNote(cfg: Config, s: Schedule, root: real -> real)
    requires RootLike(root)
    ensures ScoreSchedule(cfg, s, root).notes == [FlatNote] <==> |cfg.employees.keys| < 2 || EvenLoad(cfg, s)
  {
    FairnessZeroIff(ShiftCounts(cfg, s), root);
    EvenLoadIff(cfg, s);
  }

  /** The fairness component is the fairness of the per-employee counts, weighted. */
  lemma FairnessComponent(cfg: Config, s: Schedule, root: real -> real)
    ensures ScoreSchedule(cfg, s, root).fairness == Weighted(Fairness(ShiftCounts(cfg, s), root), cfg.preferences.fairnessWeight)
  {
  }

  lemma WeightedFairnessNonPositive(counts: seq<int>, w: real, root: real -> real)
    requires RootLike(root) && w >= 0.0
    ensures Weighted(Fairness(counts, root), w) <= 0.0
  {
    FairnessZeroIff(counts, root);
    NonPositiveTimesNonNegative(Fairness(counts, root), w);
  }

  /** With a non-negative weight the fairness component never adds to the total. */
  lemma ScoreFairnessNonPositive(cfg: Config, s: Schedule, root: real -> real)
    requires RootLike(root) && cfg.preferences.fairnessWeight >= 0.0
    ensures ScoreSchedule(cfg, s, root).fairness <= 0.0
  {
    FairnessComponent(cfg, s, root);
    WeightedFairnessNonPositive(ShiftCounts(cfg, s), cfg.preferences.fairnessWeight, root);
  }

  lemma NonPositiveTimesNonNegative(a: real, b: real)
    requires a <= 0.0 && b >= 0.0
    ensures a * b <= 0.0
  {
  }

  /**
   The preference component is the weighted number of points and, for a
   non-negative weight, lies between zero and the weighted number of entries.
   */
  lemma ScorePreferences(cfg: Config, s: Schedule, root: real -> real)
    requires cfg.preferences.preferenceWeight >= 0.0
    ensures var r := ScoreSchedule(cfg, s, root);
            var w := cfg.preferences.preferenceWeight;
            && r.preferences == Weighted(PreferencePoints(cfg, s) as real, w)
            && 0.0 <= r.preferences <= Weighted(TotalLength(s.assignments) as real, w)
  {
    PreferenceComponent(cfg, s, root);
    PreferencePointsBound(cfg, s);
    WeightedPoints(PreferencePoints(cfg, s), TotalLength(s.assignments), cfg.preferences.preferenceWeight);
  }

  /** With a positive weight the preference component is zero iff no entry earns a point. */
  lemma ScorePreferencesZero(cfg: Config, s: Schedule, root: real -> real)
    requires cfg.preferences.preferenceWeight > 0.0
    ensures ScoreSchedule(cfg, s, root).preferences == 0.0 <==>
              forall sid, eid :: sid in cfg.shifts.m && Listed(s, sid, eid) ==> !EarnsPoint(cfg, cfg.shifts.m[sid], eid)
  {
    PreferenceComponent(cfg, s, root);
    PreferencePointsZeroIff(cfg, s);
    ProductZero(PreferencePoints(cfg, s) as real, cfg.preferences.preferenceWeight);
  }

  lemma PreferenceComponent(cfg: Config, s: Schedule, root: real -> real)
    ensures ScoreSchedule(cfg, s, root).preferences == Weighted(PreferencePoints(cfg, s) as real, cfg.preferences.preferenceWeight)
  {
  }

  lemma WeightedPoints(p: nat, bound: int, w: real)
    requires p <= bound && w >= 0.0
    ensures 0.0 <= Weighted(p as real, w) <= Weighted(bound as real, w)
  {
    WeightMonotone(p as real, bound as real, w);
  }

  lemma WeightMonotone(a: real, b: real, w: real)
    requires 0.0 <= a <= b && w >= 0.0
    ensures 0.0 <= a * w <= b * w
  {
  }

  lemma ProductZero(a: real, w: real)
    requires w > 0.0
    ensures Weighted(a, w) == 0.0 <==> a == 0.0
  {
  }
}

=== FILE: seqs.dfy ===
/** `Option` where the source returns `None` or a value; `Result` where it may raise instead. */
module Wrappers {

  datatype Option<+T> = None | Some(value: T)

  datatype Result<+T, +E> = Success(value: T) | Failure(error: E)
}

/**
 Sequence helpers shared by the scheduling model: occurrence counts,
 order-preserving filters, repetition and positions.
 */
module Seqs {

  /** Number of occurrences of `x` in `s` (Python's `list.count`). */
  function Count<T(==)>(x: T, s: seq<T>): nat
  {
    if |s| == 0 then 0
    else Count(x, s[..|s| - 1]) + (if s[|s| - 1] == x then 1 else 0)
  }

  lemma {:induction false} CountAppend<T>(x: T, a: seq<T>, b: seq<T>)
    ensures Count(x, a + b) == Count(x, a) + Count(x, b)
    decreases |b|
  {
    if |b| == 0 {
      assert a + b == a;
    } else {
      assert (a + b)[..|a + b| - 1] == a + b[..|b| - 1];
      CountAppend(x, a, b[..|b| - 1]);
    }
  }

  lemma {:induction false} CountPositive<T>(x: T, s: seq<T>)
    ensures Count(x, s) > 0 <==> x in s
  {
    if |s| > 0 {
      assert s == s[..|s| - 1] + [s[|s| - 1]];
      CountPositive(x, s[..|s| - 1]);
    }
  }

  /** No element occurs twice. */
  ghost predicate NoDup<T>(s: seq<T>)
  {
    forall i, j :: 0 <= i < j < |s| ==> s[i] != s[j]
  }

  /** A sequence has no duplicates iff every element has multiplicity at most one. */
  lemma {:induction false} NoDupMultiset<T>(s: seq<T>)
    ensures NoDup(s) <==> forall x :: multiset(s)[x] <= 1
  {
    if |s| == 0 {
    } else {
      var init, last := s[..|s| - 1], s[|s| - 1];
      assert s == init + [last];
      NoDupMultiset(init);
      if NoDup(s) {
        assert NoDup(init);
        assert last !in init;
        forall x ensures multiset(s)[x] <= 1 {
          assert multiset(s)[x] == multiset(init)[x] + multiset([last])[x];
        }
      } else {
        var i, j :| 0 <= i < j < |s| && s[i] == s[j];
        if j < |s| - 1 {
          assert init[i] == init[j];
          var x :| multiset(init)[x] > 1;
          assert multiset(s)[x] == multiset(init)[x] + multiset([last])[x];
        } else {
          assert s[i] in init;
          assert multiset(init)[last] >= 1;
          assert multiset(s)[last] == multiset(init)[last] + 1;
        }
      }
    }
  }

  /** A sequence with as many distinct elements as positions has no duplicates. */
  lemma {:induction false} DistinctCard<T>(s: seq<T>)
    ensures |set x | x in s| <= |s|
    ensures |set x | x in s| == |s| ==> NoDup(s)
  {
    if |s| > 0 {
      var init, last := s[..|s| - 1], s[|s| - 1];
      DistinctCard(init);
      assert s == init + [last];
      var si := set x | x in init;
      assert (set x | x in s) == si + {last};
      if last in init {
        assert last in si;
        assert si + {last} == si;
      } else {
        assert last !in si;
        if |set x | x in s| == |s| {
          assert NoDup(init);
        }
      }
    }
  }

  /** Without duplicates, every element occurs at most once. */
  lemma {:induction false} CountNoDup<T>(x: T, s: seq<T>)
    requires NoDup(s)
    ensures Count(x, s) <= 1
  {
    if |s| > 0 {
      var init := s[..|s| - 1];
      assert NoDup(init);
      CountNoDup(x, init);
      if s[|s| - 1] == x {
        assert x !in init;
        CountPositive(x, init);
      }
    }
  }

  /** Reordering preserves the absence of duplicates. */
  lemma PermutationKeepsNoDup<T>(a: seq<T>, b: seq<T>)
    requires multiset(a) == multiset(b)
    requires NoDup(a)
    ensures NoDup(b)
  {
    NoDupMultiset(a);
    NoDupMultiset(b);
  }

  /** A prefix one element longer. */
  lemma PrefixSnoc<T>(s: seq<T>, k: nat)
    requires k < |s|
    ensures s[..k + 1] == s[..k] + [s[k]]
  {
  }

  /** Membership in a prefix one element longer. */
  lemma InPrefix<T>(s: seq<T>, n: nat, x: T)
    requires 0 < n <= |s|
    ensures x in s[..n] <==> x in s[..n - 1] || x == s[n - 1]
    ensures NoDup(s) && x == s[n - 1] ==> x !in s[..n - 1]
  {
    assert s[..n] == s[..n - 1] + [s[n - 1]];
  }

  /** The elements of `s` satisfying `p`, in their original order. */
  function Filter<T(==)>(s: seq<T>, p: T -> bool): (r: seq<T>)
    ensures |r| <= |s|
    ensures forall i :: 0 <= i < |r| ==> r[i] in s && p(r[i])
    ensures forall i :: 0 <= i < |s| && p(s[i]) ==> s[i] in r
  {
    if |s| == 0 then []
    else
      var init := Filter(s[..|s| - 1], p);
      assert s == s[..|s| - 1] + [s[|s| - 1]];
      if p(s[|s| - 1]) then init + [s[|s| - 1]] else init
  }

  /** Filtering one element longer prefix appends that element exactly when it passes. */
  lemma FilterSnoc<T>(s: seq<T>, i: nat, p: T -> bool)
    requires i < |s|
    ensures Filter(s[..i + 1], p) == Filter(s[..i], p) + (if p(s[i]) then [s[i]] else [])
  {
    assert s[..i + 1][..i] == s[..i];
  }

  lemma {:induction false} FilterNoDup<T>(s: seq<T>, p: T -> bool)
    requires NoDup(s)
    ensures NoDup(Filter(s, p))
  {
    if |s| > 0 {
      var init := s[..|s| - 1];
      assert NoDup(init);
      FilterNoDup(init, p);
      assert s == init + [s[|s| - 1]];
      assert s[|s| - 1] !in init;
    }
  }

  /** Position of the first occurrence of `x` in `s`. */
  function IndexOf<T(==)>(s: seq<T>, x: T): (i: nat)
    requires x in s
    ensures i < |s| && s[i] == x
    ensures forall j :: 0 <= j < i ==> s[j] != x
  {
    if s[0] == x then 0 else 1 + IndexOf(s[1..], x)
  }

  lemma IndexOfPrefix<T>(a: seq<T>, b: seq<T>, x: T)
    requires x in a
    ensures IndexOf(a + b, x) == IndexOf(a, x)
  {
    var i, k := IndexOf(a + b, x), IndexOf(a, x);
    assert (a + b)[k] == x;
  }

  /** Filtering keeps the relative order of the kept elements. */
  lemma {:induction false} FilterKeepsOrder<T>(s: seq<T>, p: T -> bool)
    requires NoDup(s)
    ensures forall i, j :: 0 <= i < j < |Filter(s, p)| ==>
              IndexOf(s, Filter(s, p)[i]) < IndexOf(s, Filter(s, p)[j])
  {
    if |s| > 0 {
      var init, last := s[..|s| - 1], s[|s| - 1];
      assert s == init + [last];
      assert NoDup(init);
      FilterKeepsOrder(init, p);
      var fi := Filter(init, p);
      var r := Filter(s, p);
      forall i, j | 0 <= i < j < |r|
        ensures IndexOf(s, r[i]) < IndexOf(s, r[j])
      {
        assert r[i] in fi;
        IndexOfPrefix(init, [last], r[i]);
        if j < |fi| {
          assert r[j] == fi[j];
          IndexOfPrefix(init, [last], r[j]);
        } else {
          assert r[j] == last;
          assert last !in init;
          assert IndexOf(s, last) == |s| - 1;
        }
      }
    }
  }

  /** `n` copies of `x`. */
  function Rep<T>(x: T, n: nat): (r: seq<T>)
    ensures |r| == n
    ensures forall i :: 0 <= i < n ==> r[i] == x
  {
    if n == 0 then [] else Rep(x, n - 1) + [x]
  }

  /** One more copy at the end. */
  lemma RepSnoc<T>(pre: seq<T>, x: T, n: nat)
    ensures pre + Rep(x, n) + [x] == pre + Rep(x, n + 1)
  {
  }

  lemma {:induction false} CountRep<T>(y: T, x: T, n: nat)
    ensures Count(y, Rep(x, n)) == if x == y then n else 0
  {
    if n > 0 {
      assert Rep(x, n)[..n - 1] == Rep(x, n - 1);
      CountRep(y, x, n - 1);
    }
  }

  lemma CountAppendRep<T>(y: T, s: seq<T>, x: T, n: nat)
    ensures Count(y, s + Rep(x, n)) == Count(y, s) + if x == y then n else 0
  {
    CountAppend(y, s, Rep(x, n));
    CountRep(y, x, n);
  }

  /** Every occurrence of `a` replaced by `b`. */
  function ReplaceAll<T(==)>(s: seq<T>, a: T, b: T): (r: seq<T>)
    ensures |r| == |s|
    ensures forall i :: 0 <= i < |s| ==> r[i] == if s[i] == a then b else s[i]
  {
    if |s| == 0 then []
    else ReplaceAll(s[..|s| - 1], a, b) + [if s[|s| - 1] == a then b else s[|s| - 1]]
  }

  function Max(a: int, b: int): int { if a < b then b else a }

  function Min(a: int, b: int): int { if a < b then a else b }
}

/** Concatenation of per-element results, the shape of a loop that extends one output list. */
module FlatMaps {

  function FlatMap<T, U>(s: seq<T>, f: T -> seq<U>): seq<U>
  {
    if |s| == 0 then [] else FlatMap(s[..|s| - 1], f) + f(s[|s| - 1])
  }

  lemma {:induction false} InFlatMap<T, U>(s: seq<T>, f: T -> seq<U>, u: U)
    ensures u in FlatMap(s, f) <==> exists i :: 0 <= i < |s| && u in f(s[i])
  {
    if |s| > 0 {
      var init := s[..|s| - 1];
      InFlatMap(init, f, u);
      if u in FlatMap(init, f) {
        var i :| 0 <= i < |init| && u in f(init[i]);
        assert s[i] == init[i];
      }
      if exists i :: 0 <= i < |s| && u in f(s[i]) {
        var i :| 0 <= i < |s| && u in f(s[i]);
        if i < |init| {
          assert init[i] == s[i];
        }
      }
    }
  }

  /** A loop whose every step outputs nothing outputs nothing. */
  lemma {:induction false} FlatMapEmpty<T, U>(s: seq<T>, f: T -> seq<U>)
    requires forall i :: 0 <= i < |s| ==> f(s[i]) == []
    ensures FlatMap(s, f) == []
  {
    if |s| > 0 {
      FlatMapEmpty(s[..|s| - 1], f);
    }
  }

  /** A loop over six items. */
  lemma FlatMapSix<T, U>(x0: T, x1: T, x2: T, x3: T, x4: T, x5: T, f: T -> seq<U>)
    ensures FlatMap([x0, x1, x2, x3, x4, x5], f) == f(x0) + f(x1) + f(x2) + f(x3) + f(x4) + f(x5)
  {
    var s := [x0, x1, x2, x3, x4, x5];
    assert FlatMap(s[..1], f) == f(x0) by {
      assert s[..1][..0] == [];
    }
    assert FlatMap(s[..2], f) == f(x0) + f(x1) by {
      assert s[..2][..1] == s[..1];
    }
    assert FlatMap(s[..3], f) == f(x0) + f(x1) + f(x2) by {
      assert s[..3][..2] == s[..2];
    }
    assert FlatMap(s[..4], f) == f(x0) + f(x1) + f(x2) + f(x3) by {
      assert s[..4][..3] == s[..3];
    }
    assert FlatMap(s[..5], f) == f(x0) + f(x1) + f(x2) + f(x3) + f(x4) by {
      assert s[..5][..4] == s[..4];
    }
    assert s[..5] == s[..|s| - 1];
  }

  lemma FlatMapPrefix<T, U>(s: seq<T>, f: T -> seq<U>, n: nat)
    requires 0 < n <= |s|
    ensures FlatMap(s[..n], f) == FlatMap(s[..n - 1], f) + f(s[n - 1])
  {
    assert s[..n][..n - 1] == s[..n - 1];
  }
}

=== FILE: solver.dfy ===
/**
 The solver: eligibility, the greedy construction ordered by hardness, the
 randomised swap hill-climb and the iteration loop of `solve`. Randomness
 comes from a `Randomness.Rng` stream and the square root of the fairness
 term from the `root` oracle of the scorer.
 */
module Solver {
  import opened Wrappers
  import opened Seqs
  import opened Dicts
  import opened Domain
  import opened Constraints
  import opened Scoring
  import opened StableSort
  import opened Randomness
  import opened FlatMaps

  // ---- eligibility ----

  /** The two filters of `_eligible_employees`; the skill filter is skipped for a shift requiring no skill. */
  predicate Eligible(emp: Employee, shift: Shift)
  {
    (|shift.requiredSkills| == 0 || shift.requiredSkills <= emp.skills) && AvailableFor(emp, shift)
  }

  /** Skipping the skill filter for an empty requirement changes nothing: the empty set is covered by any skills. */
  lemma EligibleIff(emp: Employee, shift: Shift)
    ensures Eligible(emp, shift) <==>
              && (forall k :: k in shift.requiredSkills ==> k in emp.skills)
              && exists w :: w in emp.availability && w.start <= shift.start && shift.end <= w.end
  {
    if exists w :: w in emp.availability && w.start <= shift.start && shift.end <= w.end {
      var w :| w in emp.availability && w.start <= shift.start && shift.end <= w.end;
      var i := IndexOf(emp.availability, w);
      assert Contains(emp.availability[i], shift.start, shift.end);
    }
  }

  function IsEligible(cfg: Config, shift: Shift): string -> bool
  {
    eid => eid in cfg.employees.m && Eligible(cfg.employees.m[eid], shift)
  }

  /** `_eligible_employees`: the configured employees who pass both filters, each once. */
  function EligibleEmployees(cfg: Config, sid: string): (r: seq<string>)
    requires sid in cfg.shifts.m
    ensures NoDup(r)
    ensures forall eid :: eid in r <==> eid in cfg.employees.m && Eligible(cfg.employees.m[eid], cfg.shifts.m[sid])
  {
    var keys := cfg.employees.keys;
    KeysDistinct(cfg.employees);
    FilterNoDup(keys, IsEligible(cfg, cfg.shifts.m[sid]));
    Filter(keys, IsEligible(cfg, cfg.shifts.m[sid]))
  }

  /** The eligible employees come in configuration order. */
  lemma EligibleInConfigOrder(cfg: Config, sid: string)
    requires sid in cfg.shifts.m
    ensures forall i, j :: 0 <= i < j < |EligibleEmployees(cfg, sid)| ==>
              IndexOf(cfg.employees.keys, EligibleEmployees(cfg, sid)[i])
              < IndexOf(cfg.employees.keys, EligibleEmployees(cfg, sid)[j])
  {
    KeysDistinct(cfg.employees);
    FilterKeepsOrder(cfg.employees.keys, IsEligible(cfg, cfg.shifts.m[sid]));
  }

  // ---- greedy construction ----

  /** Number of eligible employees of a configured shift. */
  function Hardness(cfg: Config): string -> int
  {
    sid => if sid in cfg.shifts.m then |EligibleEmployees(cfg, sid)| else 0
  }

  /** The configured shift ids, stably sorted by their number of eligible employees. */
  function ShiftOrder(cfg: Config): seq<string>
  {
    SortBy(cfg.shifts.keys, Hardness(cfg))
  }

  /** The processing order lists every configured shift once, fewest eligible employees first, ties in configuration order. */
  lemma ShiftOrderSpec(cfg: Config)
    ensures multiset(ShiftOrder(cfg)) == multiset(cfg.shifts.keys)
    ensures SortedBy(ShiftOrder(cfg), Hardness(cfg))
    ensures forall k :: WithKey(ShiftOrder(cfg), Hardness(cfg), k) == WithKey(cfg.shifts.keys, Hardness(cfg), k)
  {
    forall k ensures WithKey(ShiftOrder(cfg), Hardness(cfg), k) == WithKey(cfg.shifts.keys, Hardness(cfg), k) {
      SortIsStable(cfg.shifts.keys, Hardness(cfg), k);
    }
  }

  /** Each configured shift is processed exactly once. */
  lemma ShiftOrderLists(cfg: Config)
    ensures NoDup(ShiftOrder(cfg))
    ensures forall sid :: sid in ShiftOrder(cfg) <==> sid in cfg.shifts.m
  {
    var order := ShiftOrder(cfg);
    KeysDistinct(cfg.shifts);
    PermutationKeepsNoDup(cfg.shifts.keys, order);
    forall sid ensures sid in order <==> sid in cfg.shifts.m {
      assert sid in order <==> sid in multiset(order);
      assert sid in cfg.shifts.keys <==> sid in multiset(cfg.shifts.keys);
    }
  }

  function LoadOf(load: map<string, int>): string -> int
  {
    eid => if eid in load then load[eid] else 0
  }

  /** A candidate the weekly cap still admits, judged by the load before this shift. */
  function BelowCap(load: map<string, int>, cap: int): string -> bool
  {
    eid => eid in load && load[eid] < cap
  }

  /**
   `chosen` is what the loop takes after scanning the first `n` candidates, and
   it stopped there either because the list ran out or because `req` were taken.
   */
  ghost predicate StopsAt(candidates: seq<string>, load: map<string, int>, cap: int, req: int, chosen: seq<string>, n: int)
  {
    0 <= n <= |candidates| && chosen == Filter(candidates[..n], BelowCap(load, cap))
    && (n < |candidates| ==> |chosen| >= req)
  }

  /** What the loop of `ChooseStaff` keeps after scanning the first `i` candidates. */
  ghost predicate Scanned(candidates: seq<string>, load: map<string, int>, cap: int, i: int, chosen: seq<string>, after: map<string, int>)
  {
    && 0 <= i <= |candidates|
    && (forall e :: e in chosen ==> e in candidates[..i])
    && NoDup(chosen)
    && after.Keys == load.Keys
    && (forall e :: e in load ==> after[e] == load[e] + Count(e, chosen))
    && chosen == Filter(candidates[..i], BelowCap(load, cap))
  }

  /** One turn of the loop of `ChooseStaff`: candidate `i` is taken exactly when the cap admits it. */
  method TakeIfBelow(candidates: seq<string>, load: map<string, int>, cap: int, i: int, chosen: seq<string>, after: map<string, int>)
    returns (chosen': seq<string>, after': map<string, int>)
    requires NoDup(candidates)
    requires forall e :: e in candidates ==> e in load
    requires i < |candidates|
    requires Scanned(candidates, load, cap, i, chosen, after)
    ensures Scanned(candidates, load, cap, i + 1, chosen', after')
    ensures chosen' == chosen + (if load[candidates[i]] < cap then [candidates[i]] else [])
  {
    var eid := candidates[i];
    InPrefix(candidates, i + 1, eid);
    assert eid !in chosen;
    CountPositive(eid, chosen);
    FilterSnoc(candidates, i, BelowCap(load, cap));
    assert BelowCap(load, cap)(eid) <==> after[eid] < cap;
    chosen', after' := chosen, after;
    if after[eid] < cap {
      chosen' := chosen + [eid];
      after' := after[eid := after[eid] + 1];
    }
    forall e | e in candidates[..i + 1] ensures e in candidates[..i] || e == eid {
      InPrefix(candidates, i + 1, e);
    }
  }

  /**
   The inner loop of `_greedy_construct` over the load-sorted candidates: take
   a candidate below the weekly cap while fewer than `req` are chosen.
   */
  method ChooseStaff(candidates: seq<string>, load: map<string, int>, cap: int, req: int)
    returns (chosen: seq<string>, after: map<string, int>)
    requires NoDup(candidates)
    requires forall e :: e in candidates ==> e in load
    ensures forall e :: e in chosen ==> e in candidates
    ensures NoDup(chosen)
    ensures |chosen| <= Max(0, req)
    ensures after.Keys == load.Keys
    ensures forall e :: e in load ==> after[e] == load[e] + Count(e, chosen)
    ensures forall e :: e in chosen ==> load[e] < cap
    ensures |chosen| < req ==> forall e :: e in candidates && e !in chosen ==> load[e] >= cap
    ensures exists n :: StopsAt(candidates, load, cap, req, chosen, n)
  {
    chosen := [];
    after := load;
    var i := 0;
    while i < |candidates| && |chosen| < req
      invariant Scanned(candidates, load, cap, i, chosen, after)
      invariant |chosen| <= Max(0, req)
    {
      chosen, after := TakeIfBelow(candidates, load, cap, i, chosen, after);
      i := i + 1;
    }
    assert StopsAt(candidates, load, cap, req, chosen, i);
    forall e | e in chosen ensures e in candidates && load[e] < cap {
      assert BelowCap(load, cap)(e);
    }
    if |chosen| < req {
      assert candidates[..i] == candidates;
      forall e | e in candidates && e !in chosen ensures load[e] >= cap {
        assert !BelowCap(load, cap)(e);
      }
    }
  }

  /** The entry built for `sid` respects the shift: eligible employees only, each once, at most the headcount. */
  ghost predicate GoodEntry(cfg: Config, sid: string, eids: seq<string>)
  {
    && sid in cfg.shifts.m
    && NoDup(eids)
    && |eids| <= Max(0, cfg.shifts.m[sid].requiredHeadcount)
    && forall e :: e in eids ==> e in EligibleEmployees(cfg, sid)
  }

  /** A short entry leaves out only employees whose load has reached the cap. */
  ghost predicate ShortOnlyAtCap(cfg: Config, sid: string, eids: seq<string>, load: string -> int)
    requires sid in cfg.shifts.m
  {
    |eids| < cfg.shifts.m[sid].requiredHeadcount ==>
      forall e :: e in EligibleEmployees(cfg, sid) && e !in eids ==> load(e) >= cfg.policies.maxShiftsPerWeek
  }

  lemma ShortOnlyAtCapGrows(cfg: Config, sid: string, eids: seq<string>, load: map<string, int>, after: map<string, int>)
    requires sid in cfg.shifts.m
    requires ShortOnlyAtCap(cfg, sid, eids, LoadOf(load))
    requires after.Keys == load.Keys
    requires forall e :: e in load ==> load[e] <= after[e]
    ensures ShortOnlyAtCap(cfg, sid, eids, LoadOf(after))
  {
  }

  /** Candidates of one shift: eligible employees, shuffled, then stably sorted by current load, so equal loads keep the shuffled order. */
  function Candidates(cfg: Config, sid: string, load: map<string, int>, g: Rng): (r: (seq<string>, Rng))
    requires sid in cfg.shifts.m
    ensures multiset(r.0) == multiset(EligibleEmployees(cfg, sid))
    ensures NoDup(r.0)
    ensures forall e :: e in r.0 <==> e in EligibleEmployees(cfg, sid)
    ensures SortedBy(r.0, LoadOf(load))
    ensures forall k :: WithKey(r.0, LoadOf(load), k) == WithKey(Shuffle(g, EligibleEmployees(cfg, sid)).0, LoadOf(load), k)
  {
    var elig := EligibleEmployees(cfg, sid);
    var (shuffled, g') := Shuffle(g, elig);
    var sorted := SortBy(shuffled, LoadOf(load));
    PermutationKeepsNoDup(elig, sorted);
    forall k ensures WithKey(sorted, LoadOf(load), k) == WithKey(shuffled, LoadOf(load), k) {
      SortIsStable(shuffled, LoadOf(load), k);
    }
    assert forall e :: e in sorted <==> e in multiset(sorted);
    assert forall e :: e in elig <==> e in multiset(elig);
    (sorted, g')
  }

  /** The load table counts each configured employee's listings, which stay within the cap; nobody else is listed. */
  ghost predicate LoadMatches(cfg: Config, a: Dict<seq<string>>, load: map<string, int>)
  {
    && load.Keys == cfg.employees.m.Keys
    && (forall e :: e in load ==> load[e] == Occurrences(Schedule(a), e))
    && (forall e :: e !in load ==> Occurrences(Schedule(a), e) == 0)
    && (forall e :: e in load ==> load[e] <= Max(0, cfg.policies.maxShiftsPerWeek))
  }

  /** Every entry built so far is good and short only where the load has reached the cap. */
  ghost predicate EntriesGood(cfg: Config, a: Dict<seq<string>>, load: map<string, int>)
  {
    forall sid :: sid in a.m ==> GoodEntry(cfg, sid, a.m[sid]) && ShortOnlyAtCap(cfg, sid, a.m[sid], LoadOf(load))
  }

  lemma LoadStep(cfg: Config, a: Dict<seq<string>>, load: map<string, int>,
                 sid: string, chosen: seq<string>, after: map<string, int>)
    requires LoadMatches(cfg, a, load) && sid !in a.m && NoDup(chosen)
    requires after.Keys == load.Keys
    requires forall e :: e in load ==> after[e] == load[e] + Count(e, chosen)
    requires forall e :: e in chosen ==> e in load && load[e] < cfg.policies.maxShiftsPerWeek
    ensures LoadMatches(cfg, Put(a, sid, chosen), after)
  {
    var cap := cfg.policies.maxShiftsPerWeek;
    forall e ensures Occurrences(Schedule(Put(a, sid, chosen)), e) == Occurrences(Schedule(a), e) + Count(e, chosen) {
      OccurrencesPutNew(a, sid, chosen, e);
    }
    forall e | e !in load ensures Count(e, chosen) == 0 {
      CountPositive(e, chosen);
    }
    forall e | e in load ensures after[e] <= Max(0, cap) {
      CountNoDup(e, chosen);
      CountPositive(e, chosen);
    }
  }

  /** The entry chosen for `sid` is good, and short only where the updated load has reached the cap. */
  lemma NewEntry(cfg: Config, sid: string, cands: seq<string>, chosen: seq<string>,
                 load: map<string, int>, after: map<string, int>)
    requires sid in cfg.shifts.m
    requires forall e :: e in cands <==> e in EligibleEmployees(cfg, sid)
    requires forall e :: e in chosen ==> e in cands
    requires NoDup(chosen) && |chosen| <= Max(0, cfg.shifts.m[sid].requiredHeadcount)
    requires |chosen| < cfg.shifts.m[sid].requiredHeadcount ==>
               forall e :: e in cands && e !in chosen ==> e in load && load[e] >= cfg.policies.maxShiftsPerWeek
    requires after.Keys == load.Keys && forall e :: e in load ==> load[e] <= after[e]
    ensures GoodEntry(cfg, sid, chosen) && ShortOnlyAtCap(cfg, sid, chosen, LoadOf(after))
  {
  }

  lemma EntriesStep(cfg: Config, a: Dict<seq<string>>, load: map<string, int>,
                    sid: string, chosen: seq<string>, after: map<string, int>)
    requires EntriesGood(cfg, a, load)
    requires sid in cfg.shifts.m && GoodEntry(cfg, sid, chosen) && ShortOnlyAtCap(cfg, sid, chosen, LoadOf(after))
    requires after.Keys == load.Keys && forall e :: e in load ==> load[e] <= after[e]
    ensures EntriesGood(cfg, Put(a, sid, chosen), after)
  {
    var b := Put(a, sid, chosen);
    forall s2 | s2 in b.m ensures GoodEntry(cfg, s2, b.m[s2]) && ShortOnlyAtCap(cfg, s2, b.m[s2], LoadOf(after)) {
      if s2 != sid {
        ShortOnlyAtCapGrows(cfg, s2, a.m[s2], load, after);
      }
    }
  }

  /** One round of the outer loop of `_greedy_construct`: fill the entry of `sid`. */
  method GreedyStep(cfg: Config, order: seq<string>, k: nat, a: Dict<seq<string>>, load: map<string, int>, g: Rng)
    returns (a': Dict<seq<string>>, load': map<string, int>, g': Rng)
    requires k < |order| && NoDup(order) && order[k] in cfg.shifts.m && a.keys == order[..k]
    requires LoadMatches(cfg, a, load) && EntriesGood(cfg, a, load)
    ensures a'.keys == order[..k + 1]
    ensures LoadMatches(cfg, a', load') && EntriesGood(cfg, a', load')
  {
    var sid := order[k];
    InPrefix(order, k + 1, sid);
    PrefixSnoc(order, k);
    var picked := Candidates(cfg, sid, load, g);
    var cands := picked.0;
    g' := picked.1;
    var chosen, after := ChooseStaff(cands, load, cfg.policies.maxShiftsPerWeek, cfg.shifts.m[sid].requiredHeadcount);
    NewEntry(cfg, sid, cands, chosen, load, after);
    LoadStep(cfg, a, load, sid, chosen, after);
    EntriesStep(cfg, a, load, sid, chosen, after);
    a' := Put(a, sid, chosen);
    load' := after;
  }

  /** `_greedy_construct`: the entries are filled in hardness order. */
  method GreedyConstruct(cfg: Config, g: Rng) returns (s: Schedule, g': Rng)
    ensures s.assignments.keys == ShiftOrder(cfg)
    ensures forall sid :: sid in s.assignments.m ==> GoodEntry(cfg, sid, s.assignments.m[sid])
    ensures forall e :: Occurrences(s, e) <= Max(0, cfg.policies.maxShiftsPerWeek)
    ensures forall sid :: sid in s.assignments.m ==>
              sid in cfg.shifts.m && ShortOnlyAtCap(cfg, sid, s.assignments.m[sid], (e: string) => Occurrences(s, e))
  {
    ShiftOrderLists(cfg);
    s, g' := GreedyFill(cfg, ShiftOrder(cfg), g);
  }

  /** The outer loop of `_greedy_construct` over the shifts in the given order. */
  method GreedyFill(cfg: Config, order: seq<string>, g: Rng) returns (s: Schedule, g': Rng)
    requires NoDup(order) && forall sid :: sid in order ==> sid in cfg.shifts.m
    ensures s.assignments.keys == order
    ensures forall sid :: sid in s.assignments.m ==> GoodEntry(cfg, sid, s.assignments.m[sid])
    ensures forall e :: Occurrences(s, e) <= Max(0, cfg.policies.maxShiftsPerWeek)
    ensures forall sid :: sid in s.assignments.m ==>
              sid in cfg.shifts.m && ShortOnlyAtCap(cfg, sid, s.assignments.m[sid], (e: string) => Occurrences(s, e))
  {
    var load: map<string, int> := map e | e in cfg.employees.m :: 0;
    var a: Dict<seq<string>> := Empty();
    g' := g;
    var k := 0;
    while k < |order|
      invariant 0 <= k <= |order|
      invariant a.keys == order[..k]
      invariant LoadMatches(cfg, a, load)
      invariant EntriesGood(cfg, a, load)
    {
      a, load, g' := GreedyStep(cfg, order, k, a, load, g');
      k := k + 1;
    }
    assert order[..k] == order;
    s := Schedule(a);
    GreedyResult(cfg, a, load);
  }

  lemma GreedyResult(cfg: Config, a: Dict<seq<string>>, load: map<string, int>)
    requires LoadMatches(cfg, a, load) && EntriesGood(cfg, a, load)
    ensures forall sid :: sid in a.m ==> GoodEntry(cfg, sid, a.m[sid])
    ensures forall e :: Occurrences(Schedule(a), e) <= Max(0, cfg.policies.maxShiftsPerWeek)
    ensures forall sid :: sid in a.m ==>
              sid in cfg.shifts.m && ShortOnlyAtCap(cfg, sid, a.m[sid], (e: string) => Occurrences(Schedule(a), e))
  {
    forall sid | sid in a.m
      ensures ShortOnlyAtCap(cfg, sid, a.m[sid], (e: string) => Occurrences(Schedule(a), e))
    {
      assert ShortOnlyAtCap(cfg, sid, a.m[sid], LoadOf(load));
    }
  }

  // ---- what the greedy construction guarantees about validation ----

  /** Entries holding eligible employees only raise no availability violation. */
  lemma EligibleEntriesAvailable(cfg: Config, s: Schedule)
    requires forall sid :: sid in s.assignments.m ==> GoodEntry(cfg, sid, s.assignments.m[sid])
    ensures AvailabilityViolations(cfg, s) == []
  {
    var items := Items(s.assignments);
    forall i | 0 <= i < |items| ensures AvailabilityStep(cfg)(items[i]) == [] {
      var sid := s.assignments.keys[i];
      var eids := s.assignments.m[sid];
      var shift := cfg.shifts.m[sid];
      var f := AssigneeAvailabilityStep(cfg, sid, shift);
      forall j | 0 <= j < |eids| ensures f(eids[j]) == [] {
        assert eids[j] in EligibleEmployees(cfg, sid);
      }
      FlatMapEmpty(eids, f);
    }
    FlatMapEmpty(items, AvailabilityStep(cfg));
  }

  /** Entries holding eligible employees only raise no skill violation. */
  lemma EligibleEntriesSkilled(cfg: Config, s: Schedule)
    requires forall sid :: sid in s.assignments.m ==> GoodEntry(cfg, sid, s.assignments.m[sid])
    ensures SkillsViolations(cfg, s) == []
  {
    var items := Items(s.assignments);
    forall i | 0 <= i < |items| ensures SkillsStep(cfg)(items[i]) == [] {
      var sid := s.assignments.keys[i];
      var eids := s.assignments.m[sid];
      var req := cfg.shifts.m[sid].requiredSkills;
      var f := AssigneeSkillsStep(cfg, sid, req);
      forall j | 0 <= j < |eids| ensures f(eids[j]) == [] {
        assert eids[j] in EligibleEmployees(cfg, sid);
      }
      FlatMapEmpty(eids, f);
    }
    FlatMapEmpty(items, SkillsStep(cfg));
  }

  /** Loads within the cap raise no weekly-cap violation. */
  lemma LoadsWithinCap(cfg: Config, s: Schedule)
    requires forall e :: Occurrences(s, e) <= Max(0, cfg.policies.maxShiftsPerWeek)
    ensures MaxShiftsViolations(cfg, s) == []
  {
    var cap := cfg.policies.maxShiftsPerWeek;
    var inv := EmployeeShifts(s);
    var items := Items(inv);
    forall i | 0 <= i < |items| ensures MaxShiftsStep(cap)(items[i]) == [] {
      var eid := inv.keys[i];
      EmployeeShiftsKeys(s, eid);
      EmployeeShiftsLength(s, eid);
    }
    FlatMapEmpty(items, MaxShiftsStep(cap));
  }

  /**
   A greedy schedule never breaks availability, skills or the weekly cap;
   only coverage, rest and consecutive-shift violations remain possible.
   */
  lemma GreedyChecks(cfg: Config, s: Schedule)
    requires forall sid :: sid in s.assignments.m ==> GoodEntry(cfg, sid, s.assignments.m[sid])
    requires forall e :: Occurrences(s, e) <= Max(0, cfg.policies.maxShiftsPerWeek)
    ensures Run(AvailabilityRule, cfg, s) == [] && Run(SkillsRule, cfg, s) == [] && Run(MaxShiftsRule, cfg, s) == []
  {
    EligibleEntriesAvailable(cfg, s);
    EligibleEntriesSkilled(cfg, s);
    LoadsWithinCap(cfg, s);
  }

  // ---- swap hill-climb ----

  /** Same shift ids in the same order, and every list keeps its length. */
  ghost predicate SameShape(a: Schedule, b: Schedule)
  {
    && a.assignments.keys == b.assignments.keys
    && forall k :: k in b.assignments.m ==> |a.assignments.m[k]| == |b.assignments.m[k]|
  }

  /** The proposal of `_try_swap_improvements`: on a copy, `e1` becomes `e2` under `s1` and `e2` becomes `e1` under `s2`. */
  function ProposeSwap(s: Schedule, s1: string, s2: string, e1: string, e2: string): (r: Schedule)
    requires s1 in s.assignments.m && s2 in s.assignments.m && s1 != s2
    ensures SameShape(r, s)
    ensures forall k :: k in s.assignments.m && k != s1 && k != s2 ==> r.assignments.m[k] == s.assignments.m[k]
    ensures r.assignments.m[s1] == ReplaceAll(s.assignments.m[s1], e1, e2)
    ensures r.assignments.m[s2] == ReplaceAll(s.assignments.m[s2], e2, e1)
  {
    var c := Copy(s).assignments;
    Schedule(Put(Put(c, s1, ReplaceAll(c.m[s1], e1, e2)), s2, ReplaceAll(c.m[s2], e2, e1)))
  }

  /** Replacing `x` by `y` keeps every other entry, puts `y` wherever `x` was, and removes `x`. */
  lemma ReplaceAllMoves(a: seq<string>, x: string, y: string)
    ensures x in a ==> y in ReplaceAll(a, x, y)
    ensures x != y ==> x !in ReplaceAll(a, x, y)
    ensures forall e :: e != x && e != y ==> (e in ReplaceAll(a, x, y) <==> e in a)
  {
    var r := ReplaceAll(a, x, y);
    if x in a {
      var i := IndexOf(a, x);
      assert r[i] == y;
    }
    forall e | e != x && e != y && e in a ensures e in r {
      var i := IndexOf(a, e);
      assert r[i] == e;
    }
  }

  /** Replacing back restores a list that did not hold the replacement. */
  lemma ReplaceAllUndo(a: seq<string>, x: string, y: string)
    requires y !in a
    ensures ReplaceAll(ReplaceAll(a, x, y), y, x) == a
  {
    var r := ReplaceAll(ReplaceAll(a, x, y), y, x);
    forall i | 0 <= i < |a| ensures r[i] == a[i] {
      assert a[i] != y;
    }
  }

  /** The swap moves `e1` to `e2`'s shift and `e2` to `e1`'s, and touches no one else on those two shifts. */
  lemma SwapMoves(s: Schedule, s1: string, s2: string, e1: string, e2: string)
    requires s1 in s.assignments.m && s2 in s.assignments.m && s1 != s2 && e1 != e2
    requires e1 in s.assignments.m[s1] && e2 in s.assignments.m[s2]
    ensures e2 in ProposeSwap(s, s1, s2, e1, e2).assignments.m[s1]
    ensures e1 in ProposeSwap(s, s1, s2, e1, e2).assignments.m[s2]
    ensures e1 !in ProposeSwap(s, s1, s2, e1, e2).assignments.m[s1]
    ensures e2 !in ProposeSwap(s, s1, s2, e1, e2).assignments.m[s2]
    ensures forall e :: e != e1 && e != e2 ==>
              && (e in ProposeSwap(s, s1, s2, e1, e2).assignments.m[s1] <==> e in s.assignments.m[s1])
              && (e in ProposeSwap(s, s1, s2, e1, e2).assignments.m[s2] <==> e in s.assignments.m[s2])
  {
    ReplaceAllMoves(s.assignments.m[s1], e1, e2);
    ReplaceAllMoves(s.assignments.m[s2], e2, e1);
  }

  /** Swapping back undoes a swap whose employees were not already on each other's shift. */
  lemma SwapUndo(s: Schedule, s1: string, s2: string, e1: string, e2: string)
    requires s1 in s.assignments.m && s2 in s.assignments.m && s1 != s2
    requires e2 !in s.assignments.m[s1] && e1 !in s.assignments.m[s2]
    ensures ProposeSwap(ProposeSwap(s, s1, s2, e1, e2), s1, s2, e2, e1) == s
  {
    var a := s.assignments;
    var t := ProposeSwap(s, s1, s2, e1, e2);
    var u := ProposeSwap(t, s1, s2, e2, e1);
    ReplaceAllUndo(a.m[s1], e1, e2);
    ReplaceAllUndo(a.m[s2], e2, e1);
    assert u.assignments.keys == a.keys;
    assert u.assignments.m.Keys == a.m.Keys;
    forall k | k in a.m ensures u.assignments.m[k] == a.m[k] {
      if k != s1 && k != s2 {
        assert t.assignments.m[k] == a.m[k];
      }
    }
    assert u.assignments.m == a.m;
  }

  datatype SwapOutcome = SwapOutcome(best: Schedule, steps: int)

  function Score(cfg: Config, s: Schedule, root: real -> real): real
  {
    ScoreSchedule(cfg, s, root).total
  }

  /** The objective `_try_swap_improvements` climbs. */
  function ScoreOf(cfg: Config, root: real -> real): Schedule -> real
  {
    x => Score(cfg, x, root)
  }

  /** The acceptance test of a candidate: the default suite finds nothing. */
  function IsValid(cfg: Config): Schedule -> bool
  {
    x => Validate(Default(), cfg, x).ok
  }

  /**
   One step of `_try_swap_improvements` on a non-empty list of shift ids: draw
   two shifts and one assignee of each, and move to the swapped schedule when
   it passes the acceptance test and scores no lower than `best`. Every early
   exit keeps `best` and the draws made so far.
   */
  function ClimbStep(ids: seq<string>, best: Schedule, g: Rng, score: Schedule -> real, valid: Schedule -> bool): (Schedule, Rng)
    requires |ids| > 0
  {
    var c1 := Pick(g, ids);
    var c2 := Pick(c1.1, ids);
    var s1, s2 := c1.0, c2.0;
    if s1 == s2 then (best, c2.1)
    else
      var a1, a2 := AssignedEmployees(best, s1), AssignedEmployees(best, s2);
      if |a1| == 0 || |a2| == 0 then (best, c2.1)
      else
        var p1 := Pick(c2.1, a1);
        var p2 := Pick(p1.1, a2);
        var e1, e2 := p1.0, p2.0;
        if e1 == e2 then (best, p2.1)
        else
          var cand := ProposeSwap(best, s1, s2, e1, e2);
          if valid(cand) && score(cand) >= score(best) then (cand, p2.1) else (best, p2.1)
  }

  /** `k` steps of the climb from `best`; with no shift ids there is nothing to draw from. */
  function ClimbFrom(ids: seq<string>, best: Schedule, g: Rng, k: nat, score: Schedule -> real, valid: Schedule -> bool): (Schedule, Rng)
    decreases k
  {
    if k == 0 || |ids| == 0 then (best, g)
    else
      var next := ClimbStep(ids, best, g, score, valid);
      ClimbFrom(ids, next.0, next.1, k - 1, score, valid)
  }

  /**
   The loop of `_try_swap_improvements` for a given objective and acceptance
   test. Choosing from the configured shift ids raises `IndexError` when
   there are none.
   */
  method Climb(cfg: Config, s: Schedule, g: Rng, maxSteps: int, score: Schedule -> real, valid: Schedule -> bool)
    returns (r: Result<SwapOutcome, Exception>, g': Rng)
    ensures r.Failure? <==> maxSteps > 0 && |cfg.shifts.keys| == 0
    ensures r.Success? ==> r.value.steps == Max(0, maxSteps)
    ensures r.Success? ==> r.value.best == s || valid(r.value.best)
    ensures r.Success? ==> score(r.value.best) >= score(s)
    ensures r.Success? ==> SameShape(r.value.best, s)
    ensures r.Success? ==> (r.value.best, g') == ClimbFrom(cfg.shifts.keys, s, g, Max(0, maxSteps), score, valid)
  {
    var best := Copy(s);
    var bestScore := score(best);
    var steps := 0;
    var shiftIds := cfg.shifts.keys;
    g' := g;
    while steps < maxSteps
      invariant 0 <= steps <= Max(0, maxSteps)
      invariant steps > 0 ==> |shiftIds| > 0
      invariant bestScore == score(best) >= score(s)
      invariant best == s || valid(best)
      invariant SameShape(best, s)
      invariant ClimbFrom(shiftIds, best, g', Max(0, maxSteps) - steps, score, valid)
                == ClimbFrom(shiftIds, s, g, Max(0, maxSteps), score, valid)
    {
      steps := steps + 1;
      var c1 := Choice(g', shiftIds);
      if c1.Failure? {
        r := Failure(c1.error);
        return;
      }
      // The second draw cannot fail once the first has not.
      var c2 := Pick(c1.value.1, shiftIds);
      g' := c2.1;
      var s1, s2 := c1.value.0, c2.0;
      if s1 == s2 {
        continue;
      }
      var a1 := AssignedEmployees(best, s1);
      var a2 := AssignedEmployees(best, s2);
      if |a1| == 0 || |a2| == 0 {
        continue;
      }
      var p1 := Pick(g', a1);
      var p2 := Pick(p1.1, a2);
      g' := p2.1;
      var e1, e2 := p1.0, p2.0;
      if e1 == e2 {
        continue;
      }
      var cand := ProposeSwap(best, s1, s2, e1, e2);
      if !valid(cand) {
        continue;
      }
      var candScore := score(cand);
      if candScore >= bestScore {
        best := cand;
        bestScore := candScore;
      }
    }
    r := Success(SwapOutcome(best, steps));
  }

  /**
   `_try_swap_improvements`: every outcome keeps the input or a candidate
   that passed the whole suite, and scores no lower than the input.
   */
  method TrySwapImprovements(cfg: Config, s: Schedule, g: Rng, maxSteps: int, root: real -> real)
    returns (r: Result<SwapOutcome, Exception>, g': Rng)
    ensures r.Failure? <==> maxSteps > 0 && |cfg.shifts.keys| == 0
    ensures r.Success? ==> r.value.steps == Max(0, maxSteps)
    ensures r.Success? ==> r.value.best == s || Validate(Default(), cfg, r.value.best).ok
    ensures r.Success? ==> Score(cfg, r.value.best, root) >= Score(cfg, s, root)
    ensures r.Success? ==> SameShape(r.value.best, s)
    ensures r.Success? ==> (r.value.best, g') == ClimbFrom(cfg.shifts.keys, s, g, Max(0, maxSteps), ScoreOf(cfg, root), IsValid(cfg))
  {
    r, g' := Climb(cfg, s, g, maxSteps, ScoreOf(cfg, root), IsValid(cfg));
  }

  // ---- the iteration loop of `solve` ----

  /** The notes of `solve`; the second carries the number of violations its message quotes. */
  datatype Note = ValidNote | NotValidNote(violations: nat)

  datatype Progress = Progress(schedule: Schedule, iterations: int, notes: seq<Note>)

  /** `max_steps` of the swap search in each round of `solve`. */
  const RoundSteps: nat := 20

  /** One round of `solve`: twenty climb steps, and the result replaces the schedule when its assignments differ. */
  function Round(ids: seq<string>, s: Schedule, g: Rng, score: Schedule -> real, valid: Schedule -> bool): (Schedule, Rng)
  {
    var climbed := ClimbFrom(ids, s, g, RoundSteps, score, valid);
    (if climbed.0.assignments != s.assignments then climbed.0 else s, climbed.1)
  }

  /** `next` is where one round from `(s, g)` leads; guarded like `AfterRounds` below. */
  ghost predicate RoundLeadsTo(ids: seq<string>, s: Schedule, g: Rng, score: Schedule -> real, valid: Schedule -> bool, next: (Schedule, Rng))
  {
    forall s0: Schedule {:trigger Round(ids, s0, g, score, valid)} :: s0 == s ==> Round(ids, s0, g, score, valid) == next
  }

  /** One round of the loop of `solve`, as `Round` states it; only an empty list of shift ids makes it fail. */
  method RunRound(cfg: Config, s: Schedule, g: Rng, score: Schedule -> real, valid: Schedule -> bool)
    returns (r: Result<(Schedule, Rng), Exception>)
    ensures r.Failure? <==> |cfg.shifts.keys| == 0
    ensures r.Success? ==> RoundLeadsTo(cfg.shifts.keys, s, g, score, valid, r.value)
    ensures r.Success? ==> r.value.0 == s || valid(r.value.0)
    ensures r.Success? ==> score(r.value.0) >= score(s)
    ensures r.Success? ==> SameShape(r.value.0, s)
  {
    var res, g' := Climb(cfg, s, g, RoundSteps, score, valid);
    if res.Failure? {
      return Failure(res.error);
    }
    var improved := res.value.best;
    var next := s;
    if improved.assignments != s.assignments {
      next := improved;
    }
    r := Success((next, g'));
    assert Round(cfg.shifts.keys, s, g, score, valid) == r.value;
  }

  /** The schedule and generator after `n` rounds from `start`. */
  function Rounds(ids: seq<string>, start: Schedule, g: Rng, n: nat, score: Schedule -> real, valid: Schedule -> bool): (Schedule, Rng)
  {
    if n == 0 then (start, g)
    else
      var before := Rounds(ids, start, g, n - 1, score, valid);
      Round(ids, before.0, before.1, score, valid)
  }

  /**
   `(s, rng)` is where `n` rounds from `start` lead. The definition is guarded
   by the `Rounds` term itself, so it is only unfolded where a proof names it.
   */
  ghost predicate AfterRounds(ids: seq<string>, start: Schedule, g: Rng, score: Schedule -> real, valid: Schedule -> bool,
                              n: nat, s: Schedule, rng: Rng)
  {
    forall k: nat {:trigger Rounds(ids, start, g, k, score, valid)} :: k == n ==> Rounds(ids, start, g, k, score, valid) == (s, rng)
  }

  /** The guarded predicate says exactly that `n` rounds from `start` end in `(s, rng)`. */
  lemma AfterRoundsIff(ids: seq<string>, start: Schedule, g: Rng, score: Schedule -> real, valid: Schedule -> bool,
                       n: nat, s: Schedule, rng: Rng)
    ensures AfterRounds(ids, start, g, score, valid, n, s, rng) <==> Rounds(ids, start, g, n, score, valid) == (s, rng)
  {
    if Rounds(ids, start, g, n, score, valid) == (s, rng) {
      forall k: nat | k == n ensures Rounds(ids, start, g, k, score, valid) == (s, rng) {
      }
    }
  }

  /** Stepping `AfterRounds` through one more round. */
  lemma AfterOneMore(ids: seq<string>, start: Schedule, g: Rng, score: Schedule -> real, valid: Schedule -> bool,
                     n: nat, s: Schedule, rng: Rng, next: (Schedule, Rng))
    requires AfterRounds(ids, start, g, score, valid, n, s, rng)
    requires RoundLeadsTo(ids, s, rng, score, valid, next)
    ensures AfterRounds(ids, start, g, score, valid, n + 1, next.0, next.1)
  {
    assert Rounds(ids, start, g, n, score, valid) == (s, rng);
    assert Round(ids, s, rng, score, valid) == next;
    assert Rounds(ids, start, g, n + 1, score, valid) == next;
  }

  /**
   The loop of `solve`: up to `max(1, max_iterations)` rounds of 20 swap
   steps while `inTime` says the budget is not spent, and a note at every
   50th round that finds the schedule valid.
   */
  method Iterate(cfg: Config, start: Schedule, g: Rng, inTime: nat -> bool,
                 score: Schedule -> real, valid: Schedule -> bool)
    returns (r: Result<Progress, Exception>)
    ensures r.Failure? <==> |cfg.shifts.keys| == 0 && inTime(0)
    ensures r.Success? ==> 0 <= r.value.iterations <= Max(1, cfg.solver.maxIterations)
    ensures r.Success? ==> forall i :: 0 <= i < r.value.iterations ==> inTime(i)
    ensures r.Success? ==> r.value.iterations == Max(1, cfg.solver.maxIterations) || !inTime(r.value.iterations)
    ensures r.Success? ==> |r.value.notes| <= r.value.iterations / 50
    ensures r.Success? ==> forall i :: 0 <= i < |r.value.notes| ==> r.value.notes[i] == ValidNote
    ensures r.Success? && valid(start) ==> |r.value.notes| == r.value.iterations / 50
    ensures r.Success? && |r.value.notes| > 0 ==> valid(r.value.schedule)
    ensures r.Success? ==> r.value.schedule == start || valid(r.value.schedule)
    ensures r.Success? ==> score(r.value.schedule) >= score(start)
    ensures r.Success? ==> SameShape(r.value.schedule, start)
    ensures r.Success? ==> exists rng :: AfterRounds(cfg.shifts.keys, start, g, score, valid, r.value.iterations, r.value.schedule, rng)
  {
    var s := start;
    var rng := g;
    var iterations: nat := 0;
    var maxIter := Max(1, cfg.solver.maxIterations);
    var notes: seq<Note> := [];
    while inTime(iterations) && iterations < maxIter
      invariant iterations <= maxIter
      invariant forall i :: 0 <= i < iterations ==> inTime(i)
      invariant iterations > 0 ==> |cfg.shifts.keys| > 0
      invariant s == start || valid(s)
      invariant score(s) >= score(start)
      invariant SameShape(s, start)
      invariant |notes| <= iterations / 50
      invariant forall i :: 0 <= i < |notes| ==> notes[i] == ValidNote
      invariant valid(start) ==> valid(s) && |notes| == iterations / 50
      invariant |notes| > 0 ==> valid(s)
      invariant AfterRounds(cfg.shifts.keys, start, g, score, valid, iterations, s, rng)
    {
      iterations := iterations + 1;
      var res := RunRound(cfg, s, rng, score, valid);
      if res.Failure? {
        r := Failure(res.error);
        return;
      }
      AfterOneMore(cfg.shifts.keys, start, g, score, valid, iterations - 1, s, rng, res.value);
      s, rng := res.value.0, res.value.1;
      if iterations % 50 == 0 {
        if valid(s) {
          notes := notes + [ValidNote];
        }
      }
    }
    r := Success(Progress(s, iterations, notes));
  }

  datatype SolveResult = SolveResult(schedule: Schedule, ok: bool, iterations: int, notes: seq<Note>)

  /** The notes end with `NotValidNote` exactly when the schedule is invalid; all earlier notes are `ValidNote`. */
  ghost predicate NotesReport(cfg: Config, r: SolveResult)
  {
    var n := |r.notes|;
    var report := Validate(Default(), cfg, r.schedule);
    && (r.ok ==> forall i :: 0 <= i < n ==> r.notes[i] == ValidNote)
    && (!r.ok ==> n > 0 && r.notes[n - 1] == NotValidNote(|report.violations|)
                  && forall i :: 0 <= i < n - 1 ==> r.notes[i] == ValidNote)
  }

  /** Everything `solve` does after the greedy construction, ending with the final validation. */
  method Improve(cfg: Config, start: Schedule, g: Rng, root: real -> real, inTime: nat -> bool)
    returns (r: Result<SolveResult, Exception>)
    ensures r.Failure? <==> |cfg.shifts.keys| == 0 && inTime(0)
    ensures r.Success? ==> 0 <= r.value.iterations <= Max(1, cfg.solver.maxIterations)
    ensures r.Success? ==> r.value.iterations == Max(1, cfg.solver.maxIterations) || !inTime(r.value.iterations)
    ensures r.Success? ==> r.value.ok == Validate(Default(), cfg, r.value.schedule).ok
    ensures r.Success? ==> NotesReport(cfg, r.value)
    ensures r.Success? ==> |r.value.notes| <= r.value.iterations / 50 + 1
    ensures r.Success? && Validate(Default(), cfg, start).ok ==> r.value.ok && |r.value.notes| == r.value.iterations / 50
    ensures r.Success? ==> r.value.schedule == start || r.value.ok
    ensures r.Success? ==> Score(cfg, r.value.schedule, root) >= Score(cfg, start, root)
    ensures r.Success? ==> SameShape(r.value.schedule, start)
    ensures r.Success? ==>
              r.value.schedule == Rounds(cfg.shifts.keys, start, g, r.value.iterations, ScoreOf(cfg, root), IsValid(cfg)).0
  {
    var p := Iterate(cfg, start, g, inTime, ScoreOf(cfg, root), IsValid(cfg));
    if p.Failure? {
      return Failure(p.error);
    }
    ghost var rng :| AfterRounds(cfg.shifts.keys, start, g, ScoreOf(cfg, root), IsValid(cfg), p.value.iterations, p.value.schedule, rng);
    AfterRoundsIff(cfg.shifts.keys, start, g, ScoreOf(cfg, root), IsValid(cfg), p.value.iterations, p.value.schedule, rng);
    var s := p.value.schedule;
    var notes := p.value.notes;
    var report := Validate(Default(), cfg, s);
    if !report.ok {
      notes := notes + [NotValidNote(|report.violations|)];
    }
    r := Success(SolveResult(s, report.ok, p.value.iterations, notes));
  }

  /**
   `solve`: the greedy schedule, improved. The returned schedule is the
   greedy one or a fully valid one, so it never breaks availability,
   skills or the weekly cap.
   */
  method Solve(cfg: Config, g: Rng, root: real -> real, inTime: nat -> bool)
    returns (r: Result<SolveResult, Exception>)
    ensures r.Failure? <==> |cfg.shifts.keys| == 0 && inTime(0)
    ensures r.Success? ==> 0 <= r.value.iterations <= Max(1, cfg.solver.maxIterations)
    ensures r.Success? ==> r.value.ok == Validate(Default(), cfg, r.value.schedule).ok
    ensures r.Success? ==> NotesReport(cfg, r.value)
    ensures r.Success? ==> r.value.schedule.assignments.keys == ShiftOrder(cfg)
    ensures r.Success? ==>
              && Run(AvailabilityRule, cfg, r.value.schedule) == []
              && Run(SkillsRule, cfg, r.value.schedule) == []
              && Run(MaxShiftsRule, cfg, r.value.schedule) == []
  {
    var greedy, g' := GreedyConstruct(cfg, g);
    GreedyChecks(cfg, greedy);
    r := Improve(cfg, greedy, g', root, inTime);
    if r.Success? {
      ValidateOkIff(cfg, r.value.schedule);
    }
  }
}

=== FILE: stable_sort.dfy ===
/**
 Stable sorting by an integer key, the behaviour of Python's `list.sort(key=...)`
 and `sorted(..., key=...)`. A stable sort is determined by three facts — the
 result is ordered by key, it is a permutation of the input, and elements with
 equal keys keep their input order — and the lemmas below prove all three of
 the insertion sort used as its model, so the model's output is Python's.
 `sorted(..., reverse=True)` also keeps equal keys in input order, so it is
 the stable sort by the negated key.
 */
module StableSort {

  ghost predicate SortedBy<T>(s: seq<T>, key: T -> int)
  {
    forall i, j :: 0 <= i < j < |s| ==> key(s[i]) <= key(s[j])
  }

  /** Inserts `x` after every leading element whose key is not larger than its own. */
  function Insert<T>(x: T, s: seq<T>, key: T -> int): (r: seq<T>)
    ensures |r| == |s| + 1
  {
    if |s| == 0 then [x]
    else if key(x) < key(s[0]) then [x] + s
    else [s[0]] + Insert(x, s[1..], key)
  }

  lemma {:induction false} InsertPermutes<T>(x: T, s: seq<T>, key: T -> int)
    ensures multiset(Insert(x, s, key)) == multiset(s) + multiset{x}
  {
    if |s| > 0 && key(s[0]) <= key(x) {
      InsertPermutes(x, s[1..], key);
      assert s == [s[0]] + s[1..];
    }
  }

  /** Prepending an element no larger than any other keeps a sequence sorted. */
  lemma SortedCons<T>(a: T, t: seq<T>, key: T -> int)
    requires SortedBy(t, key)
    requires forall i :: 0 <= i < |t| ==> key(a) <= key(t[i])
    ensures SortedBy([a] + t, key)
  {
    var r := [a] + t;
    forall i, j | 0 <= i < j < |r|
      ensures key(r[i]) <= key(r[j])
    {
      assert r[j] == t[j - 1];
      if i > 0 {
        assert r[i] == t[i - 1];
      }
    }
  }

  lemma {:induction false} InsertSorted<T>(x: T, s: seq<T>, key: T -> int)
    requires SortedBy(s, key)
    ensures SortedBy(Insert(x, s, key), key)
  {
    if |s| == 0 {
    } else if key(x) < key(s[0]) {
      forall i | 0 <= i < |s|
        ensures key(x) <= key(s[i])
      {
        assert key(s[0]) <= key(s[i]);
      }
      SortedCons(x, s, key);
    } else {
      var tail := s[1..];
      assert SortedBy(tail, key);
      InsertSorted(x, tail, key);
      InsertAbove(x, s, key);
      SortedCons(s[0], Insert(x, tail, key), key);
    }
  }

  /** When `x` goes behind the head, every element of the rest of the insertion is at least the head. */
  lemma InsertAbove<T>(x: T, s: seq<T>, key: T -> int)
    requires SortedBy(s, key) && |s| > 0 && key(s[0]) <= key(x)
    ensures forall i :: 0 <= i < |s| ==> key(s[0]) <= key(Insert(x, s[1..], key)[i])
  {
    var tail := s[1..];
    var ins := Insert(x, tail, key);
    InsertPermutes(x, tail, key);
    forall i | 0 <= i < |s|
      ensures key(s[0]) <= key(ins[i])
    {
      var y := ins[i];
      assert y in multiset(ins);
      if y != x {
        assert y in multiset(tail);
        var m :| 0 <= m < |tail| && tail[m] == y;
        assert key(s[0]) <= key(s[m + 1]);
      }
    }
  }

  /** Insertion sort of `s`, consuming the input from the front. */
  function SortBy<T>(s: seq<T>, key: T -> int): (r: seq<T>)
    ensures |r| == |s|
    ensures multiset(r) == multiset(s)
    ensures SortedBy(r, key)
  {
    if |s| == 0 then []
    else
      var init, last := s[..|s| - 1], s[|s| - 1];
      var sorted := SortBy(init, key);
      InsertPermutes(last, sorted, key);
      InsertSorted(last, sorted, key);
      assert s == init + [last];
      Insert(last, sorted, key)
  }

  /** The elements of `s` whose key is `k`, in order. */
  function WithKey<T>(s: seq<T>, key: T -> int, k: int): seq<T>
  {
    if |s| == 0 then []
    else WithKey(s[..|s| - 1], key, k) + (if key(s[|s| - 1]) == k then [s[|s| - 1]] else [])
  }

  lemma {:induction false} WithKeyAppend<T>(a: seq<T>, b: seq<T>, key: T -> int, k: int)
    ensures WithKey(a + b, key, k) == WithKey(a, key, k) + WithKey(b, key, k)
    decreases |b|
  {
    if |b| == 0 {
      assert a + b == a;
    } else {
      assert (a + b)[..|a + b| - 1] == a + b[..|b| - 1];
      WithKeyAppend(a, b[..|b| - 1], key, k);
    }
  }

  lemma {:induction false} WithKeyAbsent<T>(s: seq<T>, key: T -> int, k: int)
    requires forall i :: 0 <= i < |s| ==> key(s[i]) != k
    ensures WithKey(s, key, k) == []
  {
    if |s| > 0 {
      WithKeyAbsent(s[..|s| - 1], key, k);
    }
  }

  lemma WithKeySingle<T>(x: T, key: T -> int, k: int)
    ensures WithKey([x], key, k) == if key(x) == k then [x] else []
  {
    assert [x][..0] == [];
  }

  lemma {:induction false} WithKeyInsert<T>(x: T, s: seq<T>, key: T -> int, k: int)
    requires SortedBy(s, key)
    ensures WithKey(Insert(x, s, key), key, k)
            == WithKey(s, key, k) + (if key(x) == k then [x] else [])
    decreases |s|
  {
    if |s| == 0 {
      WithKeySingle(x, key, k);
    } else if key(x) < key(s[0]) {
      WithKeyInsertFront(x, s, key, k);
    } else {
      var tail := s[1..];
      assert SortedBy(tail, key);
      WithKeyInsert(x, tail, key, k);
      WithKeyInsertBehind(x, s, key, k);
    }
  }

  lemma WithKeyInsertFront<T>(x: T, s: seq<T>, key: T -> int, k: int)
    requires SortedBy(s, key) && |s| > 0 && key(x) < key(s[0])
    ensures WithKey(Insert(x, s, key), key, k)
            == WithKey(s, key, k) + (if key(x) == k then [x] else [])
  {
    var e := if key(x) == k then [x] else [];
    assert Insert(x, s, key) == [x] + s;
    WithKeyAppend([x], s, key, k);
    WithKeySingle(x, key, k);
    if key(x) == k {
      WithKeyAboveAbsent(s, key, k);
      assert WithKey([x] + s, key, k) == [x];
    } else {
      assert WithKey([x] + s, key, k) == WithKey(s, key, k);
    }
  }

  lemma WithKeyAboveAbsent<T>(s: seq<T>, key: T -> int, k: int)
    requires SortedBy(s, key) && |s| > 0 && k < key(s[0])
    ensures WithKey(s, key, k) == []
  {
    forall i | 0 <= i < |s|
      ensures key(s[i]) != k
    {
      assert key(s[0]) <= key(s[i]);
    }
    WithKeyAbsent(s, key, k);
  }

  lemma WithKeyInsertBehind<T>(x: T, s: seq<T>, key: T -> int, k: int)
    requires |s| > 0 && key(s[0]) <= key(x)
    requires WithKey(Insert(x, s[1..], key), key, k)
             == WithKey(s[1..], key, k) + (if key(x) == k then [x] else [])
    ensures WithKey(Insert(x, s, key), key, k)
            == WithKey(s, key, k) + (if key(x) == k then [x] else [])
  {
    var tail := s[1..];
    var ins := Insert(x, tail, key);
    var e := if key(x) == k then [x] else [];
    assert Insert(x, s, key) == [s[0]] + ins;
    assert s == [s[0]] + tail;
    calc {
      WithKey(Insert(x, s, key), key, k);
      WithKey([s[0]] + ins, key, k);
      { WithKeyAppend([s[0]], ins, key, k); }
      WithKey([s[0]], key, k) + WithKey(ins, key, k);
      WithKey([s[0]], key, k) + (WithKey(tail, key, k) + e);
      (WithKey([s[0]], key, k) + WithKey(tail, key, k)) + e;
      { WithKeyAppend([s[0]], tail, key, k); }
      WithKey(s, key, k) + e;
    }
  }

  /** Stability: among equal keys the sorted output keeps the input order. */
  lemma {:induction false} SortIsStable<T>(s: seq<T>, key: T -> int, k: int)
    ensures WithKey(SortBy(s, key), key, k) == WithKey(s, key, k)
  {
    if |s| > 0 {
      var init, last := s[..|s| - 1], s[|s| - 1];
      SortIsStable(init, key, k);
      WithKeyInsert(last, SortBy(init, key), key, k);
    }
  }

  /** `j` is the first position of `s` holding a minimal key. */
  ghost predicate EarliestMin<T>(s: seq<T>, key: T -> int, j: int)
  {
    && 0 <= j < |s|
    && (forall i :: 0 <= i < |s| ==> key(s[j]) <= key(s[i]))
    && (forall i :: 0 <= i < j ==> key(s[j]) < key(s[i]))
  }

  /** The head of the stably sorted sequence is the earliest element with minimal key. */
  lemma {:induction false} SortHeadIsEarliestMin<T>(s: seq<T>, key: T -> int) returns (j: nat)
    requires |s| > 0
    ensures EarliestMin(s, key, j) && SortBy(s, key)[0] == s[j]
  {
    var init, last := s[..|s| - 1], s[|s| - 1];
    if |init| == 0 {
      j := 0;
    } else {
      var j0 := SortHeadIsEarliestMin(init, key);
      var t := SortBy(init, key);
      SortByLast(s, key);
      if key(last) < key(t[0]) {
        assert Insert(last, t, key) == [last] + t;
        j := |s| - 1;
        LastIsEarliestMin(s, key, j0);
      } else {
        assert Insert(last, t, key)[0] == t[0];
        j := j0;
        EarlierStaysEarliestMin(s, key, j0);
      }
    }
  }

  /** The head of the sorted sequence is an element of minimal key. */
  lemma SortHeadIsMin<T>(s: seq<T>, key: T -> int)
    requires |s| > 0
    ensures SortBy(s, key)[0] in s
    ensures forall i :: 0 <= i < |s| ==> key(SortBy(s, key)[0]) <= key(s[i])
  {
    var j := SortHeadIsEarliestMin(s, key);
  }

  lemma SortByLast<T>(s: seq<T>, key: T -> int)
    requires |s| > 0
    ensures SortBy(s, key) == Insert(s[|s| - 1], SortBy(s[..|s| - 1], key), key)
  {
  }

  lemma LastIsEarliestMin<T>(s: seq<T>, key: T -> int, j0: nat)
    requires |s| > 1 && EarliestMin(s[..|s| - 1], key, j0) && key(s[|s| - 1]) < key(s[j0])
    ensures EarliestMin(s, key, |s| - 1)
  {
    var init := s[..|s| - 1];
    forall i | 0 <= i < |s| - 1
      ensures key(s[|s| - 1]) < key(s[i])
    {
      assert s[i] == init[i];
      assert key(init[j0]) <= key(init[i]);
    }
  }

  lemma EarlierStaysEarliestMin<T>(s: seq<T>, key: T -> int, j0: nat)
    requires |s| > 1 && EarliestMin(s[..|s| - 1], key, j0) && key(s[j0]) <= key(s[|s| - 1])
    ensures EarliestMin(s, key, j0)
  {
    var init := s[..|s| - 1];
    assert s[j0] == init[j0];
    forall i | 0 <= i < |s| - 1
      ensures key(s[j0]) <= key(s[i]) && (i < j0 ==> key(s[j0]) < key(s[i]))
    {
      assert s[i] == init[i];
    }
  }
}
